=== FILE: README.md ===
# TruBid auction marketplace — a Dafny model of its core

TruBid is a React single-page auction site backed by a hosted entity store.
This project models the part of it that decides things. It covers the
auction lifecycle on the listing page:

- the minimum next bid and placing a bid;
- closing an expired auction;
- buy-now;
- the winner and admin e-mails with their `{{key}}` placeholders and payment instructions.

Around that it models:

- the new-listing form's checks;
- the bid history of "My Bids" and of the account page;
- URL-to-page resolution;
- the buyer's payment dialog;
- the dashboard, admin-listing and user-table filters, and listing duplication;
- the photo list;
- the notification bell;
- e-mail template seeding and the template editor.

The model is functional throughout:

- Every store is an immutable value: a map from id to listing, a sequence of bids or templates in creation order.
- Every handler is a pure function from the old state to the new one.
- A clock reading is a parameter `now`.
- Prices are integer cents.
- A price typed into a form is `Num`: either a number of cents or `NaN`, as JavaScript's `parseFloat` gives.
- Strings are `seq<char>`.

Modules follow the source files:

| module | file | models |
|---|---|---|
| `Model` | model.dfy | listings, bids, users, payment settings, templates, mails, the store |
| `Auction` | auction.dfy | `src/pages/Listing.jsx`: bidding, closing, buy-now |
| `Notify` | notify.dfy | `src/pages/Listing.jsx`: winner and admin e-mails |
| `Render`, `Money` | render.dfy, money.dfy | placeholder replacement; `toFixed(2)` and `parseFloat` on prices |
| `CreateListing` | create_listing.dfy | `src/pages/CreateListing.jsx` |
| `BidViews` | bid_views.dfy | `src/pages/MyBids.jsx`, `src/pages/Account.jsx` |
| `Routing` | routing.dfy | `src/pages/index.jsx` |
| `Payments` | payments.dfy | `src/components/payments/PaymentForm.jsx` |
| `Dashboard`, `AdminListings`, `Users` | dashboard.dfy, admin_listings.dfy, users.dfy | the three list pages |
| `Images` | images.dfy | `src/components/listings/ImageUpload.jsx` |
| `Notifications` | notifications.dfy | `src/components/notifications/NotificationBell.jsx` |
| `Templates` | templates.dfy | `src/pages/EmailTemplates.jsx`, `src/pages/initializeEmailTemplates.jsx`, the template seeding of `src/pages/Listing.jsx` |
| `Seqs`, `Text` | seqs.dfy, text.dfy | filtering, subsequences, lower-casing, substring search |

## Behaviour of the code worth knowing

The model keeps these behaviours of the code as they are:

- **Bid guards.** `handleBid` checks only sign-in and the amount. Whether the listing is still open and whether the bidder is the seller only decide whether the form is rendered (`src/pages/Listing.jsx:439`, `:517`). They are therefore preconditions of `Auction.PlaceBid` and `Auction.BuyNow`, not error results.
- **Minimum bid.** The minimum is measured from the current price, or from the starting price while the current price is 0. The increment falls back to $1.00 while the listing's increment is 0 (`src/pages/Listing.jsx:344-349`).
- **Closing time.** The close runs only when `end_date < now` (`src/pages/Listing.jsx:298-304`). At the very instant of the end date the auction is still open.
- **Ties.** The code sorts bids by amount alone (`src/pages/Listing.jsx:306-314`) and leaves the order of equal amounts to the store. The model picks the earliest bid in creation order.
- **Admin notice.** With no admin at all nobody is notified, not even the seller (`src/pages/Listing.jsx:245-255`).
- **Atomicity.** Buy-now and bidding are each two separate writes in the code. Here each is one step.
- **Close failures.** A failing store call part-way through a close aborts the rest of the close in the code. The model covers the close that succeeds.
- **The stand-alone seeder never runs.** Nothing calls `initializeDefaultTemplates`. `src/pages/index.jsx:27` imports the default export of `src/pages/initializeEmailTemplates.jsx`, whose only export is the named one at line 3. Line 114 then renders that import as a lower-case element. The function is still modelled, as `Templates.InitializeDefaults`. The template seeding that does run is the listing page's (`src/pages/Listing.jsx:52-84`) and the editor's (`src/pages/EmailTemplates.jsx:141-160`).

## Model

| member | source | states |
|---|---|---|
| Auction.MinimumBid | src/pages/Listing.jsx:344-349 | 0 with no listing loaded; otherwise strictly above the asking base (current price, or starting price while that is 0) for any increment that is not negative; exactly the increment above it when the increment is set, and $1.00 (100 cents) above it while the increment is 0 |
| Auction.PlaceBid | src/pages/Listing.jsx:392-429 | refused exactly when nobody is signed in or the amount is 0, NaN or below the minimum (as printed with two decimals and parsed back), with the store untouched and the right message; otherwise one new `active` bid by the bidder for that amount, under a fresh id, and only the listing's current price changed, to the amount, which therefore rises |
| Auction.BestBid | src/pages/Listing.jsx:306-314 | the head of the bids sorted by amount, highest first: none iff the listing has no bid; otherwise a bid of the listing at least as high as every other, and strictly higher than every earlier one |
| Auction.Settle | src/pages/Listing.jsx:316-319 | the chosen bid `won`, every other bid of the listing `lost`, every other field and every other listing's bid unchanged |
| Auction.CloseAuction | src/pages/Listing.jsx:296-342 | no effect unless the listing is present, not `ended`/`sold` and past its end date; otherwise only its status becomes `ended`; only statuses of its bids change; an award iff it had bids, naming the bidder of the settled winner, a bid no other bid exceeds, at the listing's current price |
| Auction.CloseIdempotent | src/pages/Listing.jsx:298-304 | a second close, at any time, changes nothing and announces nothing |
| Auction.WinnerUnique | src/pages/Listing.jsx:313-319 | at most one bid of a listing is the settled winner |
| Auction.BuyNow | src/pages/Listing.jsx:351-390 | refused without a signed-in buyer, store untouched; otherwise one `won` bid by the buyer at the buy-now price, the listing `sold` at that price, other bids untouched, and the buyer announced at that price |
| Auction.BuyNowForecloses | src/pages/Listing.jsx:360-370 | after a purchase nobody is offered the bid form and the closing poll leaves the listing alone |
| Auction.PlaceBidKeepsTracks | src/pages/Listing.jsx:411-421 | an accepted bid keeps the listing well formed, its price covering every bid and equal to one of them |
| Auction.FinalPriceIsWinningBid | src/pages/Listing.jsx:313-331 | when the price has tracked the bids, the announced final price is the amount of the bid marked `won` |
| Auction.RunBids | src/pages/Listing.jsx:392-429 | a run of bid attempts on an open listing changes nothing of the listing but its current price |
| Auction.RunBidsMonotone | src/pages/Listing.jsx:403-421 | over any run of attempts the current price never falls and keeps tracking the top bid |
| Auction.OutbidScenario | src/pages/Listing.jsx:296-429 | A bids 105.00 on a 100.00 listing with increment 5.00; B's 100.00 is refused with minimum 110.00; B's 120.00 is accepted; the close marks B `won`, A `lost`, and announces B at 120.00 |
| Money.FixedRoundTrip | src/pages/Listing.jsx:348 | printing a price with two decimals and parsing it back gives the same price, so the page's comparison against the printed minimum is exact |
| Money.Fixed2 | src/pages/Listing.jsx:348 | `toFixed(2)` on a price in cents: the text ends in a point and two digits and starts with a minus sign exactly for a negative price; `Money.FixedRoundTrip` reads it back |
| Money.ParseFixed2 | src/pages/Listing.jsx:348 | `parseFloat` on the page's printed prices: a number only for text ending in a point and two digits, negative only after a leading minus, and for a price that is not negative the two decimals are its cents |
| Text.Lower | src/pages/Dashboard.jsx:59-60 | `toLowerCase`: the same length, each character lowered on its own, and no capital A to Z left |
| Text.LocalPart | src/pages/Listing.jsx:220 | `split('@')[0]`: the longest start of the address that holds no `@`, ending where the first `@` stands |
| Render.ReplaceFills | src/pages/Listing.jsx:227-231 | a global replace of one `{{key}}` in a template's text fills exactly that key's holes and changes no literal text |
| Render.ReplaceAll | src/pages/Listing.jsx:228-230 | the global replace of one placeholder: a match at the start of the text is replaced by the value, replacing a placeholder by itself changes nothing, and a value as long as the placeholder keeps the text's length; `Render.ReplaceFills` states which text it changes |
| Render.Substitute | src/pages/Listing.jsx:227-231 | the replaces run key after key: data binding every key to its own placeholder changes nothing, and values as long as their placeholders keep the length; `Render.SubstituteFills` states the result as the filled template |
| Render.SubstituteFills | src/pages/Listing.jsx:227-231 | replacing every key of the e-mail data in turn is the same as filling all the template's holes |
| Render.ExpandLeavesNoHole | src/pages/Listing.jsx:227-231 | after substitution no hole of a substituted key remains, and every other segment is kept |
| Render.SubstituteNoPlaceholder | src/pages/Listing.jsx:227-231 | a text with none of the placeholders comes back unchanged |
| Render.RenderMail | src/pages/Listing.jsx:278-282 | subject and body are each substituted with the same data, hole by hole |
| Notify.MethodSections | src/pages/Listing.jsx:135-190 | one section per offered method, in the given order, and no other section |
| Notify.PaymentInstructions | src/pages/Listing.jsx:132-205 | "contact the seller" iff there is no settings record; otherwise the offered methods, in the order PayPal, Cash App, Venmo, bank transfer, with the additional instructions last iff they are set |
| Notify.OfferedExactly | src/pages/Listing.jsx:135-190 | a method appears iff the listing accepts it (all four when it lists none) and its credential is set |
| Notify.FindTemplate | src/pages/Listing.jsx:125 | none iff no template has the type; otherwise the first one that has it |
| Notify.Bind | src/pages/Listing.jsx:219-225 | pairs each key with its value, in order |
| Notify.WinnerVars | src/pages/Listing.jsx:207-225 | the five winner keys in the page's order, bound to the winner's address up to the `@`, the listing's title, the price printed with two decimals (which parses back to the amount), the payment instructions and the transaction details |
| Notify.TransactionDetails | src/pages/Listing.jsx:207-214 | the transaction summary opens with the item's title and closes with `TRU-` and the reference: the first eight characters of the listing's id, or all of a shorter one |
| Notify.WinnerMail | src/pages/Listing.jsx:122-241 | no mail without an `auction_won` template; otherwise one mail to the winner with the first such template's subject and body substituted |
| Notify.AdminRecipients | src/pages/Listing.jsx:245-255 | nobody without admins; otherwise every admin in order, then the seller iff known and not already an admin, and nobody else |
| Notify.AdminVars | src/pages/Listing.jsx:257-276 | the four admin keys in the page's order, bound to the listing's title, the final price printed with two decimals (which parses back to it), the winner's address and the auction summary |
| Notify.AuctionDetails | src/pages/Listing.jsx:257-266 | the auction summary opens with the item's title and its category, or "Not specified" when the category is empty, and closes with the listing's id |
| Notify.MailEach | src/pages/Listing.jsx:284-290 | one identical mail per recipient, in order |
| Notify.AdminMails | src/pages/Listing.jsx:243-294 | none without admins or an `admin_notification` template; otherwise one copy of the substituted notice per recipient |
| Notify.AwardMails | src/pages/Listing.jsx:321-331 | nothing without an award; with one, the winner's mail first when an `auction_won` template exists, followed by exactly the admin notices, and only the admin notices when it does not |
| Notify.ClosingMailsAnnounceWinner | src/pages/Listing.jsx:313-331 | a close without an award mails nobody; one with an award mails first the bidder it marked `won`, quoting the listing's current price |
| CreateListing.Violations | src/pages/CreateListing.jsx:98-120 | exactly the checks the form fails |
| CreateListing.Submit | src/pages/CreateListing.jsx:93-131 | a refusal names a failed check; a creation passes all checks and is active at its starting price, with the parsed prices, the form's title, description, category, condition, photos and payment flags, and the id, seller and creation time the store supplies |
| CreateListing.FirstViolationReported | src/pages/CreateListing.jsx:102-120 | the refusal is the first failing check in the order starting price, increment, buy-now price, end date |
| CreateListing.CreatedIsWellFormed | src/pages/CreateListing.jsx:102-131 | a created listing has positive prices, a buy-now price above the start, an end after now, and a first minimum bid of start plus increment |
| CreateListing.Toggle | src/pages/CreateListing.jsx:52-60 | flips one method's flag and no other |
| CreateListing.ToggleTwice | src/pages/CreateListing.jsx:52-60 | flipping twice restores the flags |
| CreateListing.ToggleCommutes | src/pages/CreateListing.jsx:52-60 | flips of two methods commute |
| BidViews.IndexListings | src/pages/MyBids.jsx:52-55 | every fetched listing is in the map under its own id, and nothing else is |
| BidViews.Orphans | src/pages/MyBids.jsx:36-43 | exactly the bids whose listing was not found are deleted |
| BidViews.Load | src/pages/MyBids.jsx:29-58 | the surviving bids are exactly those whose listing was fetched; the deleted ones exactly those whose listing is gone, not those whose fetch failed otherwise |
| BidViews.LoadKeepsOrder | src/pages/MyBids.jsx:49-51 | survivors keep their relative order |
| BidViews.LoadBidsPage | src/pages/MyBids.jsx:23-66 | nobody signed in clears only the error line and leaves the spinner on; a failed `User.me()` or `Bid.filter` shows "Unable to load bids. Please try refreshing the page." with no bids and no listings, and only then is there an error; otherwise the page lists exactly the user's bids whose listing was fetched |
| BidViews.LoadAccountPage | src/pages/Account.jsx:30-70 | a failed load is swallowed: the page keeps its lists and never shows an error, only the spinner stops; nobody signed in changes nothing; otherwise exactly the user's bids whose listing was fetched |
| BidViews.BidPagesAgree | src/pages/MyBids.jsx:23-66 | after a successful load "My Bids" and the account page show the same bids and listings, whatever they showed before; after a failed one "My Bids" is empty while the account page keeps its earlier lists |
| BidViews.LoadedBidsHaveListings | src/pages/Account.jsx:39-65 | every surviving bid finds its stored listing in the page's map |
| BidViews.ShowTab | src/pages/MyBids.jsx:68-87 | a tab shows exactly the loaded bids that pass its test, and only those |
| BidViews.TabsPartition | src/pages/MyBids.jsx:68-87 | a bid with a known listing is in the "all" tab and in exactly one of active, won and lost; a bid without one is in no tab |
| BidViews.AccountView | src/pages/Account.jsx:89-99 | the active and won lists hold exactly the loaded bids meeting their tests |
| BidViews.AccountAgreesWithTabs | src/pages/Account.jsx:89-99 | no bid is both active and won; a listing ending exactly now puts its bids in neither; won agrees with the "My Bids" won tab, active with its active tab except at that instant |
| Routing.DropTrailingSlash | src/pages/index.jsx:66-68 | one trailing slash is removed, and nothing else changes |
| Routing.Segment | src/pages/index.jsx:69-72 | the candidate holds no `/` and no `?` |
| Routing.FindPage | src/pages/index.jsx:74 | none iff no name matches ignoring case; otherwise the first name that does |
| Routing.CurrentPage | src/pages/index.jsx:65-76 | always a page name; the one matching the last segment ignoring case, or "Dashboard" when none does |
| Routing.PagesDistinct | src/pages/index.jsx:33-63 | no two page names are equal ignoring case |
| Routing.MatchingSegmentResolves | src/pages/index.jsx:74-75 | a segment naming a page in any letter case resolves to that page's own spelling |
| Routing.SegmentOfPath | src/pages/index.jsx:66-72 | the segment of `prefix/name`, with or without a trailing slash, is `name` |
| Routing.SegmentOfQueryPath | src/pages/index.jsx:69-72 | the segment of `prefix/name?query` is `name` |
| Routing.PagePathsResolve | src/pages/index.jsx:65-76 | every page is reached from its path, with a trailing slash, and with a query string |
| Payments.DefaultMethod | src/components/payments/PaymentForm.jsx:53-61 | none iff no method is eligible; otherwise an eligible method with no eligible method before it in the order PayPal, Cash App, Venmo, bank transfer |
| Payments.DefaultIsFirstEligible | src/components/payments/PaymentForm.jsx:53-61 | the preselection is the head of the eligible methods in priority order |
| Payments.TokenMethod | src/components/payments/PaymentForm.jsx:194-209 | a menu value names the method that carries it, and only that one |
| Payments.AvailableTokens | src/components/payments/PaymentForm.jsx:194-209 | no entries without settings, at most four |
| Payments.AvailableInOrder | src/components/payments/PaymentForm.jsx:194-209 | the menu lists the methods whose credential is set, in the fixed order, whatever the listing accepts |
| Payments.AvailableExactly | src/components/payments/PaymentForm.jsx:194-209 | a method is on the menu iff its credential is set |
| Payments.WinnerMethodsSelectable | src/components/payments/PaymentForm.jsx:194-209 | every method the winner e-mail offers is on the payment dialog's menu |
| Payments.LoadAsWritten | src/components/payments/PaymentForm.jsx:43-68 | the settings are stored, no method is ever preselected, and the load error is shown iff settings exist and the listing carries payment flags |
| Payments.PriorityToken | src/components/payments/PaymentForm.jsx:53-61 | the chain's value is none iff no method is eligible, and the intended menu value except for Cash App |
| Payments.Load | src/components/payments/PaymentForm.jsx:43-68 | the corrected load: no error; a preselection iff settings and flags exist and some method is eligible, and then the menu value of the first eligible method, which is on the menu |
| Payments.CashAppDefaultMismatch | src/components/payments/PaymentForm.jsx:49-61 | with only a Cash App id set, the load as written preselects nothing and shows the load error; the chain would pick `"cashapp"`, which no menu entry carries; the corrected load picks `"cash_app"` |
| Payments.ApplyAsWritten | src/components/payments/PaymentForm.jsx:237-242 | choosing a menu entry leaves the method the dialog submits unchanged |
| Payments.Apply | src/components/payments/PaymentForm.jsx:237-242 | corrected: choosing an entry makes it the submitted and shown method; other inputs leave it alone |
| Payments.Submit | src/components/payments/PaymentForm.jsx:161-192 | refused, with nothing created, iff no method is set or the contact is empty; otherwise one pending Payment for the listing's current price with the listing and bid ids, method, contact and notes |
| Payments.RunAsWrittenKeepsMethod | src/components/payments/PaymentForm.jsx:237-242 | no sequence of dialog inputs changes the method as written |
| Payments.AsWrittenNeverSubmits | src/components/payments/PaymentForm.jsx:43-68 | as written, no sequence of user actions after loading lets the dialog submit |
| Payments.RunLastChoice | src/components/payments/PaymentForm.jsx:237-242 | corrected: the last menu choice is the method |
| Payments.ChosenMethodSubmitted | src/components/payments/PaymentForm.jsx:161-192 | corrected: choosing a method and entering a contact submits a pending Payment with exactly that method and contact |
| Payments.LastSix | src/components/payments/PaymentForm.jsx:74 | the last six characters, or all of a shorter id |
| Payments.InvoiceEmail | src/components/payments/PaymentForm.jsx:70-159 | the invoice is for the current price; a method section iff the method chosen in the form fields has its credential set, and then for that method; additional instructions iff set; a notes line iff notes were entered |
| Payments.InvoiceMethodOnMenu | src/components/payments/PaymentForm.jsx:82-150 | the invoice only explains a method that the dialog's menu offers |
| Dashboard.Visible | src/pages/Dashboard.jsx:41-47 | exactly the present, active, titled, priced listings ending after now |
| Dashboard.VisibleKeepsOrder | src/pages/Dashboard.jsx:41-47 | the open listings come in the order the store lists them |
| Dashboard.LoadListings | src/pages/Dashboard.jsx:36-56 | an error iff `Listing.list()` fails, and then "Unable to load listings. Please try refreshing the page." with no listing; otherwise exactly the open listings, in the store's order |
| Dashboard.Filtered | src/pages/Dashboard.jsx:58-63 | exactly the listings matching the search (title or description, ignoring case) and the category |
| Dashboard.FilteredKeepsOrder | src/pages/Dashboard.jsx:58-63 | the result is an order-preserving subsequence |
| Dashboard.NoFilterShowsAll | src/pages/Dashboard.jsx:58-63 | an empty search under "all" shows every listing |
| AdminListings.Filtered | src/pages/AdminListings.jsx:61-65 | exactly the listings whose title contains the search ignoring case and whose status matches the menu |
| AdminListings.FilteredKeepsOrder | src/pages/AdminListings.jsx:61-65 | order is kept, and no search under "all" keeps everything |
| AdminListings.Duplicate | src/pages/AdminListings.jsx:92-106 | identity and audit fields cleared, active at the starting price, ending at the given date, title marked " (Copy)" |
| AdminListings.DuplicateCopiesTheRest | src/pages/AdminListings.jsx:97-106 | every other field is copied; a copy of a well-formed listing is well formed and open for bids |
| AdminListings.UpdateImages | src/pages/AdminListings.jsx:67-74 | no selection or an unknown one, no change; otherwise the selected listing, every field as it was selected, written back with the new photos, and every other listing untouched |
| AdminListings.StaleSelectionLowersPrice | src/pages/AdminListings.jsx:67-74 | a selection made before a bid raised the price writes the old price back, so the listing's price no longer covers its top bid |
| AdminListings.UpdateImagesOnlyPhotos | src/pages/AdminListings.jsx:67-74 | with an up-to-date selection only its photos change, and writing back its own photos changes nothing |
| Images.RemoveAt | src/components/listings/ImageUpload.jsx:30-32 | the photo at the index is removed and the rest keep their order; an out-of-range index changes nothing |
| Images.Upload | src/components/listings/ImageUpload.jsx:10-28 | no files or any failed upload, no change; otherwise the old photos followed by the new URLs in file order |
| Images.AllUploaded | src/components/listings/ImageUpload.jsx:16-21 | all URLs in file order iff every upload succeeded |
| Images.RemoveUndoesUpload | src/components/listings/ImageUpload.jsx:10-32 | uploading one photo and removing it again restores the list |
| Users.Filtered | src/pages/ManageUsers.jsx:119-122 | exactly the users whose e-mail or name contains the search ignoring case |
| Users.FilteredKeepsOrder | src/pages/ManageUsers.jsx:119-122 | order is kept, and an empty search keeps everyone |
| Users.ToggleRole | src/pages/ManageUsers.jsx:226 | "admin" becomes "user", every other role "admin" |
| Users.ToggleRoleTwice | src/pages/ManageUsers.jsx:226 | two presses restore exactly the roles "admin" and "user" |
| Users.UpdateRole | src/pages/ManageUsers.jsx:68-79 | only the role of that user changes |
| Users.UpdateUser | src/pages/ManageUsers.jsx:99-117 | only that user's name and role change, whatever else the edit form held |
| Users.RoleUpdateIsUserEdit | src/pages/ManageUsers.jsx:68-117 | the role button is the user edit with the name left as stored |
| Users.Invite | src/pages/ManageUsers.jsx:90-97 | an empty address or one without `@` changes nothing; otherwise the dialog closes and clears |
| Users.InviteIdempotent | src/pages/ManageUsers.jsx:90-97 | a second submit changes nothing more |
| Users.NoSelfControls | src/pages/ManageUsers.jsx:211-227 | whatever role presses and edit saves an admin makes from the table, in any order, their own stored record stays as it was |
| Users.Press | src/pages/ManageUsers.jsx:211-242 | a row without controls (the admin's own) changes nothing; otherwise the role button toggles the role shown on the row, and an edit save writes the edited name and role; no other user changes |
| Users.PressAll | src/pages/ManageUsers.jsx:211-242 | a session of presses keeps the set of users, and a user whose row was never pressed keeps their record |
| Notifications.CountUnread | src/components/notifications/NotificationBell.jsx:64 | at most the number of notifications |
| Notifications.Load | src/components/notifications/NotificationBell.jsx:33-76 | no user empties the list; a fetched list (null as empty) replaces it with its unread count; a failed fetch keeps it and sets the error |
| Notifications.LoadConsistent | src/components/notifications/NotificationBell.jsx:33-76 | loading keeps the badge equal to the unread count, and a failed fetch hides the badge |
| Notifications.SetRead | src/components/notifications/NotificationBell.jsx:82-86 | only the notification with the id is marked read |
| Notifications.MarkAsReadAsWritten | src/components/notifications/NotificationBell.jsx:78-92 | the count drops by one, floored at zero, whether or not the item was unread |
| Notifications.MarkReadTwiceDrifts | src/components/notifications/NotificationBell.jsx:87 | clicking a read notification lowers the badge to zero while one stays unread |
| Notifications.MarkAsRead | src/components/notifications/NotificationBell.jsx:78-92 | corrected: the count is the number still unread |
| Notifications.MarkAsReadCounts | src/components/notifications/NotificationBell.jsx:82-87 | corrected: the count drops by one iff the item was unread, and then agrees with the code as written |
| Templates.DefaultTemplate | src/pages/EmailTemplates.jsx:52-139 | `null` iff the type is not one of the two known ones; a throw iff the winner template is asked for as written; otherwise a template of the requested type, without id, from the no-reply address |
| Templates.DefaultsFullyRendered | src/pages/EmailTemplates.jsx:58-134 | every placeholder of a built-in template, HTML or plain text, is one the mailer binds, so no `{{...}}` survives in its e-mail |
| Templates.Create | src/pages/Listing.jsx:74 | appends the record under an id no stored record has |
| Templates.CreateAll | src/pages/Listing.jsx:70-80 | appends the records in order |
| Templates.Seed | src/pages/Listing.jsx:70-80 | the stored records are kept as they were, and at most as many records as there are defaults are added |
| Templates.InitializeDefaults | src/pages/initializeEmailTemplates.jsx:3-104 | as written, nothing is created, because building the defaults throws at line 32; with the `$` escaped, the stored records are kept, at most one record per default is added, and every default whose create succeeds is stored |
| Templates.SeedAddsOnlyMissing | src/pages/Listing.jsx:71-74 | every added record copies a default whose type was missing and whose create succeeded |
| Templates.SeedStoresAll | src/pages/Listing.jsx:70-80 | every default whose create succeeds is stored afterwards, whatever the other creates did |
| Templates.SeedIdempotent | src/pages/Listing.jsx:71-72 | a run after a clean run creates nothing; a clean run after any run leaves every default type stored |
| Templates.SeedComplete | src/pages/Listing.jsx:71-72 | with every type stored, seeding creates nothing |
| Templates.SeedUntilFailure | src/pages/EmailTemplates.jsx:141-160 | the editor's loop runs to the end iff no missing type is one it stops at, and then stores what the listing page's loop stores |
| Templates.DoneStoresAll | src/pages/EmailTemplates.jsx:146-156 | when the editor's loop runs to the end, every default's type is stored |
| Templates.CompleteUntilFailure | src/pages/EmailTemplates.jsx:146-154 | with every default's type stored, the editor's loop runs to the end and creates nothing |
| Templates.SeedersAgree | src/pages/EmailTemplates.jsx:141-160 | with the `$` escaped and no failed create of a missing type, the editor's loop stores what the stand-alone seeder stores and the editor stops loading; as written the stand-alone seeder stores nothing |
| Templates.EditorSeedStopsAtFailure | src/pages/EmailTemplates.jsx:146-157 | a failed first create stops the editor's seeder before the second default, while the carry-on seeder still creates it |
| Templates.LastIndex | src/pages/EmailTemplates.jsx:165-168 | the last record of the type, or -1 iff there is none |
| Templates.Latest | src/pages/EmailTemplates.jsx:165-168 | one entry per stored type, the last record of that type |
| Templates.Placeholder | src/pages/EmailTemplates.jsx:170-179 | nothing iff building the default throws (the winner template, as written); otherwise the default subject and body of the type, active, without id |
| Templates.Fill | src/pages/EmailTemplates.jsx:170-180 | the map's records kept; every editor type it lacks filled in by its placeholder |
| Templates.LoadTemplates | src/pages/EmailTemplates.jsx:162-188 | the load error iff, as written, no `auction_won` is stored; otherwise every stored type and every editor type present, stored types showing their last record and missing editor types their placeholder |
| Templates.LoadedUnderOwnType | src/pages/EmailTemplates.jsx:165-180 | every record shown is filed under its own type |
| Templates.EditorAgreesWithMailer | src/pages/EmailTemplates.jsx:165-168 | with one record per type, the editor shows the record the closing code mails from |
| Templates.Open | src/pages/EmailTemplates.jsx:141-188 | a loop that ran to the end loads the editor, which is empty with the load error when the listing fails or a placeholder throws; a loop that stopped leaves the page loading |
| Templates.OpenAsWrittenHangs | src/pages/EmailTemplates.jsx:141-160 | as written, a store without `auction_won` is left as it was and the page never stops loading |
| Templates.OpenEscapedLoads | src/pages/EmailTemplates.jsx:141-188 | with the `$` escaped and nothing failing, the editor opens on any store without error, holding what the listing page's loop would have created |
| Templates.OpenShowsStored | src/pages/EmailTemplates.jsx:141-188 | once the editor has opened without error, every editor type is stored and shown from the store, never as a placeholder |
| Templates.OpensOnComplete | src/pages/EmailTemplates.jsx:141-188 | a store holding both editor types opens without error and without creating anything, as written too |
| Templates.ListingSeedLetsEditorOpen | src/pages/Listing.jsx:52-84 | after the listing page's seeding with no failed create, the editor opens without error and creates nothing, as written too |
| Templates.OpenListFails | src/pages/EmailTemplates.jsx:162-187 | a failed listing leaves the editor with no records and the load error, unless seeding stopped first |
| Templates.HandleChange | src/pages/EmailTemplates.jsx:211-219 | only the one field of the active type's record changes |
| Templates.ChangeBack | src/pages/EmailTemplates.jsx:211-219 | setting a field back to its value restores the editor |
| Templates.Update | src/pages/EmailTemplates.jsx:198 | replaces the record with the id and no other |
| Templates.HandleSave | src/pages/EmailTemplates.jsx:190-209 | a record with an id updates it (an unknown id fails); one without is created; the editor keeps its record without the new id |
| Templates.SaveTwiceDuplicates | src/pages/EmailTemplates.jsx:196-201 | from an id-less record of a type the store lacks, save, edit, save stores two records of the type; the editor shows the second text and the mailer uses the first |
| Templates.EmptyEditorSavesTwice | src/pages/EmailTemplates.jsx:190-219 | in an editor with no records, edit, save, edit, save creates two records, each holding only the subject typed before it, neither of any template type |
| Templates.FailedLoadSavesTwice | src/pages/EmailTemplates.jsx:162-219 | after a load whose listing failed, edit, save, edit, save stores two new records of no template type |
| Templates.HandleSaveKeepingId | src/pages/EmailTemplates.jsx:196-201 | corrected: the same store effect, and a created record's id is written back into the editor |
| Templates.SaveTwiceUpdates | src/pages/EmailTemplates.jsx:196-201 | corrected: save, edit, save keeps one record with the latest text, and editor and mailer agree |
| Templates.EmptyEditorSavesOnce | src/pages/EmailTemplates.jsx:190-219 | corrected: in an editor with no records, edit, save, edit, save creates one record, holding the latest subject |
| Templates.FailedLoadSavesOnce | src/pages/EmailTemplates.jsx:162-219 | corrected: after a failed load the same steps store one record, holding the latest subject |

## Left out

- Store and SDK calls (the entity store, `SendEmail`, `UploadFile`, `InvokeLLM`) are not modelled as calls. Stores are values, a write is a new value, a mail is a `Mail` value, and an upload is its result (`Option<string>`).
- The polling timers (`src/pages/Listing.jsx:41`, `src/components/notifications/NotificationBell.jsx:25-31`) are not modelled, and neither are concurrent handlers. Each operation is one sequential step, and a bid's two writes happen together.
- Floating-point prices are not modelled; prices are integer cents. `toFixed(2)` and `parseFloat` are modelled only on prices, and a typed amount arrives already parsed as `Num`.
- Date parsing and display formatting are not modelled; times are integers. The date lines of both e-mails, and the calendar month a duplicate adds, are left out: `AdminListings.Duplicate` takes the end date as a parameter.
- The HTML markup of e-mails and default templates is left out. The built-in HTML bodies keep their placeholders in order; the document head, the style sheet, the tags around the placeholders and the lines without placeholders are left out of their text. The generated payment, transaction and auction fragments keep their data fields but not their tags.
- The listing-created e-mail (`src/pages/CreateListing.jsx:133-164`) is not modelled: it is a mail sent after the listing exists and changes no state.
- The AI description helper of the new-listing form is not modelled: it is a foreign call.
- `src/pages/EditListing.jsx` is not modelled. It has no checks, so edits can rewrite prices after bids exist, which the price invariants of `Auction` do not cover.
- The settings screens (`PaymentSettings.jsx`, `NotificationSettings.jsx`), `Layout.jsx`, `Welcome.jsx` and `Login.jsx` are not modelled: they are UI only.
- Deleting a user or a listing from the admin tables is not modelled: each is one store delete.
- Admin-role redirects are not modelled.
- Rendering is not modelled, and neither are messages other than the handlers' errors. The loading spinner is modelled only on the two bid pages, where nobody being signed in leaves it on.
- The help text's limit of eight photos is not modelled: the code does not enforce it.
- The store's sort order is taken as given. Bids are in creation order, `Bid.filter(..., "-created_date")` results are the given sequence, and the notification fetch limit of 10 is not modelled.
- `createEmailBody` is modelled as `Payments.InvoiceEmail`, although nothing in the dialog calls it.
- Auction.CloseAuction: the close that fails part-way (a store error after some bids were updated) is not modelled.
- Auction.BuyNow: the `won` bid names the buyer as its creator. The purchase (`src/pages/Listing.jsx:360-364`) passes no `created_by`, unlike a bid (`:416`); the model relies on the entity store recording the signed-in user as the creator, as the bid list (`:586`) and the payment dialog (`:608`) also do.
- Auction.PlaceBid: both sign-in refusals share `SignInRequired`; the buy-now message differs in wording only.
- Templates.Open: a failed `EmailTemplate.list()` during seeding is not modelled separately; like a failed create, it leaves the editor loading.
- Templates.DefaultsFullyRendered: the editor's HTML winner body is the one with the `$` escaped. As written that body is never built (see Findings).
- Dashboard.Filtered: case is ignored for the letters A to Z only. `toLowerCase` lower-cases all of Unicode, so a search for "CAFÉ" finds "Café" in the code but not in the model.
- AdminListings.Filtered: case is ignored for the letters A to Z only, while `toLowerCase` lower-cases all of Unicode.
- Users.Filtered: case is ignored for the letters A to Z only, while `toLowerCase` lower-cases all of Unicode.
- Render.ReplaceAll: the value is inserted literally. `String.replace` with a string replacement expands `$$`, `$&`, `` $` `` and `$'` in it. A title containing `$&` is therefore mailed by the code with `{{item_title}}` in its place. The model does not do this.
- Render.ReplaceFills: it inherits the literal insertion of `Render.ReplaceAll`.
- Payments.InvoiceEmail: an unset bank field prints as "" in the model. The code concatenates it and prints "undefined" (`src/components/payments/PaymentForm.jsx:127-129`).

## Findings

| source | as written | input that shows it | evidently intended | confidence | as-written member | corrected member |
|---|---|---|---|---|---|---|
| src/components/payments/PaymentForm.jsx:51 | `const settings = settings[0]` reads the constant it declares, which throws, so the catch shows "Unable to load payment information" and no method is preselected | any settings record and a listing with payment flags, e.g. only a Cash App id and all methods accepted | preselect the first eligible method from the first settings record | high, not executed | Payments.LoadAsWritten, Payments.CashAppDefaultMismatch | Payments.Load, Payments.DefaultIsFirstEligible |
| src/components/payments/PaymentForm.jsx:56 | the priority chain sets `"cashapp"`, while the menu value is `"cash_app"` (line 200) | settings with only a Cash App id, listing accepting all methods | preselect `"cash_app"` | high, not executed | Payments.PriorityToken, Payments.CashAppDefaultMismatch | Payments.Load |
| src/components/payments/PaymentForm.jsx:237-242 | choosing a method writes `payment.payment_method`, but the submit guard (line 166) and the menu's value read `paymentMethod`, which is never set | load, choose any method, enter a contact, submit: refused with "Please fill out all required fields" | the chosen method is what is submitted | high, not executed | Payments.ApplyAsWritten, Payments.AsWrittenNeverSubmits | Payments.Apply, Payments.ChosenMethodSubmitted |
| src/components/notifications/NotificationBell.jsx:87 | marking read always lowers the count, also for a notification already read | one read and one unread notification, count 1; click the read one: count 0, badge hidden, one still unread | count the notifications still unread | medium, not executed | Notifications.MarkAsReadAsWritten, Notifications.MarkReadTwiceDrifts | Notifications.MarkAsRead, Notifications.MarkAsReadCounts |
| src/pages/EmailTemplates.jsx:79 | `${{final_price}}` inside the backtick literal is a substitution of the object literal `{final_price}`. No binding of that name exists, so building the winner default throws a ReferenceError. The same line is at `src/pages/initializeEmailTemplates.jsx:32`. | a store without an `auction_won` template, e.g. an empty store: the editor creates nothing and shows "Loading..." for good | `\${{final_price}}`: a dollar sign before the price placeholder | high, not executed | Templates.DefaultTemplate, Templates.OpenAsWrittenHangs | Templates.OpenEscapedLoads, Templates.DefaultsFullyRendered |
| src/pages/EmailTemplates.jsx:196-201 | saving a template without id creates a record, but the editor never learns its id, so the next save creates another | the second listing (line 164) fails, so the editor shows no records and "Error loading templates"; type a subject, save, type another, save: two new records, neither of any template type | the second save updates the created record | medium, not executed | Templates.HandleSave, Templates.FailedLoadSavesTwice, Templates.SaveTwiceDuplicates | Templates.HandleSaveKeepingId, Templates.FailedLoadSavesOnce, Templates.SaveTwiceUpdates |

=== FILE: admin_listings.dfy ===
/**
 * The admin's listing table: its search and status filter, duplicating a
 * listing, and replacing a listing's photos.
 */
module AdminListings {

  import opened Model
  import opened Text
  import Seqs
  import Auction

  /** The status as the store spells it. */
  function StatusName(s: ListingStatus): string {
    match s
    case Draft => "draft"
    case Active => "active"
    case Ended => "ended"
    case Sold => "sold"
  }

  /** Title search ignoring case, and the status menu: "all" or one status. */
  predicate Matches(l: Listing, search: string, status: string) {
    IncludesIgnoringCase(l.title, search) && (status == "all" || StatusName(l.status) == status)
  }

  /** `filteredListings`. */
  function Filtered(listings: seq<Listing>, search: string, status: string): (r: seq<Listing>)
    ensures forall i :: 0 <= i < |r| ==> r[i] in listings && Matches(r[i], search, status)
    ensures forall i :: 0 <= i < |listings| && Matches(listings[i], search, status) ==> listings[i] in r
  {
    Seqs.Filter(listings, (l: Listing) => Matches(l, search, status))
  }

  /** The filtered table keeps the store's order, and "all" with no search text keeps everything. */
  lemma FilteredKeepsOrder(listings: seq<Listing>, search: string, status: string)
    ensures Seqs.IsSubseq(Filtered(listings, search, status), listings)
    ensures Filtered(listings, "", "all") == listings
  {
    Seqs.FilterIsSubseq(listings, (l: Listing) => Matches(l, search, status));
    forall i | 0 <= i < |listings| ensures Matches(listings[i], "", "all") {
      EmptyIsEverywhere(listings[i].title);
    }
    Seqs.FilterAll(listings, (l: Listing) => Matches(l, "", "all"));
  }

  /**
   * `handleDuplicateListing`: the record sent to the store. Identity and
   * audit fields are cleared (the store assigns new ones), the copy is active
   * again at its starting price, ends at `end` (one calendar month after
   * now, computed by the caller), and its title is marked as a copy.
   */
  function Duplicate(original: Listing, end: Time): (r: Listing)
    ensures r.id == "" && r.createdBy == "" && r.createdDate.None?
    ensures r.status == Active && r.currentPrice == original.startingPrice && r.endDate == end
    ensures r.title == original.title + " (Copy)"
  {
    original.(id := "", createdBy := "", createdDate := None, status := Active,
              currentPrice := original.startingPrice, endDate := end, title := original.title + " (Copy)")
  }

  /**
   * Everything else is copied: description, category, condition, prices,
   * payment methods and photos. A copy of a well-formed listing is well
   * formed, open for bids from its starting price, whatever became of the
   * original.
   */
  lemma DuplicateCopiesTheRest(original: Listing, end: Time, now: Time)
    ensures var d := Duplicate(original, end);
      && d.description == original.description && d.category == original.category
      && d.condition == original.condition && d.startingPrice == original.startingPrice
      && d.bidIncrement == original.bidIncrement && d.buyNowPrice == original.buyNowPrice
      && d.paymentMethods == original.paymentMethods && d.images == original.images
    ensures Auction.WellFormed(original) ==> Auction.WellFormed(Duplicate(original, end))
    ensures end >= now && Auction.WellFormed(original) ==>
      && !Auction.IsEnded(Duplicate(original, end), now)
      && Auction.MinimumBid(Some(Duplicate(original, end))) == original.startingPrice + original.bidIncrement
  {
  }

  /**
   * `handleImageUpdate`: with no listing selected nothing happens; otherwise
   * the selected listing, as the table last loaded it, is written back with
   * the new photos.
   */
  function UpdateImages(store: map<Id, Listing>, selected: Option<Listing>, images: seq<string>): (r: map<Id, Listing>)
    ensures selected.None? || selected.value.id !in store ==> r == store
    ensures selected.Some? && selected.value.id in store ==>
      && r.Keys == store.Keys
      && r[selected.value.id] == selected.value.(images := images)
      && forall k :: k in store && k != selected.value.id ==> r[k] == store[k]
  {
    if selected.None? || selected.value.id !in store then store
    else store[selected.value.id := selected.value.(images := images)]
  }

  /** When the selection is up to date, only that listing's photos change. */
  lemma UpdateImagesOnlyPhotos(store: map<Id, Listing>, l: Listing, images: seq<string>)
    requires l.id in store && store[l.id] == l
    ensures UpdateImages(store, Some(l), images) == store[l.id := store[l.id].(images := images)]
    ensures UpdateImages(store, Some(l), l.images) == store
  {
  }

  /**
   * A selection loaded before a bid raised the price writes the old price
   * back: the listing's price falls below its top bid, so the bids no longer
   * track it.
   */
  lemma StaleSelectionLowersPrice(s: Store, sel: Listing, images: seq<string>)
    requires Auction.Tracks(s, sel.id) && Auction.HasBid(s.bids, sel.id)
    requires sel.currentPrice < s.listings[sel.id].currentPrice
    ensures var r := Store(UpdateImages(s.listings, Some(sel), images), s.bids);
      && r.listings[sel.id].currentPrice == sel.currentPrice
      && !Auction.Tracks(r, sel.id)
  {
    var r := Store(UpdateImages(s.listings, Some(sel), images), s.bids);
    var i :| 0 <= i < |s.bids| && s.bids[i].listingId == sel.id && s.bids[i].amount == s.listings[sel.id].currentPrice;
    assert s.bids[i].amount > r.listings[sel.id].currentPrice;
  }
}

=== FILE: auction.dfy ===
/**
 * The listing page's auction lifecycle: the minimum next bid, accepting a
 * bid, closing an expired auction and buying a listing outright.
 *
 * Each operation is one sequential step from a store to a store; the two
 * writes the page issues one after the other (bid create, listing update)
 * happen together here. The clock is the parameter `now`.
 */
module Auction {

  import opened Model
  import Money

  /** Whether the page shows the auction as over (the `isEnded` flag of the page). */
  predicate IsEnded(l: Listing, now: Time) {
    l.status == Ended || l.status == Sold || l.endDate < now
  }

  /**
   * The bid form and the buy-now button are rendered only for a running
   * auction and only to someone other than the seller. The handlers
   * themselves do not re-check either condition, so the model states them as
   * preconditions of `PlaceBid` and `BuyNow`.
   */
  predicate BidFormShown(l: Listing, viewer: Option<Email>, now: Time) {
    !IsEnded(l, now) && (viewer.None? || viewer.value != l.createdBy)
  }

  function EmailOf(u: Option<User>): Option<Email> {
    if u.Some? then Some(u.value.email) else None
  }

  /** The price the next bid is measured from: the current price, or the starting price while that is 0. */
  function AskBase(l: Listing): Cents {
    if l.currentPrice != 0 then l.currentPrice else l.startingPrice
  }

  /** The increment, or one dollar (100 cents) while the listing's increment is 0. */
  function Increment(l: Listing): Cents {
    if l.bidIncrement != 0 then l.bidIncrement else 100
  }

  /** The smallest acceptable bid; 0 while no listing is loaded. */
  function MinimumBid(listing: Option<Listing>): (r: Cents)
    ensures listing.None? ==> r == 0
    ensures listing.Some? && listing.value.bidIncrement >= 0 ==> r > AskBase(listing.value)
    ensures listing.Some? && listing.value.bidIncrement != 0 ==> r - AskBase(listing.value) == listing.value.bidIncrement
    ensures listing.Some? && listing.value.bidIncrement == 0 ==> r == AskBase(listing.value) + 100
  {
    if listing.None? then 0 else AskBase(listing.value) + Increment(listing.value)
  }

  datatype ActionError = SignInRequired | BidTooLow(minimum: Cents)

  /** The winning bidder and the final price an auction close or a purchase announces by e-mail. */
  datatype Award = Award(winner: Email, finalPrice: Cents, listing: Listing)

  /** The outcome of one user action or one close: the new store, what to announce, what to report. */
  datatype Step = Step(store: Store, award: Option<Award>, error: Option<ActionError>)

  /** `parseFloat(a) < parseFloat(b)`: any comparison with NaN is false. */
  predicate Below(a: Num, b: Num) {
    a.Num? && b.Num? && a.cents < b.cents
  }

  /** Only `price` of listing `id` differs between the two listing stores. */
  predicate OnlyPriceChanged(before: map<Id, Listing>, after: map<Id, Listing>, id: Id, price: Cents)
    requires id in before
  {
    after == before[id := before[id].(currentPrice := price)]
  }

  /**
   * Place a bid of `amount` (the parsed form field) on listing `id`.
   * The minimum is compared as the page does: printed with two decimals
   * and parsed back.
   */
  function PlaceBid(s: Store, id: Id, bidder: Option<User>, amount: Num, now: Time): (r: Step)
    requires id in s.listings
    requires BidFormShown(s.listings[id], EmailOf(bidder), now)
    ensures r.award.None?
    ensures r.error.Some? <==>
      bidder.None? || !amount.Truthy() || amount.cents < MinimumBid(Some(s.listings[id]))
    ensures bidder.None? ==> r.error == Some(SignInRequired)
    ensures r.error.Some? && bidder.Some? ==> r.error == Some(BidTooLow(MinimumBid(Some(s.listings[id]))))
    ensures r.error.Some? ==> r.store == s
    ensures r.error.None? ==>
      && |r.store.bids| == |s.bids| + 1
      && r.store.bids[..|s.bids|] == s.bids
      && var b := r.store.bids[|s.bids|];
      && b.listingId == id && b.amount == amount.cents && b.status == BidActive
      && b.createdBy == bidder.value.email && !b.isAutoBid
      && (forall i :: 0 <= i < |s.bids| ==> s.bids[i].id != b.id)
      && OnlyPriceChanged(s.listings, r.store.listings, id, b.amount)
    ensures r.error.None? && s.listings[id].bidIncrement >= 0 && s.listings[id].startingPrice >= 0 ==>
      r.store.listings[id].currentPrice > s.listings[id].currentPrice
  {
    var l := s.listings[id];
    if bidder.None? then Step(s, None, Some(SignInRequired))
    else
      var minBid := Money.ParseFixed2(Money.Fixed2(MinimumBid(Some(l))));
      Money.FixedRoundTrip(MinimumBid(Some(l)));
      if !amount.Truthy() || Below(amount, minBid) then Step(s, None, Some(BidTooLow(minBid.cents)))
      else
        var b := Bid(FreshBidId(s.bids), id, amount.cents, bidder.value.email, BidActive, false);
        Step(Store(s.listings[id := l.(currentPrice := amount.cents)], s.bids + [b]), None, None)
  }

  /** Listing `id` has at least one bid in `bids`. */
  predicate HasBid(bids: seq<Bid>, id: Id) {
    exists i :: 0 <= i < |bids| && bids[i].listingId == id
  }

  /**
   * The bid that heads the list sorted by amount, highest first: the highest
   * amount on listing `id`, and of equal amounts the earliest placed.
   */
  function BestBid(bids: seq<Bid>, id: Id): (r: Option<nat>)
    ensures r.None? <==> !HasBid(bids, id)
    ensures r.Some? ==> r.value < |bids| && bids[r.value].listingId == id
    ensures r.Some? ==> forall j :: 0 <= j < |bids| && bids[j].listingId == id ==> bids[j].amount <= bids[r.value].amount
    ensures r.Some? ==> forall j :: 0 <= j < r.value && bids[j].listingId == id ==> bids[j].amount < bids[r.value].amount
  {
    if |bids| == 0 then None
    else
      var n := |bids| - 1;
      var prev := BestBid(bids[..n], id);
      if bids[n].listingId != id then prev
      else if prev.None? || bids[n].amount > bids[prev.value].amount then Some(n)
      else prev
  }

  /** Listing `id`'s bid at index `w` is `won`, its other bids are `lost`. */
  ghost predicate SettledWith(bids: seq<Bid>, id: Id, w: nat) {
    && w < |bids| && bids[w].listingId == id && bids[w].status == Won
    && forall i :: 0 <= i < |bids| && i != w && bids[i].listingId == id ==> bids[i].status == Lost
  }

  /** The two stores hold the same bids up to the status of listing `id`'s bids. */
  ghost predicate OnlyStatusesOf(before: seq<Bid>, after: seq<Bid>, id: Id) {
    && |after| == |before|
    && forall i :: 0 <= i < |before| ==>
         if before[i].listingId == id then after[i] == before[i].(status := after[i].status)
         else after[i] == before[i]
  }

  function Settle(bids: seq<Bid>, id: Id, w: nat): (r: seq<Bid>)
    requires w < |bids| && bids[w].listingId == id
    ensures SettledWith(r, id, w) && OnlyStatusesOf(bids, r, id)
  {
    seq(|bids|, i requires 0 <= i < |bids| =>
      if bids[i].listingId != id then bids[i]
      else bids[i].(status := if i == w then Won else Lost))
  }

  /** The poll finds listing `id` present, not yet closed and past its end date. */
  predicate ClosingDue(s: Store, id: Id, now: Time) {
    id in s.listings && s.listings[id].status != Ended && s.listings[id].status != Sold
    && s.listings[id].endDate < now
  }

  /**
   * One poll of the listing page's auction check. A due listing is written
   * back with status `ended`; if it has bids, the highest becomes `won`, the
   * others `lost`, and the winner and the listing's current price are
   * announced.
   */
  function CloseAuction(s: Store, id: Id, now: Time): (r: Step)
    ensures r.error.None?
    ensures !ClosingDue(s, id, now) ==> r.store == s && r.award.None?
    ensures ClosingDue(s, id, now) ==> r.store.listings == s.listings[id := s.listings[id].(status := Ended)]
    ensures OnlyStatusesOf(s.bids, r.store.bids, id)
    ensures ClosingDue(s, id, now) && HasBid(s.bids, id) <==> r.award.Some?
    ensures !HasBid(s.bids, id) ==> r.store.bids == s.bids
    ensures r.award.Some? ==>
      exists w: nat :: SettledWith(r.store.bids, id, w) && r.award.value.winner == r.store.bids[w].createdBy
        && (forall j :: 0 <= j < |s.bids| && s.bids[j].listingId == id ==> s.bids[j].amount <= s.bids[w].amount)
    ensures r.award.Some? ==> r.award.value.finalPrice == s.listings[id].currentPrice
  {
    if !ClosingDue(s, id, now) then Step(s, None, None)
    else
      var l := s.listings[id];
      var listings := s.listings[id := l.(status := Ended)];
      match BestBid(s.bids, id)
      case None => Step(Store(listings, s.bids), None, None)
      case Some(w) =>
        Step(Store(listings, Settle(s.bids, id, w)), Some(Award(s.bids[w].createdBy, l.currentPrice, l)), None)
  }

  /** After a close that did close the listing, another close at any time changes nothing and announces nothing. */
  lemma CloseIdempotent(s: Store, id: Id, now: Time, later: Time)
    requires ClosingDue(s, id, now)
    ensures var r := CloseAuction(s, id, now);
      CloseAuction(r.store, id, later) == Step(r.store, None, None)
  {
  }

  /** At most one bid of a listing can be the settled winner. */
  lemma WinnerUnique(bids: seq<Bid>, id: Id, w1: nat, w2: nat)
    requires SettledWith(bids, id, w1) && SettledWith(bids, id, w2)
    ensures w1 == w2
  {
  }

  /** The buy-now button is rendered only with the bid form and only for a set buy-now price. */
  predicate BuyNowShown(l: Listing, viewer: Option<Email>, now: Time) {
    BidFormShown(l, viewer, now) && l.buyNowPrice.Some? && l.buyNowPrice.value != 0
  }

  /**
   * Buy listing `id` at its buy-now price: a `won` bid at that price, the
   * listing `sold` at that price, and an announcement; other bids are left
   * as they are. The page passes no creator for the bid; the store records
   * the signed-in buyer, which is what the model's `createdBy` holds.
   */
  function BuyNow(s: Store, id: Id, buyer: Option<User>, now: Time): (r: Step)
    requires id in s.listings
    requires BuyNowShown(s.listings[id], EmailOf(buyer), now)
    ensures buyer.None? <==> r.error.Some?
    ensures r.error.Some? ==> r.store == s && r.error == Some(SignInRequired) && r.award.None?
    ensures r.error.None? ==>
      var l := s.listings[id];
      var price := l.buyNowPrice.value;
      && |r.store.bids| == |s.bids| + 1
      && r.store.bids[..|s.bids|] == s.bids
      && var b := r.store.bids[|s.bids|];
      && b.listingId == id && b.amount == price && b.status == Won && b.createdBy == buyer.value.email
      && r.store.listings == s.listings[id := l.(currentPrice := price, status := Sold)]
      && r.award == Some(Award(buyer.value.email, price, l))
  {
    var l := s.listings[id];
    if buyer.None? then Step(s, None, Some(SignInRequired))
    else
      var price := l.buyNowPrice.value;
      var b := Bid(FreshBidId(s.bids), id, price, buyer.value.email, Won, false);
      Step(Store(s.listings[id := l.(currentPrice := price, status := Sold)], s.bids + [b]),
           Some(Award(buyer.value.email, price, l)), None)
  }

  /** After a purchase nobody is offered the bid form and the closing poll leaves the listing alone. */
  lemma BuyNowForecloses(s: Store, id: Id, buyer: Option<User>, now: Time, viewer: Option<Email>, later: Time)
    requires id in s.listings && BuyNowShown(s.listings[id], EmailOf(buyer), now)
    requires BuyNow(s, id, buyer, now).error.None?
    ensures var t := BuyNow(s, id, buyer, now).store;
      !BidFormShown(t.listings[id], viewer, later) && CloseAuction(t, id, later) == Step(t, None, None)
  {
  }

  // ---- Invariants kept by bidding ----

  /** What a listing created through the listing form satisfies. */
  predicate WellFormed(l: Listing) {
    l.startingPrice > 0 && l.bidIncrement > 0 && l.currentPrice >= l.startingPrice
  }

  /** No bid on listing `id` exceeds its current price. */
  ghost predicate PriceCoversBids(s: Store, id: Id)
    requires id in s.listings
  {
    forall i :: 0 <= i < |s.bids| && s.bids[i].listingId == id ==> s.bids[i].amount <= s.listings[id].currentPrice
  }

  /** Once listing `id` has bids, one of them is at the current price. */
  ghost predicate PriceIsSomeBid(s: Store, id: Id)
    requires id in s.listings
  {
    HasBid(s.bids, id) ==>
      exists i :: 0 <= i < |s.bids| && s.bids[i].listingId == id && s.bids[i].amount == s.listings[id].currentPrice
  }

  ghost predicate Tracks(s: Store, id: Id) {
    id in s.listings && WellFormed(s.listings[id]) && PriceCoversBids(s, id) && PriceIsSomeBid(s, id)
  }

  /** An accepted bid keeps the listing well formed and the price equal to the top bid. */
  lemma PlaceBidKeepsTracks(s: Store, id: Id, bidder: Option<User>, amount: Num, now: Time)
    requires Tracks(s, id)
    requires BidFormShown(s.listings[id], EmailOf(bidder), now)
    ensures Tracks(PlaceBid(s, id, bidder, amount, now).store, id)
  {
    var r := PlaceBid(s, id, bidder, amount, now);
    if r.error.None? {
      var t := r.store;
      var n := |s.bids|;
      assert t.bids[n].listingId == id && t.bids[n].amount == t.listings[id].currentPrice;
      forall i | 0 <= i < |t.bids| && t.bids[i].listingId == id
        ensures t.bids[i].amount <= t.listings[id].currentPrice
      {
        if i < n {
          assert t.bids[i] == t.bids[..n][i] == s.bids[i];
        }
      }
    }
  }

  /**
   * When the price has tracked the bids, the price a close announces is the
   * amount of the bid it marks `won`.
   */
  lemma FinalPriceIsWinningBid(s: Store, id: Id, now: Time)
    requires Tracks(s, id)
    ensures var r := CloseAuction(s, id, now);
      r.award.Some? ==> exists w: nat :: SettledWith(r.store.bids, id, w) && r.store.bids[w].amount == r.award.value.finalPrice
  {
    var r := CloseAuction(s, id, now);
    if r.award.Some? {
      var w := BestBid(s.bids, id).value;
      var i :| 0 <= i < |s.bids| && s.bids[i].listingId == id && s.bids[i].amount == s.listings[id].currentPrice;
      assert s.bids[i].amount <= s.bids[w].amount;
      assert r.store.bids == Settle(s.bids, id, w);
      assert SettledWith(r.store.bids, id, w);
    }
  }

  /** A bidder's attempt: who is signed in and what the amount field parses to. */
  datatype Attempt = Attempt(bidder: Option<User>, amount: Num)

  /** Nobody in `attempts` is the seller of `l`. */
  predicate NoSellerBids(l: Listing, attempts: seq<Attempt>) {
    forall k :: 0 <= k < |attempts| ==> EmailOf(attempts[k].bidder).None? || EmailOf(attempts[k].bidder).value != l.createdBy
  }

  /** A run of bid attempts on one open listing, each applied to the store the previous one left. */
  function RunBids(s: Store, id: Id, attempts: seq<Attempt>, now: Time): (r: Store)
    requires id in s.listings && !IsEnded(s.listings[id], now)
    requires NoSellerBids(s.listings[id], attempts)
    ensures id in r.listings
    ensures r.listings[id] == s.listings[id].(currentPrice := r.listings[id].currentPrice)
    decreases |attempts|
  {
    if |attempts| == 0 then s
    else
      var t := PlaceBid(s, id, attempts[0].bidder, attempts[0].amount, now).store;
      RunBids(t, id, attempts[1..], now)
  }

  /** Across any run of attempts the current price never goes down, and it tracks the top bid. */
  lemma {:induction false} RunBidsMonotone(s: Store, id: Id, attempts: seq<Attempt>, now: Time)
    requires id in s.listings && !IsEnded(s.listings[id], now)
    requires NoSellerBids(s.listings[id], attempts)
    requires Tracks(s, id)
    ensures var r := RunBids(s, id, attempts, now);
      Tracks(r, id) && r.listings[id].currentPrice >= s.listings[id].currentPrice
    decreases |attempts|
  {
    if |attempts| > 0 {
      var t := PlaceBid(s, id, attempts[0].bidder, attempts[0].amount, now).store;
      PlaceBidKeepsTracks(s, id, attempts[0].bidder, attempts[0].amount, now);
      RunBidsMonotone(t, id, attempts[1..], now);
    }
  }

  /**
   * Starting price 100.00, increment 5.00: A bids 105.00, B's 100.00 is
   * refused with minimum 110.00, B bids 120.00; the close after the end date
   * makes B's bid `won`, A's `lost`, and announces B at 120.00.
   */
  lemma OutbidScenario()
    ensures
      var l := Listing("L", "Lamp", "", "", "", 10000, 500, None, 10000, 100, Active, None, "seller@x", None, []);
      var a := Some(User("A", "a@x", "", "user"));
      var b := Some(User("B", "b@x", "", "user"));
      var s1 := PlaceBid(Store(map["L" := l], []), "L", a, Num(10500), 50).store;
      var refused := PlaceBid(s1, "L", b, Num(10000), 50);
      var s2 := PlaceBid(s1, "L", b, Num(12000), 50).store;
      var c := CloseAuction(s2, "L", 200);
      && refused.error == Some(BidTooLow(11000)) && refused.store == s1
      && c.store.listings["L"].status == Ended && c.store.listings["L"].currentPrice == 12000
      && |c.store.bids| == 2 && c.store.bids[0].status == Lost && c.store.bids[1].status == Won
      && c.award.Some? && c.award.value.winner == "b@x" && c.award.value.finalPrice == 12000
  {
    var l := Listing("L", "Lamp", "", "", "", 10000, 500, None, 10000, 100, Active, None, "seller@x", None, []);
    var a := Some(User("A", "a@x", "", "user"));
    var b := Some(User("B", "b@x", "", "user"));
    var s1 := PlaceBid(Store(map["L" := l], []), "L", a, Num(10500), 50).store;
    assert s1.listings["L"].currentPrice == 10500 && |s1.bids| == 1;
    var s2 := PlaceBid(s1, "L", b, Num(12000), 50).store;
    assert s2.listings["L"].currentPrice == 12000 && |s2.bids| == 2;
    assert s2.bids[0].amount == 10500 && s2.bids[1].amount == 12000 && s2.bids[1].createdBy == "b@x";
    assert BestBid(s2.bids, "L") == Some(1);
  }
}

=== FILE: bid_views.dfy ===
/**
 * The signed-in user's bid history, as the "My Bids" page and the account
 * page show it: bids whose listing can no longer be fetched are dropped (and
 * deleted when the listing is gone for good), and the rest are classified
 * by the listing's end date and current price.
 */
module BidViews {

  import opened Model
  import Seqs

  /** What fetching a bid's listing yields: the listing, "not found", or another failure. */
  datatype Lookup = Found(listing: Listing) | NotFound | Failed

  /**
   * `Listing.get`: listings are stored under their id; `failing` are the ids
   * whose fetch fails for a reason other than absence (a network error, say).
   */
  function Get(store: map<Id, Listing>, failing: set<Id>, id: Id): Lookup {
    if id in failing then Failed
    else if id in store then Found(store[id])
    else NotFound
  }

  /** Every listing is stored under its own id. */
  predicate Keyed(store: map<Id, Listing>) {
    forall k :: k in store ==> store[k].id == k
  }

  /** What loading produces: the surviving bids, the listings keyed by id, and the bids deleted. */
  datatype Loaded = Loaded(bids: seq<Bid>, listings: map<Id, Listing>, deleted: seq<BidId>)

  /** The `reduce` of the page: each fetched listing under its own id, later entries overwriting. */
  function IndexListings(store: map<Id, Listing>, failing: set<Id>, bids: seq<Bid>): (r: map<Id, Listing>)
    ensures forall i :: 0 <= i < |bids| && Get(store, failing, bids[i].listingId).Found? ==>
      Get(store, failing, bids[i].listingId).listing.id in r
    ensures forall k :: k in r ==> exists i :: 0 <= i < |bids| && Get(store, failing, bids[i].listingId) == Found(r[k])
    ensures forall k :: k in r ==> r[k].id == k
    decreases |bids|
  {
    if |bids| == 0 then map[]
    else
      var before := IndexListings(store, failing, bids[..|bids| - 1]);
      var last := bids[|bids| - 1];
      assert forall i :: 0 <= i < |bids| - 1 ==> bids[..|bids| - 1][i] == bids[i];
      match Get(store, failing, last.listingId)
      case Found(l) => before[l.id := l]
      case _ => before
  }

  /** The bid ids whose listing is gone, in order: the bids the page deletes. */
  function Orphans(store: map<Id, Listing>, failing: set<Id>, bids: seq<Bid>): (r: seq<BidId>)
    ensures forall x :: x in r <==> exists i :: 0 <= i < |bids| && bids[i].id == x && Get(store, failing, bids[i].listingId).NotFound?
  {
    if |bids| == 0 then []
    else
      var rest := Orphans(store, failing, bids[1..]);
      assert forall i :: 1 <= i < |bids| ==> bids[1..][i - 1] == bids[i];
      (if Get(store, failing, bids[0].listingId).NotFound? then [bids[0].id] else []) + rest
  }

  /**
   * `loadBids` (and the identical steps of the account page's
   * `loadUserData`): a bid survives exactly when its listing was fetched;
   * it is deleted exactly when its listing was not found; a bid whose fetch
   * failed otherwise is dropped but kept in storage. Survivors keep their
   * order.
   */
  function Load(store: map<Id, Listing>, failing: set<Id>, bids: seq<Bid>): (r: Loaded)
    ensures r.bids == Seqs.Filter(bids, (b: Bid) => Get(store, failing, b.listingId).Found?)
    ensures forall i :: 0 <= i < |r.bids| ==> r.bids[i] in bids && Get(store, failing, r.bids[i].listingId).Found?
    ensures forall i :: 0 <= i < |bids| && Get(store, failing, bids[i].listingId).Found? ==> bids[i] in r.bids
    ensures forall x :: x in r.deleted <==> exists i :: 0 <= i < |bids| && bids[i].id == x && bids[i].listingId !in store && bids[i].listingId !in failing
  {
    Loaded(Seqs.Filter(bids, (b: Bid) => Get(store, failing, b.listingId).Found?),
           IndexListings(store, failing, bids),
           Orphans(store, failing, bids))
  }

  /** Loading keeps the survivors in their original relative order. */
  lemma LoadKeepsOrder(store: map<Id, Listing>, failing: set<Id>, bids: seq<Bid>)
    ensures Seqs.IsSubseq(Load(store, failing, bids).bids, bids)
  {
    Seqs.FilterIsSubseq(bids, (b: Bid) => Get(store, failing, b.listingId).Found?);
  }

  /** What asking for the signed-in user yields. */
  datatype Who = NoUser | WhoFailed | SignedIn(email: Email)

  /** A bid page: the bids it lists, the listings by id, its error line and whether the spinner shows. */
  datatype Page = Page(bids: seq<Bid>, listings: map<Id, Listing>, error: Option<string>, loading: bool)

  const LoadBidsError := "Unable to load bids. Please try refreshing the page."

  /** `User.me()` or `Bid.filter` failed; `userBids` is the latter's answer, `None` when it fails. */
  predicate LoadFailed(who: Who, userBids: Option<seq<Bid>>) {
    who.WhoFailed? || (who.SignedIn? && userBids.None?)
  }

  /**
   * The "My Bids" page's `loadBids` around `Load`: the error line is cleared
   * first; with nobody signed in it returns before the spinner is cleared; a
   * failure of either fetch shows the error and empties both lists;
   * otherwise the loaded bids and listings are shown.
   */
  function LoadBidsPage(p: Page, who: Who, userBids: Option<seq<Bid>>, store: map<Id, Listing>, failing: set<Id>): (r: Page)
    ensures who.NoUser? ==> r == p.(error := None)
    ensures r.error.Some? <==> LoadFailed(who, userBids)
    ensures LoadFailed(who, userBids) ==> r == Page([], map[], Some(LoadBidsError), false)
    ensures who.SignedIn? && userBids.Some? ==>
      && !r.loading
      && (forall i :: 0 <= i < |r.bids| ==> r.bids[i] in userBids.value && Get(store, failing, r.bids[i].listingId).Found?)
      && (forall i :: 0 <= i < |userBids.value| && Get(store, failing, userBids.value[i].listingId).Found? ==> userBids.value[i] in r.bids)
  {
    match who
    case NoUser => p.(error := None)
    case WhoFailed => Page([], map[], Some(LoadBidsError), false)
    case SignedIn(_) =>
      if userBids.None? then Page([], map[], Some(LoadBidsError), false)
      else
        var l := Load(store, failing, userBids.value);
        Page(l.bids, l.listings, None, false)
  }

  /**
   * The account page's `loadUserData`: the same steps, but a failure is only
   * logged, so the page keeps what it showed and stops the spinner; with
   * nobody signed in it returns before the spinner is cleared.
   */
  function LoadAccountPage(p: Page, who: Who, userBids: Option<seq<Bid>>, store: map<Id, Listing>, failing: set<Id>): (r: Page)
    ensures who.NoUser? ==> r == p
    ensures LoadFailed(who, userBids) ==> r == p.(loading := false)
    ensures r.error == p.error
    ensures who.SignedIn? && userBids.Some? ==>
      && !r.loading
      && (forall i :: 0 <= i < |r.bids| ==> r.bids[i] in userBids.value && Get(store, failing, r.bids[i].listingId).Found?)
      && (forall i :: 0 <= i < |userBids.value| && Get(store, failing, userBids.value[i].listingId).Found? ==> userBids.value[i] in r.bids)
  {
    match who
    case NoUser => p
    case WhoFailed => p.(loading := false)
    case SignedIn(_) =>
      if userBids.None? then p.(loading := false)
      else
        var l := Load(store, failing, userBids.value);
        p.(bids := l.bids, listings := l.listings, loading := false)
  }

  /**
   * The two pages show the same bids and listings after a load that
   * succeeds, whatever each showed before. After a failed load "My Bids"
   * shows nothing, while the account page keeps its earlier lists.
   */
  lemma {:induction false} BidPagesAgree(p: Page, q: Page, who: Who, userBids: Option<seq<Bid>>, store: map<Id, Listing>, failing: set<Id>)
    ensures var mine := LoadBidsPage(p, who, userBids, store, failing);
      var account := LoadAccountPage(q, who, userBids, store, failing);
      && (who.SignedIn? && userBids.Some? ==> mine.bids == account.bids && mine.listings == account.listings)
      && (LoadFailed(who, userBids) ==> mine.bids == [] && account.bids == q.bids && account.listings == q.listings)
  {
  }

  /** In a keyed store, every surviving bid's listing is in the page's map, under the bid's listing id. */
  lemma LoadedBidsHaveListings(store: map<Id, Listing>, failing: set<Id>, bids: seq<Bid>)
    requires Keyed(store)
    ensures var r := Load(store, failing, bids);
      forall i :: 0 <= i < |r.bids| ==> r.bids[i].listingId in r.listings && r.listings[r.bids[i].listingId] == store[r.bids[i].listingId]
  {
    var r := Load(store, failing, bids);
    forall i | 0 <= i < |r.bids|
      ensures r.bids[i].listingId in r.listings && r.listings[r.bids[i].listingId] == store[r.bids[i].listingId]
    {
      var j :| 0 <= j < |bids| && bids[j] == r.bids[i];
      var k := r.bids[i].listingId;
      assert store[k].id == k;
      var m :| 0 <= m < |bids| && Get(store, failing, bids[m].listingId) == Found(r.listings[k]);
      assert store[bids[m].listingId] == r.listings[k];
    }
  }

  /** The "My Bids" tabs; any other filter value shows every bid with a listing. */
  datatype Tab = AllTab | ActiveTab | WonTab | LostTab

  function TabOf(filter: string): Tab {
    if filter == "active" then ActiveTab
    else if filter == "won" then WonTab
    else if filter == "lost" then LostTab
    else AllTab
  }

  /** The auction has ended: its end date is strictly before now. */
  predicate Ended(l: Listing, now: Time) {
    l.endDate < now
  }

  /** The bid is the listing's price; the bid's own status is not consulted. */
  predicate Highest(l: Listing, b: Bid) {
    l.currentPrice == b.amount
  }

  /** `filterBids`' test for one bid. */
  predicate InTab(listings: map<Id, Listing>, now: Time, tab: Tab, b: Bid) {
    b.listingId in listings &&
    var l := listings[b.listingId];
    match tab
    case ActiveTab => !Ended(l, now)
    case WonTab => Ended(l, now) && Highest(l, b)
    case LostTab => Ended(l, now) && !Highest(l, b)
    case AllTab => true
  }

  /** The bids a tab shows, in load order. */
  function ShowTab(r: Loaded, now: Time, tab: Tab): (shown: seq<Bid>)
    ensures forall i :: 0 <= i < |shown| ==> shown[i] in r.bids && InTab(r.listings, now, tab, shown[i])
    ensures forall i :: 0 <= i < |r.bids| && InTab(r.listings, now, tab, r.bids[i]) ==> r.bids[i] in shown
  {
    Seqs.Filter(r.bids, (b: Bid) => InTab(r.listings, now, tab, b))
  }

  /**
   * Every bid whose listing is known is in exactly one of the active, won
   * and lost tabs, and in the "all" tab; a bid without one is in no tab.
   */
  lemma TabsPartition(listings: map<Id, Listing>, now: Time, b: Bid)
    ensures b.listingId !in listings ==> forall t :: !InTab(listings, now, t, b)
    ensures b.listingId in listings ==>
      && InTab(listings, now, AllTab, b)
      && (InTab(listings, now, ActiveTab, b) || InTab(listings, now, WonTab, b) || InTab(listings, now, LostTab, b))
      && !(InTab(listings, now, ActiveTab, b) && InTab(listings, now, WonTab, b))
      && !(InTab(listings, now, ActiveTab, b) && InTab(listings, now, LostTab, b))
      && !(InTab(listings, now, WonTab, b) && InTab(listings, now, LostTab, b))
  {
  }

  /** The account page's "active" list: the listing exists and ends strictly after now. */
  predicate AccountActive(listings: map<Id, Listing>, now: Time, b: Bid) {
    b.listingId in listings && listings[b.listingId].endDate > now
  }

  /** The account page's "won" list: the listing has ended and its price is the bid. */
  predicate AccountWon(listings: map<Id, Listing>, now: Time, b: Bid) {
    b.listingId in listings && listings[b.listingId].endDate < now && listings[b.listingId].currentPrice == b.amount
  }

  datatype AccountLists = AccountLists(active: seq<Bid>, won: seq<Bid>)

  /** The two lists of the account page, in load order. */
  function AccountView(r: Loaded, now: Time): (v: AccountLists)
    ensures forall i :: 0 <= i < |v.active| ==> v.active[i] in r.bids && AccountActive(r.listings, now, v.active[i])
    ensures forall i :: 0 <= i < |r.bids| && AccountActive(r.listings, now, r.bids[i]) ==> r.bids[i] in v.active
    ensures forall i :: 0 <= i < |v.won| ==> v.won[i] in r.bids && AccountWon(r.listings, now, v.won[i])
    ensures forall i :: 0 <= i < |r.bids| && AccountWon(r.listings, now, r.bids[i]) ==> r.bids[i] in v.won
  {
    AccountLists(Seqs.Filter(r.bids, (b: Bid) => AccountActive(r.listings, now, b)),
                 Seqs.Filter(r.bids, (b: Bid) => AccountWon(r.listings, now, b)))
  }

  /**
   * No bid is both active and won on the account page; a listing ending
   * exactly now puts its bids in neither list. The account's won list is the
   * "My Bids" won tab, and its active list is that tab's active bids minus
   * those ending exactly now.
   */
  lemma AccountAgreesWithTabs(listings: map<Id, Listing>, now: Time, b: Bid)
    ensures !(AccountActive(listings, now, b) && AccountWon(listings, now, b))
    ensures b.listingId in listings && listings[b.listingId].endDate == now ==>
      !AccountActive(listings, now, b) && !AccountWon(listings, now, b)
    ensures AccountWon(listings, now, b) <==> InTab(listings, now, WonTab, b)
    ensures AccountActive(listings, now, b) <==>
      InTab(listings, now, ActiveTab, b) && listings[b.listingId].endDate != now
  {
  }
}

=== FILE: create_listing.dfy ===
/**
 * The new-listing form: the checks its submit runs, in order, and the record
 * it creates; and the payment-method checkboxes.
 */
module CreateListing {

  import opened Model
  import Auction

  /**
   * The form as submitted, with its number fields already read by
   * `parseFloat` and its end date by `new Date` (`None` for an invalid date).
   * `buyNowPrice` is `None` when the field is empty.
   */
  datatype Form = Form(
    title: string,
    description: string,
    category: string,
    condition: string,
    startingPrice: Num,
    bidIncrement: Num,
    buyNowPrice: Option<Num>,
    endDate: Option<Time>,
    images: seq<string>,
    paymentMethods: PaymentFlags)

  /** The four refusals, each with its own message. */
  datatype Violation = BadStartingPrice | BadIncrement | BadBuyNow | BadEndDate
  {
    function Message(): string {
      match this
      case BadStartingPrice => "Starting price must be greater than zero"
      case BadIncrement => "Bid increment must be greater than zero"
      case BadBuyNow => "Buy now price must be greater than starting price"
      case BadEndDate => "End date must be in the future"
    }
  }

  predicate Positive(n: Num) {
    n.Num? && n.cents > 0
  }

  /** Each check on its own, independent of the others. */
  predicate Violates(f: Form, now: Time, v: Violation) {
    match v
    case BadStartingPrice => !Positive(f.startingPrice)
    case BadIncrement => !Positive(f.bidIncrement)
    case BadBuyNow =>
      f.buyNowPrice.Some? && (f.buyNowPrice.value.NaN? || (f.startingPrice.Num? && f.buyNowPrice.value.cents <= f.startingPrice.cents))
    case BadEndDate => f.endDate.None? || f.endDate.value <= now
  }

  /** Every check the form fails, in the order the submit runs them. */
  function Violations(f: Form, now: Time): (r: seq<Violation>)
    ensures forall v :: v in r <==> Violates(f, now, v)
  {
    (if Violates(f, now, BadStartingPrice) then [BadStartingPrice] else [])
    + (if Violates(f, now, BadIncrement) then [BadIncrement] else [])
    + (if Violates(f, now, BadBuyNow) then [BadBuyNow] else [])
    + (if Violates(f, now, BadEndDate) then [BadEndDate] else [])
  }

  datatype Outcome = Refused(violation: Violation) | Created(listing: Listing)

  /**
   * `handleSubmit`: the checks in order, stopping at the first that fails;
   * otherwise an active listing whose current price is its starting price,
   * carrying the form's fields and parsed prices. The store fills in `id`,
   * `created_by` and `created_date`; they are parameters here.
   */
  function Submit(f: Form, now: Time, id: Id, seller: Email, created: Time): (r: Outcome)
    ensures r.Refused? ==> Violates(f, now, r.violation)
    ensures r.Created? ==> forall v :: !Violates(f, now, v)
    ensures r.Created? ==>
      && f.startingPrice.Num? && f.bidIncrement.Num? && f.endDate.Some?
      && (f.buyNowPrice.Some? ==> f.buyNowPrice.value.Num?)
    ensures r.Created? ==>
      && r.listing.status == Active
      && r.listing.startingPrice == f.startingPrice.cents
      && r.listing.currentPrice == r.listing.startingPrice
      && r.listing.bidIncrement == f.bidIncrement.cents
      && r.listing.buyNowPrice == (if f.buyNowPrice.Some? then Some(f.buyNowPrice.value.cents) else None)
      && r.listing.endDate == f.endDate.value
      && r.listing.title == f.title && r.listing.description == f.description
      && r.listing.images == f.images && r.listing.paymentMethods == Some(f.paymentMethods)
      && r.listing.category == f.category && r.listing.condition == f.condition
      && r.listing.id == id && r.listing.createdBy == seller && r.listing.createdDate == Some(created)
  {
    if !Positive(f.startingPrice) then Refused(BadStartingPrice)
    else if !Positive(f.bidIncrement) then Refused(BadIncrement)
    else if f.buyNowPrice.Some? && (f.buyNowPrice.value.NaN? || f.buyNowPrice.value.cents <= f.startingPrice.cents) then Refused(BadBuyNow)
    else if f.endDate.None? || f.endDate.value <= now then Refused(BadEndDate)
    else
      var sp := f.startingPrice.cents;
      Created(Listing(id, f.title, f.description, f.category, f.condition, sp, f.bidIncrement.cents,
                      if f.buyNowPrice.Some? then Some(f.buyNowPrice.value.cents) else None,
                      sp, f.endDate.value, Active, Some(f.paymentMethods), seller, Some(created), f.images))
  }

  /** Only the first failing check is reported. */
  lemma {:induction false} FirstViolationReported(f: Form, now: Time, id: Id, seller: Email, created: Time)
    ensures var r := Submit(f, now, id, seller, created);
      var vs := Violations(f, now);
      (r.Refused? <==> |vs| > 0) && (r.Refused? ==> r.violation == vs[0])
  {
    var vs := Violations(f, now);
    var r := Submit(f, now, id, seller, created);
    if r.Refused? {
      assert r.violation in vs;
    } else {
      assert forall v :: v !in vs;
    }
  }

  /**
   * A created listing is well formed: positive prices, a buy-now price (if
   * any) above the start, an auction still running at `now`, and a first
   * minimum bid of starting price plus increment.
   */
  lemma CreatedIsWellFormed(f: Form, now: Time, id: Id, seller: Email, created: Time)
    requires Submit(f, now, id, seller, created).Created?
    ensures var l := Submit(f, now, id, seller, created).listing;
      && Auction.WellFormed(l)
      && (l.buyNowPrice.Some? ==> l.buyNowPrice.value > l.startingPrice)
      && !Auction.IsEnded(l, now)
      && Auction.MinimumBid(Some(l)) == l.startingPrice + l.bidIncrement
  {
  }

  /** `handlePaymentMethodChange`: flip one method's checkbox. */
  function Toggle(flags: PaymentFlags, m: Method): (r: PaymentFlags)
    ensures r.Get(m) == !flags.Get(m)
    ensures forall other :: other != m ==> r.Get(other) == flags.Get(other)
  {
    match m
    case PayPal => flags.(paypal := !flags.paypal)
    case CashApp => flags.(cashapp := !flags.cashapp)
    case Venmo => flags.(venmo := !flags.venmo)
    case BankTransfer => flags.(bankTransfer := !flags.bankTransfer)
  }

  /** Flipping the same checkbox twice restores the flags. */
  lemma ToggleTwice(flags: PaymentFlags, m: Method)
    ensures Toggle(Toggle(flags, m), m) == flags
  {
  }

  /** Flips of two checkboxes commute. */
  lemma ToggleCommutes(flags: PaymentFlags, a: Method, b: Method)
    ensures Toggle(Toggle(flags, a), b) == Toggle(Toggle(flags, b), a)
  {
  }
}

=== FILE: dashboard.dfy ===
/**
 * The public dashboard: which stored listings it offers, and the search box
 * and category menu over them.
 */
module Dashboard {

  import opened Model
  import opened Text
  import Seqs

  /** A stored listing the dashboard shows: active, titled, priced, and still running. */
  predicate Open(item: Option<Listing>, now: Time) {
    item.Some? && item.value.status == Active && item.value.title != ""
    && item.value.startingPrice != 0 && item.value.endDate > now
  }

  /** `validListings`: the open listings, in the order the store lists them. */
  function Visible(items: seq<Option<Listing>>, now: Time): (r: seq<Listing>)
    ensures |r| <= |items|
    ensures forall i :: 0 <= i < |r| ==> Some(r[i]) in items && Open(Some(r[i]), now)
    ensures forall i :: 0 <= i < |items| && Open(items[i], now) ==> items[i].value in r
    decreases |items|
  {
    if |items| == 0 then []
    else
      var rest := Visible(items[1..], now);
      assert forall i :: 1 <= i < |items| ==> items[1..][i - 1] == items[i];
      if Open(items[0], now) then [items[0].value] + rest else rest
  }

  /** The listings as the store's entries, for comparing a view with the store's list. */
  function Entries(ls: seq<Listing>): (r: seq<Option<Listing>>)
    ensures |r| == |ls| && forall i :: 0 <= i < |ls| ==> r[i] == Some(ls[i])
  {
    seq(|ls|, i requires 0 <= i < |ls| => Some(ls[i]))
  }

  /** The open listings keep the order in which the store lists them. */
  lemma {:induction false} VisibleKeepsOrder(items: seq<Option<Listing>>, now: Time)
    ensures Seqs.IsSubseq(Entries(Visible(items, now)), items)
    decreases |items|
  {
    if |items| > 0 {
      var rest := Visible(items[1..], now);
      VisibleKeepsOrder(items[1..], now);
      if Open(items[0], now) {
        var e := Entries([items[0].value] + rest);
        assert e[0] == items[0];
        assert e[1..] == Entries(rest);
      } else {
        Seqs.SubseqDropHead(Entries(rest), items);
      }
    }
  }

  const LoadError := "Unable to load listings. Please try refreshing the page."

  /** The dashboard's list and its error line. */
  datatype Page = Page(listings: seq<Listing>, error: Option<string>)

  /**
   * `loadListings`: `fetched` is the answer of `Listing.list()`, `None` when
   * it fails. A failure shows the error and no listing; otherwise the open
   * listings in the store's order, with the error line cleared.
   */
  function LoadListings(fetched: Option<seq<Option<Listing>>>, now: Time): (r: Page)
    ensures r.error.Some? <==> fetched.None?
    ensures fetched.None? ==> r == Page([], Some(LoadError))
    ensures fetched.Some? ==>
      && (forall i :: 0 <= i < |r.listings| ==> Some(r.listings[i]) in fetched.value && Open(Some(r.listings[i]), now))
      && (forall i :: 0 <= i < |fetched.value| && Open(fetched.value[i], now) ==> fetched.value[i].value in r.listings)
      && Seqs.IsSubseq(Entries(r.listings), fetched.value)
  {
    if fetched.None? then Page([], Some(LoadError))
    else
      VisibleKeepsOrder(fetched.value, now);
      Page(Visible(fetched.value, now), None)
  }

  /** The search matches the title or the description, ignoring case. */
  predicate MatchesSearch(l: Listing, search: string) {
    IncludesIgnoringCase(l.title, search) || IncludesIgnoringCase(l.description, search)
  }

  /** The category menu: "all", or exactly the listing's category. */
  predicate MatchesCategory(l: Listing, category: string) {
    category == "all" || l.category == category
  }

  /** `filteredListings`: the open listings that match both the search and the category. */
  function Filtered(listings: seq<Listing>, search: string, category: string): (r: seq<Listing>)
    ensures forall i :: 0 <= i < |r| ==> r[i] in listings && MatchesSearch(r[i], search) && MatchesCategory(r[i], category)
    ensures forall i :: (0 <= i < |listings| && MatchesSearch(listings[i], search) && MatchesCategory(listings[i], category)
      ==> listings[i] in r)
  {
    Seqs.Filter(listings, (l: Listing) => MatchesSearch(l, search) && MatchesCategory(l, category))
  }

  /** The filtered list keeps the dashboard's order. */
  lemma FilteredKeepsOrder(listings: seq<Listing>, search: string, category: string)
    ensures Seqs.IsSubseq(Filtered(listings, search, category), listings)
  {
    Seqs.FilterIsSubseq(listings, (l: Listing) => MatchesSearch(l, search) && MatchesCategory(l, category));
  }

  /** An empty search under "all" shows every open listing. */
  lemma NoFilterShowsAll(listings: seq<Listing>)
    ensures Filtered(listings, "", "all") == listings
  {
    forall i | 0 <= i < |listings| ensures MatchesSearch(listings[i], "") {
      EmptyIsEverywhere(listings[i].title);
    }
    Seqs.FilterAll(listings, (l: Listing) => MatchesSearch(l, "") && MatchesCategory(l, "all"));
  }
}

=== FILE: images.dfy ===
/**
 * A listing's ordered photo list as the upload widget edits it: uploads are
 * appended in file order, and a photo is removed by its position.
 */
module Images {

  import opened Model

  /** `images.filter((_, index) => index !== i)`, walking the list from the front. */
  function RemoveAt(images: seq<string>, i: int): (r: seq<string>)
    ensures 0 <= i < |images| ==> r == images[..i] + images[i + 1..]
    ensures !(0 <= i < |images|) ==> r == images
    decreases |images|
  {
    if |images| == 0 then []
    else
      var rest := RemoveAt(images[1..], i - 1);
      if i == 0 then rest
      else
        assert 0 <= i < |images| ==> [images[0]] + rest == images[..i] + images[i + 1..] by {
          if 0 <= i < |images| {
            assert images[1..][..i - 1] == images[1..i] && images[1..][i..] == images[i + 1..];
          }
        }
        [images[0]] + rest
  }

  /**
   * `handleFileChange`: no files, no change; if any upload fails the list is
   * not handed back (`None`); otherwise the old photos followed by the new
   * URLs in file order. `uploads` holds each file's upload result.
   */
  function Upload(images: seq<string>, uploads: seq<Option<string>>): (r: Option<seq<string>>)
    ensures |uploads| == 0 ==> r.None?
    ensures (exists j :: 0 <= j < |uploads| && uploads[j].None?) ==> r.None?
    ensures r.Some? ==>
      && |r.value| == |images| + |uploads|
      && r.value[..|images|] == images
      && forall j :: 0 <= j < |uploads| ==> Some(r.value[|images| + j]) == uploads[j]
    ensures |uploads| > 0 && (forall j :: 0 <= j < |uploads| ==> uploads[j].Some?) ==> r.Some?
  {
    if |uploads| == 0 then None
    else
      var urls := AllUploaded(uploads);
      if urls.None? then None else Some(images + urls.value)
  }

  /** The URLs of the uploads if every one succeeded (`Promise.all`). */
  function AllUploaded(uploads: seq<Option<string>>): (r: Option<seq<string>>)
    ensures r.None? <==> exists j :: 0 <= j < |uploads| && uploads[j].None?
    ensures r.Some? ==> |r.value| == |uploads| && forall j :: 0 <= j < |uploads| ==> uploads[j] == Some(r.value[j])
  {
    if |uploads| == 0 then Some([])
    else
      var rest := AllUploaded(uploads[1..]);
      if uploads[0].None? then None
      else if rest.None? then
        var j :| 0 <= j < |uploads[1..]| && uploads[1..][j].None?;
        assert uploads[j + 1].None?;
        None
      else
        assert forall j :: 1 <= j < |uploads| ==> uploads[j] == uploads[1..][j - 1];
        Some([uploads[0].value] + rest.value)
  }

  /** Uploading one photo appends it; removing it again restores the list. */
  lemma RemoveUndoesUpload(images: seq<string>, url: string)
    ensures Upload(images, [Some(url)]) == Some(images + [url])
    ensures RemoveAt(images + [url], |images|) == images
  {
    var u := [Some(url)];
    var r := AllUploaded(u);
    assert r.Some? by {
      assert forall j :: 0 <= j < |u| ==> u[j].Some?;
    }
    assert r.value == [url] by {
      assert |r.value| == 1 && u[0] == Some(r.value[0]);
    }
    RemoveLast(images, url);
  }

  lemma RemoveLast(images: seq<string>, url: string)
    ensures RemoveAt(images + [url], |images|) == images
  {
    var s := images + [url];
    assert s[..|images|] == images && s[|images| + 1..] == [];
  }
}

=== FILE: model.dfy ===
/**
 * The records the auction marketplace keeps in its stores, as immutable values.
 *
 * Prices are integer cents. Timestamps are integers (milliseconds, say); only
 * their order matters. A string field the source may leave undefined is the
 * empty string here: the tests the source applies to such a field (`&&`,
 * `?.includes`, `||`) treat `""` and `undefined` alike. Concatenation does
 * not, as it prints "undefined"; where that matters, the module says so.
 */
module Model {

  datatype Option<T> = None | Some(value: T)

  /** The result of `parseFloat` on a form field: NaN or a number, in cents. */
  datatype Num = NaN | Num(cents: int)
  {
    /** JavaScript truthiness of a number: NaN and 0 are falsy. */
    predicate Truthy() {
      Num? && cents != 0
    }
  }

  type Cents = int
  type Time = int
  type Id = string
  type Email = string
  type BidId = nat

  datatype ListingStatus = Draft | Active | Ended | Sold

  /** The four payment methods a listing can accept. */
  datatype Method = PayPal | CashApp | Venmo | BankTransfer

  /** A listing's `payment_methods` object: one flag per method. */
  datatype PaymentFlags = PaymentFlags(paypal: bool, cashapp: bool, venmo: bool, bankTransfer: bool)
  {
    function Get(m: Method): bool {
      match m
      case PayPal => paypal
      case CashApp => cashapp
      case Venmo => venmo
      case BankTransfer => bankTransfer
    }
  }

  /** The flags a new listing form starts with, and the fallback when a listing has none. */
  const AllMethods := PaymentFlags(true, true, true, true)

  datatype Listing = Listing(
    id: Id,
    title: string,
    description: string,
    category: string,
    condition: string,
    startingPrice: Cents,
    bidIncrement: Cents,
    buyNowPrice: Option<Cents>,
    currentPrice: Cents,
    endDate: Time,
    status: ListingStatus,
    paymentMethods: Option<PaymentFlags>,
    createdBy: Email,
    createdDate: Option<Time>,
    images: seq<string>)

  datatype BidStatus = BidActive | Won | Lost

  datatype Bid = Bid(
    id: BidId,
    listingId: Id,
    amount: Cents,
    createdBy: Email,
    status: BidStatus,
    isAutoBid: bool)

  datatype User = User(id: Id, email: Email, fullName: string, role: string)

  /** The seller's payment settings record; an empty string is an unset credential. */
  datatype PaymentSettings = PaymentSettings(
    paypalEmail: string,
    cashappId: string,
    cashappQr: string,
    venmoId: string,
    venmoQr: string,
    bankName: string,
    bankAccountName: string,
    bankAccountNumber: string,
    bankRoutingNumber: string,
    paymentInstructions: string)

  datatype EmailTemplate = EmailTemplate(
    id: Option<Id>,
    templateType: string,
    fromEmail: string,
    subject: string,
    body: string,
    isActive: Option<bool>)

  /** One message handed to the mail sender. */
  datatype Mail = Mail(to: Email, subject: string, body: string)

  /** The listing store and the bid store; bids are kept in creation order. */
  datatype Store = Store(listings: map<Id, Listing>, bids: seq<Bid>)

  /** The id the bid store hands out next: larger than every id in use. */
  function FreshBidId(bids: seq<Bid>): (r: BidId)
    ensures forall i :: 0 <= i < |bids| ==> bids[i].id < r
  {
    if |bids| == 0 then 0
    else
      var rest := FreshBidId(bids[1..]);
      if bids[0].id + 1 > rest then bids[0].id + 1 else rest
  }
}

=== FILE: money.dfy ===
/**
 * Prices as the pages print and re-read them: `amount.toFixed(2)` on a value
 * held in cents, and `parseFloat` of such a string. Bidding compares against
 * `parseFloat(getMinimumBid())`, so the two must agree.
 */
module Money {

  import opened Model

  predicate IsDigit(c: char) {
    '0' <= c <= '9'
  }

  function DigitChar(d: nat): (c: char)
    requires d < 10
    ensures IsDigit(c)
  {
    ('0' as int + d) as char
  }

  function DigitValue(c: char): (d: nat)
    requires IsDigit(c)
    ensures d < 10 && DigitChar(d) == c
  {
    c as int - '0' as int
  }

  /** Decimal digits of `n`, most significant first, without leading zeros. */
  function Digits(n: nat): (s: string)
    ensures |s| > 0
    ensures forall i :: 0 <= i < |s| ==> IsDigit(s[i])
  {
    if n < 10 then [DigitChar(n)] else Digits(n / 10) + [DigitChar(n % 10)]
  }

  predicate AllDigits(s: string) {
    forall i :: 0 <= i < |s| ==> IsDigit(s[i])
  }

  function ValueOf(s: string): nat
    requires AllDigits(s)
  {
    if |s| == 0 then 0 else ValueOf(s[..|s| - 1]) * 10 + DigitValue(s[|s| - 1])
  }

  lemma {:induction false} DigitsRoundTrip(n: nat)
    ensures ValueOf(Digits(n)) == n
  {
    if n >= 10 {
      DigitsRoundTrip(n / 10);
      var s := Digits(n);
      assert s[..|s| - 1] == Digits(n / 10);
    }
  }

  function Abs(c: int): nat {
    if c < 0 then -c else c
  }

  /** `(cents / 100).toFixed(2)`: optional minus sign, units, a point, two decimals. */
  function Fixed2(c: int): (s: string)
    ensures |s| >= 4 && s[|s| - 3] == '.'
    ensures IsDigit(s[|s| - 2]) && IsDigit(s[|s| - 1])
    ensures s[0] == '-' <==> c < 0
  {
    var a := Abs(c);
    (if c < 0 then "-" else "") + Digits(a / 100) + "." + [DigitChar(a % 100 / 10), DigitChar(a % 10)]
  }

  /** `parseFloat` restricted to the strings `Fixed2` produces; NaN for anything else. */
  function ParseFixed2(s: string): (r: Num)
    ensures r.Num? ==> |s| >= 4 && s[|s| - 3] == '.' && IsDigit(s[|s| - 2]) && IsDigit(s[|s| - 1])
    ensures r.Num? && r.cents < 0 ==> s[0] == '-'
    ensures r.Num? && r.cents >= 0 ==> r.cents % 100 == DigitValue(s[|s| - 2]) * 10 + DigitValue(s[|s| - 1])
  {
    if |s| < 4 || s[|s| - 3] != '.' || !IsDigit(s[|s| - 2]) || !IsDigit(s[|s| - 1]) then NaN
    else ParseWhole(s[..|s| - 3], DigitValue(s[|s| - 2]) * 10 + DigitValue(s[|s| - 1]))
  }

  /** The part before the point: an optional minus sign and at least one digit; `cents` are the decimals. */
  function ParseWhole(whole: string, cents: nat): Num {
    var negative := |whole| > 0 && whole[0] == '-';
    var units := if negative then whole[1..] else whole;
    if |units| == 0 || !AllDigits(units) then NaN
    else
      var a := ValueOf(units) * 100 + cents;
      Num(if negative then -a else a)
  }

  /** Printing a price and reading it back yields the same price. */
  lemma FixedRoundTrip(c: int)
    ensures ParseFixed2(Fixed2(c)) == Num(c)
  {
    var a := Abs(c);
    var units := Digits(a / 100);
    var d1, d2 := a % 100 / 10, a % 10;
    var tail := [DigitChar(d1), DigitChar(d2)];
    SplitCents(a);
    DigitsRoundTrip(a / 100);
    assert ValueOf(units) * 100 + (d1 * 10 + d2) == a;
    if c < 0 {
      assert Fixed2(c) == ("-" + units) + "." + tail;
      ParsePoint("-" + units, d1, d2);
      ParseNegative(units, d1 * 10 + d2);
    } else {
      assert Fixed2(c) == units + "." + tail;
      ParsePoint(units, d1, d2);
      ParsePositive(units, d1 * 10 + d2);
    }
  }

  /** The two decimals after the point are read as cents. */
  lemma ParsePoint(whole: string, d1: nat, d2: nat)
    requires d1 < 10 && d2 < 10
    ensures ParseFixed2(whole + "." + [DigitChar(d1), DigitChar(d2)]) == ParseWhole(whole, d1 * 10 + d2)
  {
    var s := whole + "." + [DigitChar(d1), DigitChar(d2)];
    assert s[..|s| - 3] == whole;
    assert s[|s| - 3] == '.' && s[|s| - 2] == DigitChar(d1) && s[|s| - 1] == DigitChar(d2);
  }

  lemma ParseNegative(units: string, cents: nat)
    requires |units| > 0 && AllDigits(units)
    ensures ParseWhole("-" + units, cents) == Num(-(ValueOf(units) * 100 + cents))
  {
    var whole := "-" + units;
    assert whole[0] == '-' && whole[1..] == units;
  }

  lemma ParsePositive(units: string, cents: nat)
    requires |units| > 0 && AllDigits(units)
    ensures ParseWhole(units, cents) == Num(ValueOf(units) * 100 + cents)
  {
    assert units[0] != '-';
  }

  lemma SplitCents(a: nat)
    ensures a == a / 100 * 100 + a % 100 / 10 * 10 + a % 10
  {
    var q := a / 100;
    var r := a % 100;
    assert a == q * 100 + r;
    assert r == r / 10 * 10 + r % 10;
    assert a == (q * 10 + r / 10) * 10 + r % 10;
    assert a % 10 == r % 10;
  }
}

=== FILE: notifications.dfy ===
/**
 * The notification bell: the loaded notifications, the unread count on its
 * badge, the error flag that hides the badge, and marking one as read.
 */
module Notifications {

  import opened Model
  import Seqs

  /** A notification; `read` is false when the store leaves it unset. */
  datatype Notification = Notification(id: Id, title: string, message: string, read: bool)

  /** The bell's state. */
  datatype Bell = Bell(items: seq<Notification>, unread: int, error: bool)

  /** What asking for the signed-in user yields. */
  datatype Who = NoUser | WhoFailed | SignedIn(userId: Id)

  /** What fetching the user's notifications yields; `Fetched(None)` is a null answer. */
  datatype Fetch = Fetched(list: Option<seq<Notification>>) | FetchFailed

  function CountUnread(items: seq<Notification>): (n: nat)
    ensures n <= |items|
  {
    Seqs.Count(items, (x: Notification) => !x.read)
  }

  /** The badge number agrees with the list. */
  predicate Consistent(b: Bell) {
    b.unread == CountUnread(b.items)
  }

  /** The badge is shown when there is no error and something is unread. */
  predicate BadgeShown(b: Bell) {
    !b.error && b.unread > 0
  }

  /**
   * `loadNotifications`: no user empties the bell (the error flag is left
   * alone); a failed user lookup empties it and clears the error; a fetched
   * list (null read as empty) replaces the old one with its unread count; a
   * failed fetch keeps the old list and count and sets the error flag.
   */
  function Load(b: Bell, who: Who, fetch: Fetch): (r: Bell)
    ensures who.NoUser? ==> r == Bell([], 0, b.error)
    ensures who.WhoFailed? ==> r == Bell([], 0, false)
    ensures who.SignedIn? && fetch.Fetched? ==>
      && r.items == (if fetch.list.Some? then fetch.list.value else [])
      && r.unread == CountUnread(r.items) && !r.error
    ensures who.SignedIn? && fetch.FetchFailed? ==> r.items == b.items && r.unread == b.unread && r.error
  {
    match who
    case NoUser => Bell([], 0, b.error)
    case WhoFailed => Bell([], 0, false)
    case SignedIn(_) =>
      match fetch
      case Fetched(list) =>
        var items := if list.Some? then list.value else [];
        Bell(items, CountUnread(items), false)
      case FetchFailed => b.(error := true)
  }

  /** Loading keeps the badge number consistent with the list, and a failed fetch hides the badge. */
  lemma LoadConsistent(b: Bell, who: Who, fetch: Fetch)
    requires Consistent(b)
    ensures Consistent(Load(b, who, fetch))
    ensures who.SignedIn? && fetch.FetchFailed? ==> !BadgeShown(Load(b, who, fetch))
  {
  }

  /** The list with the notification `id` set read; the others unchanged. */
  function SetRead(items: seq<Notification>, id: Id): (r: seq<Notification>)
    ensures |r| == |items|
    ensures forall i :: 0 <= i < |items| ==>
      r[i] == if items[i].id == id then items[i].(read := true) else items[i]
  {
    seq(|items|, i requires 0 <= i < |items| => if items[i].id == id then items[i].(read := true) else items[i])
  }

  /**
   * `markAsRead` as written: when the store accepts the update the clicked
   * notification is marked read and the count drops by one, floored at
   * zero, whether or not it was unread; a failed update changes nothing.
   */
  function MarkAsReadAsWritten(b: Bell, n: Notification, updated: bool): (r: Bell)
    ensures !updated ==> r == b
    ensures updated ==> r.items == SetRead(b.items, n.id) && r.error == b.error
    ensures updated ==> r.unread == (if b.unread - 1 > 0 then b.unread - 1 else 0) && r.unread >= 0
  {
    if !updated then b
    else Bell(SetRead(b.items, n.id), if b.unread - 1 > 0 then b.unread - 1 else 0, b.error)
  }

  /**
   * Clicking an already-read notification lowers the badge anyway: with one
   * read and one unread notification, the count falls to zero while one is
   * still unread, and the badge disappears.
   */
  lemma MarkReadTwiceDrifts()
    ensures var b := Bell([Notification("n1", "", "", true), Notification("n2", "", "", false)], 1, false);
      && Consistent(b) && BadgeShown(b)
      && var r := MarkAsReadAsWritten(b, b.items[0], true);
      && r.unread == 0 && CountUnread(r.items) == 1 && !Consistent(r) && !BadgeShown(r)
  {
    var b := Bell([Notification("n1", "", "", true), Notification("n2", "", "", false)], 1, false);
    var p := (x: Notification) => !x.read;
    assert b.items[1..] == [Notification("n2", "", "", false)] && b.items[1..][1..] == [];
    assert Seqs.Count(b.items, p) == 1;
    var r := MarkAsReadAsWritten(b, b.items[0], true);
    assert r.items == b.items;
  }

  /**
   * The corrected `markAsRead`: the count is the number of notifications
   * still unread after the update.
   */
  function MarkAsRead(b: Bell, n: Notification, updated: bool): (r: Bell)
    ensures !updated ==> r == b
    ensures updated ==> r.items == SetRead(b.items, n.id) && r.error == b.error && Consistent(r)
  {
    if !updated then b
    else
      var items := SetRead(b.items, n.id);
      Bell(items, CountUnread(items), b.error)
  }

  /** Ids are unique in the list. */
  predicate UniqueIds(items: seq<Notification>) {
    forall i, j :: 0 <= i < |items| && 0 <= j < |items| && items[i].id == items[j].id ==> i == j
  }

  lemma {:induction false} SetReadCount(items: seq<Notification>, k: int)
    requires UniqueIds(items) && 0 <= k < |items|
    ensures CountUnread(SetRead(items, items[k].id)) == CountUnread(items) - (if items[k].read then 0 else 1)
    decreases |items|
  {
    var p := (x: Notification) => !x.read;
    var r := SetRead(items, items[k].id);
    assert r[1..] == SetRead(items[1..], items[k].id);
    if k == 0 {
      assert forall i :: 0 <= i < |items[1..]| ==> items[1..][i].id != items[0].id;
      assert r[1..] == items[1..];
    } else {
      assert r[0] == items[0];
      SetReadCount(items[1..], k - 1);
    }
  }

  /**
   * With consistent state and unique ids, the corrected count drops by one
   * exactly when the clicked notification was unread, and stays put
   * otherwise; in the first case it agrees with the code as written.
   */
  lemma MarkAsReadCounts(b: Bell, k: int)
    requires Consistent(b) && UniqueIds(b.items) && 0 <= k < |b.items|
    ensures var r := MarkAsRead(b, b.items[k], true);
      r.unread == (if b.items[k].read then b.unread else b.unread - 1)
    ensures !b.items[k].read ==> MarkAsRead(b, b.items[k], true) == MarkAsReadAsWritten(b, b.items[k], true)
  {
    SetReadCount(b.items, k);
    if !b.items[k].read {
      assert CountUnread(b.items) >= 1 by {
        assert CountUnread(SetRead(b.items, b.items[k].id)) >= 0;
      }
    }
  }
}

=== FILE: notify.dfy ===
/**
 * The e-mails the listing page sends when an auction is won (by closing or
 * by buy-now): the winner's congratulation with payment instructions, and
 * the notice to every admin and the seller. Templates come from the template
 * store, the payment instructions from the first payment settings record.
 * HTML markup and the date line are left out of the generated fragments;
 * their data fields are kept.
 */
module Notify {

  import opened Model
  import opened Text
  import Seqs
  import Money
  import Render
  import Auction

  /** One block of the payment instructions. An empty string is an unset field. */
  datatype Section =
    | PayPalSection(paypalEmail: string)
    | CashAppSection(cashappId: string, qr: string)
    | VenmoSection(venmoId: string, qr: string)
    | BankSection(bankName: string, accountName: string, accountNumber: string, routingNumber: string)
    | AdditionalSection(text: string)

  /** The payment instructions of the winner e-mail. */
  datatype Instructions = ContactSeller | Sections(sections: seq<Section>)

  const MethodOrder: seq<Method> := [PayPal, CashApp, Venmo, BankTransfer]

  /** The seller has filled in what the winner e-mail needs to offer method `m`. */
  predicate Configured(st: PaymentSettings, m: Method) {
    match m
    case PayPal => st.paypalEmail != ""
    case CashApp => st.cashappId != ""
    case Venmo => st.venmoId != ""
    case BankTransfer => st.bankName != "" && st.bankAccountNumber != ""
  }

  /** The listing's accepted methods; a listing without any flags accepts all four. */
  function Accepted(flags: Option<PaymentFlags>): PaymentFlags {
    if flags.Some? then flags.value else AllMethods
  }

  /** Method `m` is offered in the winner e-mail. */
  predicate Offered(st: PaymentSettings, flags: Option<PaymentFlags>, m: Method) {
    Accepted(flags).Get(m) && Configured(st, m)
  }

  function NotProvided(s: string): string {
    if s != "" then s else "Not provided"
  }

  function SectionFor(st: PaymentSettings, m: Method): Section {
    match m
    case PayPal => PayPalSection(st.paypalEmail)
    case CashApp => CashAppSection(st.cashappId, st.cashappQr)
    case Venmo => VenmoSection(st.venmoId, st.venmoQr)
    case BankTransfer =>
      BankSection(st.bankName, NotProvided(st.bankAccountName), st.bankAccountNumber, NotProvided(st.bankRoutingNumber))
  }

  function MethodOf(g: Section): Option<Method> {
    match g
    case PayPalSection(_) => Some(PayPal)
    case CashAppSection(_, _) => Some(CashApp)
    case VenmoSection(_, _) => Some(Venmo)
    case BankSection(_, _, _, _) => Some(BankTransfer)
    case AdditionalSection(_) => None
  }

  /** The methods the sections offer, in order. */
  function MethodsOf(gs: seq<Section>): seq<Method> {
    if |gs| == 0 then []
    else (if MethodOf(gs[0]).Some? then [MethodOf(gs[0]).value] else []) + MethodsOf(gs[1..])
  }

  function MethodSections(st: PaymentSettings, flags: Option<PaymentFlags>, ms: seq<Method>): (r: seq<Section>)
    ensures MethodsOf(r) == Seqs.Filter(ms, m => Offered(st, flags, m))
    ensures forall i :: 0 <= i < |r| ==> r[i].AdditionalSection? == false && r[i] == SectionFor(st, MethodOf(r[i]).value)
  {
    if |ms| == 0 then []
    else
      var rest := MethodSections(st, flags, ms[1..]);
      if Offered(st, flags, ms[0]) then
        var r := [SectionFor(st, ms[0])] + rest;
        assert MethodsOf(r) == [ms[0]] + MethodsOf(rest) by {
          assert r[1..] == rest;
        }
        assert forall i :: 1 <= i < |r| ==> r[i] == rest[i - 1];
        r
      else rest
  }

  lemma {:induction false} MethodsOfAppend(a: seq<Section>, b: seq<Section>)
    ensures MethodsOf(a + b) == MethodsOf(a) + MethodsOf(b)
  {
    if |a| > 0 {
      assert (a + b)[0] == a[0] && (a + b)[1..] == a[1..] + b;
      MethodsOfAppend(a[1..], b);
      var h := if MethodOf(a[0]).Some? then [MethodOf(a[0]).value] else [];
      assert MethodsOf(a + b) == h + (MethodsOf(a[1..]) + MethodsOf(b));
      assert MethodsOf(a) == h + MethodsOf(a[1..]);
    } else {
      assert a + b == b;
    }
  }

  /**
   * The payment instructions of the winner e-mail: with no settings record,
   * "contact the seller"; otherwise one section per method the listing
   * accepts and the seller has configured, in the fixed order PayPal, Cash
   * App, Venmo, bank transfer, then the seller's additional instructions if
   * any (line breaks turned into `<br>`).
   */
  function PaymentInstructions(settings: seq<PaymentSettings>, flags: Option<PaymentFlags>): (r: Instructions)
    ensures |settings| == 0 <==> r.ContactSeller?
    ensures r.Sections? ==> MethodsOf(r.sections) == Seqs.Filter(MethodOrder, m => Offered(settings[0], flags, m))
    ensures r.Sections? ==>
      (settings[0].paymentInstructions != "" <==> |r.sections| > 0 && r.sections[|r.sections| - 1].AdditionalSection?)
  {
    if |settings| == 0 then ContactSeller
    else
      var st := settings[0];
      var methods := MethodSections(st, flags, MethodOrder);
      var extra := if st.paymentInstructions != "" then [AdditionalSection(Render.ReplaceAll(st.paymentInstructions, "\n", "<br>"))] else [];
      MethodsOfAppend(methods, extra);
      assert MethodsOf(extra) == [];
      Sections(methods + extra)
  }

  /** A method appears in the instructions exactly when the listing accepts it and the seller configured it. */
  lemma OfferedExactly(settings: seq<PaymentSettings>, flags: Option<PaymentFlags>, m: Method)
    requires |settings| > 0
    ensures m in MethodsOf(PaymentInstructions(settings, flags).sections) <==> Offered(settings[0], flags, m)
  {
    var k := match m case PayPal => 0 case CashApp => 1 case Venmo => 2 case BankTransfer => 3;
    assert MethodOrder[k] == m;
  }

  function SectionText(g: Section): string {
    match g
    case PayPalSection(e) => "PayPal: send payment to " + e + "\n"
    case CashAppSection(id, qr) => "Cash App: send to " + id + (if qr != "" then " (QR code " + qr + ")" else "") + "\n"
    case VenmoSection(id, qr) => "Venmo: send to " + id + (if qr != "" then " (QR code " + qr + ")" else "") + "\n"
    case BankSection(b, n, a, r) => "Bank Transfer: bank " + b + ", account name " + n + ", account number " + a + ", routing number " + r + "\n"
    case AdditionalSection(t) => "Additional Instructions: " + t + "\n"
  }

  function InstructionsText(ins: Instructions): string {
    match ins
    case ContactSeller => "Contact seller for payment details."
    case Sections(gs) => "Payment Options\n" + JoinSections(gs)
  }

  function JoinSections(gs: seq<Section>): string {
    if |gs| == 0 then "" else SectionText(gs[0]) + JoinSections(gs[1..])
  }

  /** The first template of the given type, as `templates.find(...)` returns it. */
  function FindTemplate(templates: seq<EmailTemplate>, templateType: string): (r: Option<EmailTemplate>)
    ensures r.None? <==> forall i :: 0 <= i < |templates| ==> templates[i].templateType != templateType
    ensures r.Some? ==> exists i :: (0 <= i < |templates| && templates[i] == r.value
      && templates[i].templateType == templateType
      && forall j :: 0 <= j < i ==> templates[j].templateType != templateType)
  {
    if |templates| == 0 then None
    else if templates[0].templateType == templateType then Some(templates[0])
    else
      var r := FindTemplate(templates[1..], templateType);
      if r.Some? then
        var i :| 0 <= i < |templates[1..]| && templates[1..][i] == r.value && templates[1..][i].templateType == templateType
          && forall j :: 0 <= j < i ==> templates[1..][j].templateType != templateType;
        assert templates[i + 1] == r.value;
        r
      else r
  }

  /** `id.substring(0, 8)`: the first eight characters of the id, or all of a shorter one. */
  function Reference(id: string): (r: string)
    ensures IsPrefix(r, id)
    ensures |r| == if |id| < 8 then |id| else 8
  {
    if |id| <= 8 then id else id[..8]
  }

  /**
   * The transaction summary of the winner e-mail (the date line is left
   * out): it opens with the item and closes with the listing's reference.
   */
  function TransactionDetails(l: Listing, amount: Cents): (r: string)
    ensures IsPrefix("Item: " + l.title + "\n", r)
    ensures |r| >= |Reference(l.id)| + 4 && r[|r| - |Reference(l.id)| - 4..] == "TRU-" + Reference(l.id)
  {
    "Item: " + l.title + "\nFinal Price: $" + Money.Fixed2(amount)
    + "\nReference: TRU-" + Reference(l.id)
  }

  /** Pairs placeholder keys with their values. */
  function Bind(keys: seq<string>, values: seq<string>): (r: seq<Render.Var>)
    requires |keys| == |values|
    ensures |r| == |keys| && forall i :: 0 <= i < |r| ==> r[i] == Render.Var(keys[i], values[i])
  {
    if |keys| == 0 then [] else [Render.Var(keys[0], values[0])] + Bind(keys[1..], values[1..])
  }

  const WinnerKeys: seq<string> := ["winner_name", "item_title", "final_price", "payment_instructions", "transaction_details"]

  const AdminKeys: seq<string> := ["item_title", "final_price", "winner_email", "auction_details"]

  lemma KeysValid()
    ensures forall i :: 0 <= i < |WinnerKeys| ==> Render.ValidKey(WinnerKeys[i])
    ensures forall i :: 0 <= i < |AdminKeys| ==> Render.ValidKey(AdminKeys[i])
  {
    assert Render.ValidKey("winner_name") && Render.ValidKey("item_title") && Render.ValidKey("final_price");
    assert Render.ValidKey("payment_instructions") && Render.ValidKey("transaction_details");
    assert Render.ValidKey("winner_email") && Render.ValidKey("auction_details");
  }

  /** The e-mail data of the winner e-mail, in the order the page substitutes it. */
  function WinnerVars(winner: Email, l: Listing, amount: Cents, ins: Instructions): (r: seq<Render.Var>)
    ensures |r| == |WinnerKeys| && forall i :: 0 <= i < |r| ==> r[i].key == WinnerKeys[i] && Render.ValidKey(r[i].key)
    ensures r[0].value == LocalPart(winner) && r[1].value == l.title
    ensures r[2].value == Money.Fixed2(amount) && Money.ParseFixed2(r[2].value) == Num(amount)
    ensures r[3].value == InstructionsText(ins) && r[4].value == TransactionDetails(l, amount)
  {
    KeysValid();
    Money.FixedRoundTrip(amount);
    Bind(WinnerKeys, [LocalPart(winner), l.title, Money.Fixed2(amount), InstructionsText(ins), TransactionDetails(l, amount)])
  }

  /**
   * The winner e-mail: none without an `auction_won` template; otherwise to
   * the winner, with subject and body substituted.
   */
  function WinnerMail(templates: seq<EmailTemplate>, settings: seq<PaymentSettings>, a: Auction.Award): (r: Option<Mail>)
    ensures r.None? <==> FindTemplate(templates, "auction_won").None?
    ensures r.Some? ==>
      var t := FindTemplate(templates, "auction_won").value;
      var vars := WinnerVars(a.winner, a.listing, a.finalPrice, PaymentInstructions(settings, a.listing.paymentMethods));
      r.value == Mail(a.winner, Render.Substitute(t.subject, vars), Render.Substitute(t.body, vars))
  {
    match FindTemplate(templates, "auction_won")
    case None => None
    case Some(t) =>
      var vars := WinnerVars(a.winner, a.listing, a.finalPrice, PaymentInstructions(settings, a.listing.paymentMethods));
      Some(Mail(a.winner, Render.Substitute(t.subject, vars), Render.Substitute(t.body, vars)))
  }

  function Emails(users: seq<User>): (r: seq<Email>)
    ensures |r| == |users| && forall i :: 0 <= i < |users| ==> r[i] == users[i].email
  {
    if |users| == 0 then [] else [users[0].email] + Emails(users[1..])
  }

  /**
   * Who gets the admin notice: every admin, in order, then the seller unless
   * the seller is unknown or already an admin. With no admin at all nobody is
   * notified, not even the seller.
   */
  function AdminRecipients(admins: seq<User>, seller: Email): (r: seq<Email>)
    ensures |admins| == 0 ==> r == []
    ensures |admins| > 0 ==> forall e :: e in r <==> (exists i :: 0 <= i < |admins| && admins[i].email == e) || (e == seller && seller != "")
    ensures |admins| > 0 ==> |r| >= |admins| && r[..|admins|] == Emails(admins)
    ensures |admins| > 0 ==> |r| == |admins| + (if seller != "" && seller !in Emails(admins) then 1 else 0)
  {
    if |admins| == 0 then []
    else
      var emails := Emails(admins);
      if seller != "" && seller !in emails then emails + [seller] else emails
  }

  /**
   * The auction summary of the admin notice (the date line is left out): the
   * item, then its category or "Not specified" when it has none, and the
   * listing's id last.
   */
  function AuctionDetails(l: Listing, amount: Cents, winner: Email): (r: string)
    ensures l.category != "" ==> IsPrefix("Item: " + l.title + "\nCategory: " + l.category + "\n", r)
    ensures l.category == "" ==> IsPrefix("Item: " + l.title + "\nCategory: Not specified\n", r)
    ensures |r| >= |l.id| + 12 && r[|r| - |l.id| - 12..] == "Auction ID: " + l.id
  {
    var head := "Item: " + l.title + "\nCategory: " + (if l.category != "" then l.category else "Not specified") + "\n";
    var middle := "Final Price: $" + Money.Fixed2(amount) + "\nBuyer: " + winner + "\n";
    var tail := "Auction ID: " + l.id;
    assert (head + middle + tail)[..|head|] == head;
    assert (head + middle + tail)[|head + middle|..] == tail;
    head + middle + tail
  }

  /** The e-mail data of the admin notice: the title, the price, the winner's address and the summary. */
  function AdminVars(a: Auction.Award): (r: seq<Render.Var>)
    ensures |r| == |AdminKeys| && forall i :: 0 <= i < |r| ==> r[i].key == AdminKeys[i] && Render.ValidKey(r[i].key)
    ensures r[0].value == a.listing.title && r[2].value == a.winner
    ensures r[1].value == Money.Fixed2(a.finalPrice) && Money.ParseFixed2(r[1].value) == Num(a.finalPrice)
    ensures r[3].value == AuctionDetails(a.listing, a.finalPrice, a.winner)
  {
    KeysValid();
    Money.FixedRoundTrip(a.finalPrice);
    Bind(AdminKeys, [a.listing.title, Money.Fixed2(a.finalPrice), a.winner, AuctionDetails(a.listing, a.finalPrice, a.winner)])
  }

  /** One copy of the rendered admin notice per recipient. */
  function MailEach(to: seq<Email>, subject: string, body: string): (r: seq<Mail>)
    ensures |r| == |to| && forall i :: 0 <= i < |to| ==> r[i] == Mail(to[i], subject, body)
  {
    if |to| == 0 then [] else [Mail(to[0], subject, body)] + MailEach(to[1..], subject, body)
  }

  /** The admin notices: none without admins or without an `admin_notification` template. */
  function AdminMails(admins: seq<User>, templates: seq<EmailTemplate>, a: Auction.Award): (r: seq<Mail>)
    ensures |admins| == 0 || FindTemplate(templates, "admin_notification").None? ==> r == []
    ensures |admins| > 0 && FindTemplate(templates, "admin_notification").Some? ==>
      var t := FindTemplate(templates, "admin_notification").value;
      var to := AdminRecipients(admins, a.listing.createdBy);
      && |r| == |to|
      && forall i :: 0 <= i < |r| ==>
           r[i] == Mail(to[i], Render.Substitute(t.subject, AdminVars(a)), Render.Substitute(t.body, AdminVars(a)))
  {
    if |admins| == 0 then []
    else
      match FindTemplate(templates, "admin_notification")
      case None => []
      case Some(t) =>
        MailEach(AdminRecipients(admins, a.listing.createdBy),
                 Render.Substitute(t.subject, AdminVars(a)), Render.Substitute(t.body, AdminVars(a)))
  }

  /** Everything sent for one announcement: the winner e-mail first, then the admin notices. */
  function AwardMails(award: Option<Auction.Award>, templates: seq<EmailTemplate>, settings: seq<PaymentSettings>, admins: seq<User>): (r: seq<Mail>)
    ensures award.None? ==> r == []
    ensures award.Some? && FindTemplate(templates, "auction_won").None? ==> r == AdminMails(admins, templates, award.value)
    ensures award.Some? && FindTemplate(templates, "auction_won").Some? ==>
      && |r| >= 1 && r[0] == WinnerMail(templates, settings, award.value).value && r[0].to == award.value.winner
      && r[1..] == AdminMails(admins, templates, award.value)
  {
    if award.None? then []
    else
      var w := WinnerMail(templates, settings, award.value);
      (if w.Some? then [w.value] else []) + AdminMails(admins, templates, award.value)
  }

  /**
   * A close that finds bids mails the bidder it marked `won`, at the
   * listing's current price; a close that finds none, or does nothing, mails
   * nobody.
   */
  lemma ClosingMailsAnnounceWinner(s: Store, id: Id, now: Time, templates: seq<EmailTemplate>,
                                   settings: seq<PaymentSettings>, admins: seq<User>)
    ensures var r := Auction.CloseAuction(s, id, now);
      var mails := AwardMails(r.award, templates, settings, admins);
      && (r.award.None? ==> mails == [])
      && (r.award.Some? && FindTemplate(templates, "auction_won").Some? ==>
            exists w: nat :: Auction.SettledWith(r.store.bids, id, w) && mails[0].to == r.store.bids[w].createdBy
              && WinnerVars(r.award.value.winner, r.award.value.listing, r.award.value.finalPrice,
                            PaymentInstructions(settings, r.award.value.listing.paymentMethods))[2]
                 == Render.Var("final_price", Money.Fixed2(s.listings[id].currentPrice)))
  {
  }
}

=== FILE: payments.dfy ===
/**
 * The buyer's payment-request dialog: which method it preselects, which
 * methods it offers, when it refuses to submit, the Payment record it
 * creates and the sections of the invoice e-mail body. Method values are the
 * strings the dialog stores, because two of its defects are string mismatches.
 */
module Payments {

  import opened Model
  import Seqs
  import Notify

  /** The value the method menu uses for each method. */
  function Token(m: Method): string {
    match m
    case PayPal => "paypal"
    case CashApp => "cash_app"
    case Venmo => "venmo"
    case BankTransfer => "bank_transfer"
  }

  /** The method a menu value stands for, if any. */
  function TokenMethod(t: string): (r: Option<Method>)
    ensures r.Some? ==> Token(r.value) == t
    ensures forall m :: Token(m) == t ==> r == Some(m)
  {
    if t == "paypal" then Some(PayPal)
    else if t == "cash_app" then Some(CashApp)
    else if t == "venmo" then Some(Venmo)
    else if t == "bank_transfer" then Some(BankTransfer)
    else None
  }

  /** The one credential the dialog looks at for each method. */
  predicate HasCredential(st: PaymentSettings, m: Method) {
    match m
    case PayPal => st.paypalEmail != ""
    case CashApp => st.cashappId != ""
    case Venmo => st.venmoId != ""
    case BankTransfer => st.bankName != ""
  }

  function Rank(m: Method): nat {
    match m
    case PayPal => 0
    case CashApp => 1
    case Venmo => 2
    case BankTransfer => 3
  }

  /** Method `m` may be preselected: the listing accepts it and its credential is set. */
  predicate Eligible(st: PaymentSettings, flags: PaymentFlags, m: Method) {
    flags.Get(m) && HasCredential(st, m)
  }

  /**
   * The intended preselection: the first of PayPal, Cash App, Venmo and bank
   * transfer that is eligible, or none.
   */
  function DefaultMethod(st: PaymentSettings, flags: PaymentFlags): (r: Option<Method>)
    ensures r.None? ==> forall m :: !Eligible(st, flags, m)
    ensures r.Some? ==> Eligible(st, flags, r.value)
    ensures r.Some? ==> forall m :: Rank(m) < Rank(r.value) ==> !Eligible(st, flags, m)
  {
    if flags.paypal && st.paypalEmail != "" then Some(PayPal)
    else if flags.cashapp && st.cashappId != "" then Some(CashApp)
    else if flags.venmo && st.venmoId != "" then Some(Venmo)
    else if flags.bankTransfer && st.bankName != "" then Some(BankTransfer)
    else None
  }

  /** The preselection is the head of the eligible methods in priority order. */
  lemma DefaultIsFirstEligible(st: PaymentSettings, flags: PaymentFlags)
    ensures var e := Seqs.Filter(Notify.MethodOrder, m => Eligible(st, flags, m));
      DefaultMethod(st, flags) == if |e| == 0 then None else Some(e[0])
  {
  }

  /** The menu values of a list of methods, in order. */
  function TokensOf(ms: seq<Method>): (r: seq<string>)
    ensures |r| == |ms| && forall i :: 0 <= i < |ms| ==> r[i] == Token(ms[i])
    ensures forall m :: Token(m) in r <==> m in ms
  {
    if |ms| == 0 then []
    else
      assert forall m :: Token(m) == Token(ms[0]) ==> m == ms[0] by {
        assert TokenMethod(Token(ms[0])) == Some(ms[0]);
      }
      [Token(ms[0])] + TokensOf(ms[1..])
  }

  /**
   * The menu entries, `getAvailablePaymentMethods`: one per method whose
   * credential is set, whatever the listing accepts, in fixed order.
   */
  function AvailableTokens(settings: Option<PaymentSettings>): (r: seq<string>)
    ensures settings.None? ==> r == []
    ensures |r| <= 4
  {
    if settings.None? then []
    else
      var st := settings.value;
      TokensOf((if st.paypalEmail != "" then [PayPal] else [])
               + (if st.cashappId != "" then [CashApp] else [])
               + (if st.venmoId != "" then [Venmo] else [])
               + (if st.bankName != "" then [BankTransfer] else []))
  }

  /** The methods of `ms` whose credential is set, in order. */
  function Credentialed(st: PaymentSettings, ms: seq<Method>): seq<Method> {
    if |ms| == 0 then []
    else (if HasCredential(st, ms[0]) then [ms[0]] else []) + Credentialed(st, ms[1..])
  }

  lemma {:induction false} CredentialedMembers(st: PaymentSettings, ms: seq<Method>, m: Method)
    ensures m in Credentialed(st, ms) <==> m in ms && HasCredential(st, m)
  {
    if |ms| > 0 {
      CredentialedMembers(st, ms[1..], m);
      assert ms == [ms[0]] + ms[1..];
    }
  }

  /** The menu lists the methods with a credential, in the fixed method order. */
  lemma AvailableInOrder(st: PaymentSettings)
    ensures AvailableTokens(Some(st)) == TokensOf(Credentialed(st, Notify.MethodOrder))
  {
    CredentialedOrder(st);
  }

  lemma CredentialedOrder(st: PaymentSettings)
    ensures Credentialed(st, Notify.MethodOrder)
         == (if st.paypalEmail != "" then [PayPal] else [])
            + (if st.cashappId != "" then [CashApp] else [])
            + (if st.venmoId != "" then [Venmo] else [])
            + (if st.bankName != "" then [BankTransfer] else [])
  {
    var o := Notify.MethodOrder;
    assert o[1..] == [CashApp, Venmo, BankTransfer] && o[1..][1..] == [Venmo, BankTransfer];
    assert o[1..][1..][1..] == [BankTransfer] && o[1..][1..][1..][1..] == [];
    var f3 := Credentialed(st, o[1..][1..][1..]);
    var f2 := Credentialed(st, o[1..][1..]);
    var f1 := Credentialed(st, o[1..]);
    assert f3 == (if st.bankName != "" then [BankTransfer] else []) + Credentialed(st, []);
    assert f2 == (if st.venmoId != "" then [Venmo] else []) + f3;
    assert f1 == (if st.cashappId != "" then [CashApp] else []) + f2;
  }

  /** A method is on the menu exactly when its credential is set. */
  lemma AvailableExactly(st: PaymentSettings, m: Method)
    ensures Token(m) in AvailableTokens(Some(st)) <==> HasCredential(st, m)
  {
    AvailableInOrder(st);
    CredentialedMembers(st, Notify.MethodOrder, m);
    assert m in Notify.MethodOrder by {
      var k := match m case PayPal => 0 case CashApp => 1 case Venmo => 2 case BankTransfer => 3;
      assert Notify.MethodOrder[k] == m;
    }
  }

  /** Every method the winner e-mail offers can be chosen in the payment dialog. */
  lemma WinnerMethodsSelectable(settings: seq<PaymentSettings>, flags: Option<PaymentFlags>, m: Method)
    requires |settings| > 0
    requires m in Notify.MethodsOf(Notify.PaymentInstructions(settings, flags).sections)
    ensures Token(m) in AvailableTokens(Some(settings[0]))
  {
    Notify.OfferedExactly(settings, flags, m);
    AvailableExactly(settings[0], m);
  }

  /** What the dialog holds: settings, the controlled method value, and the three form fields. */
  datatype Form = Form(settings: Option<PaymentSettings>, chosen: Option<string>, selected: string,
                       contact: string, notes: string, error: string)

  const LoadError := "Unable to load payment information"

  /**
   * `loadPaymentSettings` as written: when a settings record exists and the
   * listing carries payment flags, the block that picks the default reads
   * its own `settings` constant before initialising it, which throws; the
   * settings are already stored, no method is chosen, and the load error is
   * shown. Otherwise no default is attempted.
   */
  function LoadAsWritten(list: seq<PaymentSettings>, flags: Option<PaymentFlags>): (r: Form)
    ensures r.chosen.None?
    ensures r.settings == (if |list| > 0 then Some(list[0]) else None)
    ensures r.error != "" <==> |list| > 0 && flags.Some?
  {
    var st := if |list| > 0 then Some(list[0]) else None;
    if |list| > 0 && flags.Some? then Form(st, None, "", "", "", LoadError)
    else Form(st, None, "", "", "", "")
  }

  /**
   * The priority chain of lines 53-61 as if the constant were read correctly:
   * note the `"cashapp"` value, which is not the menu's `"cash_app"`.
   */
  function PriorityToken(st: PaymentSettings, flags: PaymentFlags): (r: Option<string>)
    ensures r.None? <==> DefaultMethod(st, flags).None?
    ensures r.Some? && DefaultMethod(st, flags) != Some(CashApp) ==> r == Some(Token(DefaultMethod(st, flags).value))
  {
    if flags.paypal && st.paypalEmail != "" then Some("paypal")
    else if flags.cashapp && st.cashappId != "" then Some("cashapp")
    else if flags.venmo && st.venmoId != "" then Some("venmo")
    else if flags.bankTransfer && st.bankName != "" then Some("bank_transfer")
    else None
  }

  /** The corrected load: the preselection is the eligible method of highest priority, by its menu value. */
  function Load(list: seq<PaymentSettings>, flags: Option<PaymentFlags>): (r: Form)
    ensures r.settings == (if |list| > 0 then Some(list[0]) else None) && r.error == ""
    ensures r.chosen.Some? <==> |list| > 0 && flags.Some? && DefaultMethod(list[0], flags.value).Some?
    ensures r.chosen.Some? ==> r.chosen == Some(Token(DefaultMethod(list[0], flags.value).value))
    ensures r.chosen.Some? ==> r.chosen.value in AvailableTokens(r.settings)
  {
    if |list| > 0 && flags.Some? && DefaultMethod(list[0], flags.value).Some? then
      var m := DefaultMethod(list[0], flags.value).value;
      AvailableExactly(list[0], m);
      Form(Some(list[0]), Some(Token(m)), "", "", "", "")
    else Form(if |list| > 0 then Some(list[0]) else None, None, "", "", "", "")
  }

  /** A settings record with only a Cash App id, and a listing accepting everything. */
  const CashAppOnly := PaymentSettings("", "$seller", "", "", "", "", "", "", "", "")

  /**
   * As written, such a listing's dialog never preselects (the load throws);
   * and even with the constant read correctly the chain would pick
   * `"cashapp"`, which no menu entry carries. The corrected load picks
   * `"cash_app"`.
   */
  lemma CashAppDefaultMismatch()
    ensures LoadAsWritten([CashAppOnly], Some(AllMethods)).chosen.None?
    ensures LoadAsWritten([CashAppOnly], Some(AllMethods)).error == LoadError
    ensures PriorityToken(CashAppOnly, AllMethods) == Some("cashapp")
    ensures "cashapp" !in AvailableTokens(Some(CashAppOnly))
    ensures Load([CashAppOnly], Some(AllMethods)).chosen == Some("cash_app")
  {
    assert AvailableTokens(Some(CashAppOnly)) == ["cash_app"];
  }

  /** One user action in the dialog. */
  datatype Event = Choose(value: string) | EnterContact(contact: string) | EnterNotes(notes: string)

  /** The dialog's handlers as written: choosing a menu entry stores it in the form fields only. */
  function ApplyAsWritten(f: Form, e: Event): (r: Form)
    ensures r.chosen == f.chosen && r.settings == f.settings
  {
    match e
    case Choose(v) => f.(selected := v)
    case EnterContact(c) => f.(contact := c)
    case EnterNotes(n) => f.(notes := n)
  }

  /** The corrected handlers: the chosen entry becomes the method the dialog submits and shows. */
  function Apply(f: Form, e: Event): (r: Form)
    ensures e.Choose? ==> r.chosen == Some(e.value) && r.selected == e.value
    ensures !e.Choose? ==> r.chosen == f.chosen && r.selected == f.selected
    ensures r.settings == f.settings
  {
    match e
    case Choose(v) => f.(selected := v, chosen := Some(v))
    case EnterContact(c) => f.(contact := c)
    case EnterNotes(n) => f.(notes := n)
  }

  function RunAsWritten(f: Form, es: seq<Event>): Form
    decreases |es|
  {
    if |es| == 0 then f else RunAsWritten(ApplyAsWritten(f, es[0]), es[1..])
  }

  function Run(f: Form, es: seq<Event>): Form
    decreases |es|
  {
    if |es| == 0 then f else Run(Apply(f, es[0]), es[1..])
  }

  /** The Payment record the dialog creates. */
  datatype Payment = Payment(listingId: Id, bidId: Option<BidId>, amount: Cents, paymentMethod: string,
                             buyerContact: string, notes: string, status: string)

  datatype Submission = Refused(form: Form) | Submitted(payment: Payment)

  const FieldsRequired := "Please fill out all required fields"

  /**
   * `handleSubmitPayment`: refused, with nothing created, unless a method is
   * set and the buyer contact is non-empty; otherwise one pending Payment for
   * the listing's current price.
   */
  function Submit(f: Form, l: Listing, bid: Option<Bid>): (r: Submission)
    ensures r.Refused? <==> f.chosen.None? || f.chosen.value == "" || f.contact == ""
    ensures r.Refused? ==> r.form == f.(error := FieldsRequired)
    ensures r.Submitted? ==>
      && r.payment.amount == l.currentPrice && r.payment.status == "pending"
      && r.payment.listingId == l.id && r.payment.bidId == (if bid.Some? then Some(bid.value.id) else None)
      && Some(r.payment.paymentMethod) == f.chosen
      && r.payment.buyerContact == f.contact && r.payment.notes == f.notes
  {
    if f.chosen.None? || f.chosen.value == "" || f.contact == "" then Refused(f.(error := FieldsRequired))
    else Submitted(Payment(l.id, if bid.Some? then Some(bid.value.id) else None, l.currentPrice,
                           f.chosen.value, f.contact, f.notes, "pending"))
  }

  lemma {:induction false} RunAsWrittenKeepsMethod(f: Form, es: seq<Event>)
    ensures RunAsWritten(f, es).chosen == f.chosen
    decreases |es|
  {
    if |es| > 0 {
      RunAsWrittenKeepsMethod(ApplyAsWritten(f, es[0]), es[1..]);
    }
  }

  /**
   * As written, no sequence of user actions ever lets the dialog submit:
   * the load never sets the method, and choosing an entry does not set it
   * either.
   */
  lemma {:induction false} AsWrittenNeverSubmits(list: seq<PaymentSettings>, flags: Option<PaymentFlags>,
                                                 es: seq<Event>, l: Listing, bid: Option<Bid>)
    ensures Submit(RunAsWritten(LoadAsWritten(list, flags), es), l, bid).Refused?
  {
    RunAsWrittenKeepsMethod(LoadAsWritten(list, flags), es);
  }

  lemma {:induction false} RunLastChoice(f: Form, es: seq<Event>, v: string)
    requires |es| > 0 && es[|es| - 1] == Choose(v)
    ensures Run(f, es).chosen == Some(v)
    decreases |es|
  {
    if |es| > 1 {
      RunLastChoice(Apply(f, es[0]), es[1..], v);
    }
  }

  /**
   * With the corrected handlers, choosing a method and entering a contact
   * submits a pending Payment with exactly that method and contact.
   */
  lemma ChosenMethodSubmitted(list: seq<PaymentSettings>, flags: Option<PaymentFlags>, v: string, c: string,
                              l: Listing, bid: Option<Bid>)
    requires v != "" && c != ""
    ensures var r := Submit(Run(Load(list, flags), [Choose(v), EnterContact(c)]), l, bid);
      r.Submitted? && r.payment.paymentMethod == v && r.payment.buyerContact == c
      && r.payment.amount == l.currentPrice && r.payment.status == "pending"
  {
    var es := [Choose(v), EnterContact(c)];
    var f1 := Apply(Load(list, flags), Choose(v));
    assert es[1..] == [EnterContact(c)] && es[1..][1..] == [];
    assert Run(Load(list, flags), es) == Run(f1, es[1..]);
    assert Run(f1, es[1..]) == Run(Apply(f1, EnterContact(c)), []);
  }

  /** The method block of the invoice e-mail. */
  datatype MethodPart = MethodPart(payBy: Method, lines: seq<string>)

  /** The sections of `createEmailBody`; absent sections are `None`. */
  datatype InvoiceBody = InvoiceBody(title: string, amount: Cents, invoiceNumber: string,
                                     instructions: Option<MethodPart>, additional: Option<string>,
                                     contact: string, notes: Option<string>)

  /** The last six characters of an id (`slice(-6)`). */
  function LastSix(s: string): (r: string)
    ensures |r| == if |s| < 6 then |s| else 6
    ensures r == s[|s| - |r|..]
  {
    if |s| <= 6 then s else s[|s| - 6..]
  }

  function InstructionLines(st: PaymentSettings, m: Method): seq<string> {
    match m
    case PayPal => ["PayPal Instructions:", "Send payment to: " + st.paypalEmail]
    case CashApp => ["Cash App Instructions:", "Send to: " + st.cashappId]
                    + (if st.cashappQr != "" then ["Scan QR Code to pay:", st.cashappQr] else [])
    case Venmo => ["Venmo Instructions:", "Send to: " + st.venmoId]
                  + (if st.venmoQr != "" then ["Scan QR Code to pay:", st.venmoQr] else [])
    case BankTransfer => ["Bank Transfer Instructions:", "Bank: " + st.bankName, "Account Name: " + st.bankAccountName,
                          "Account Number: " + st.bankAccountNumber, "Routing Number: " + st.bankRoutingNumber]
  }

  /**
   * `createEmailBody`: the invoice for the listing's current price; the
   * instructions of the method chosen in the form fields only, and only when
   * its credential is set; the additional instructions when set; the buyer
   * contact; the notes line only when notes were entered.
   */
  function InvoiceEmail(l: Listing, f: Form): (r: InvoiceBody)
    ensures r.amount == l.currentPrice && r.title == l.title && r.contact == f.contact
    ensures r.instructions.Some? <==>
      f.settings.Some? && TokenMethod(f.selected).Some? && HasCredential(f.settings.value, TokenMethod(f.selected).value)
    ensures r.instructions.Some? ==> Token(r.instructions.value.payBy) == f.selected
    ensures r.additional.Some? <==> f.settings.Some? && f.settings.value.paymentInstructions != ""
    ensures r.notes.Some? <==> f.notes != ""
  {
    var m := TokenMethod(f.selected);
    var ins := if f.settings.Some? && m.Some? && HasCredential(f.settings.value, m.value)
      then Some(MethodPart(m.value, InstructionLines(f.settings.value, m.value))) else None;
    var extra := if f.settings.Some? && f.settings.value.paymentInstructions != ""
      then Some(f.settings.value.paymentInstructions) else None;
    InvoiceBody(l.title, l.currentPrice, "INV-" + LastSix(l.id), ins, extra, f.contact,
                if f.notes != "" then Some(f.notes) else None)
  }

  /** The invoice only ever explains a method that the dialog's menu offers. */
  lemma InvoiceMethodOnMenu(l: Listing, f: Form)
    requires InvoiceEmail(l, f).instructions.Some?
    ensures Token(InvoiceEmail(l, f).instructions.value.payBy) in AvailableTokens(f.settings)
  {
    AvailableExactly(f.settings.value, InvoiceEmail(l, f).instructions.value.payBy);
  }
}

=== FILE: render.dfy ===
/**
 * E-mail placeholder substitution. For each key of the e-mail data, in
 * order, the pages run `text.replace(new RegExp('{{' + key + '}}', 'g'),
 * value)` over the subject and the body. The keys are plain words, so the
 * pattern matches the literal text `{{key}}`; `ReplaceAll` is that global
 * replace: leftmost matches, never overlapping.
 *
 * A template is also described by its structure: literal text and `{{key}}`
 * holes. Substituting into the flattened text fills the holes and nothing
 * else, as long as no literal text or value contains `{{` or ends in `{`
 * (the stored templates hold CSS, so single braces do occur).
 */
module Render {

  import opened Text

  function Placeholder(key: string): string {
    "{{" + key + "}}"
  }

  /** A placeholder key: no braces. */
  predicate ValidKey(key: string) {
    forall i :: 0 <= i < |key| ==> key[i] != '{' && key[i] != '}'
  }

  /** Text in which no placeholder can start: no `{{`, and no `{` at the end. */
  predicate SafeText(s: string) {
    && (forall i :: 0 <= i < |s| - 1 ==> !(s[i] == '{' && s[i + 1] == '{'))
    && (|s| > 0 ==> s[|s| - 1] != '{')
  }

  /** `s.replace(new RegExp(pattern, 'g'), v)` for a pattern without special characters. */
  function ReplaceAll(s: string, pattern: string, v: string): (r: string)
    requires |pattern| > 0
    ensures IsPrefix(pattern, s) ==> IsPrefix(v, r)
    ensures v == pattern ==> r == s
    ensures |v| == |pattern| ==> |r| == |s|
    decreases |s|
  {
    if |s| < |pattern| then s
    else if s[..|pattern|] == pattern then v + ReplaceAll(s[|pattern|..], pattern, v)
    else [s[0]] + ReplaceAll(s[1..], pattern, v)
  }

  /** No occurrence of `pattern` starts in the first `n` positions of `s`. */
  predicate NoMatchBefore(s: string, pattern: string, n: nat) {
    forall i :: 0 <= i < n && i <= |s| ==> !IsPrefix(pattern, s[i..])
  }

  /** A stretch at the front that holds no match start is copied unchanged. */
  lemma {:induction false} Skip(a: string, b: string, pattern: string, v: string)
    requires |pattern| > 0
    requires NoMatchBefore(a + b, pattern, |a|)
    ensures ReplaceAll(a + b, pattern, v) == a + ReplaceAll(b, pattern, v)
    decreases |a|
  {
    if |a| == 0 {
      assert a + b == b;
    } else {
      var s := a + b;
      assert s[0..] == s;
      assert !IsPrefix(pattern, s);
      if |s| < |pattern| {
        assert |b| < |pattern|;
      } else {
        assert s[1..] == a[1..] + b;
        forall i | 0 <= i < |a| - 1 && i <= |s[1..]|
          ensures !IsPrefix(pattern, s[1..][i..])
        {
          assert s[1..][i..] == s[i + 1..];
        }
        Skip(a[1..], b, pattern, v);
      }
    }
  }

  /** Text without placeholders is returned unchanged. */
  lemma NoMatchUnchanged(s: string, pattern: string, v: string)
    requires |pattern| > 0 && NoMatchBefore(s, pattern, |s|)
    ensures ReplaceAll(s, pattern, v) == s
  {
    assert s + "" == s;
    Skip(s, "", pattern, v);
  }

  lemma SafeTextNoMatch(lit: string, b: string, key: string)
    requires SafeText(lit)
    ensures NoMatchBefore(lit + b, Placeholder(key), |lit|)
  {
    var s := lit + b;
    var p := Placeholder(key);
    forall i | 0 <= i < |lit| && i <= |s| ensures !IsPrefix(p, s[i..]) {
      assert s[i..][0] == lit[i];
      if i + 1 < |lit| {
        assert s[i..][1] == lit[i + 1];
        assert !(lit[i] == '{' && lit[i + 1] == '{');
        assert |s[i..]| < |p| || (s[i..][..|p|][0] == lit[i] && s[i..][..|p|][1] == lit[i + 1]);
      } else {
        assert lit[i] != '{';
        assert |s[i..]| < |p| || s[i..][..|p|][0] == lit[i];
      }
    }
  }

  lemma OtherHoleNoMatch(other: string, b: string, key: string)
    requires ValidKey(other) && ValidKey(key) && other != key
    ensures NoMatchBefore(Placeholder(other) + b, Placeholder(key), |Placeholder(other)|)
  {
    var h := Placeholder(other);
    var p := Placeholder(key);
    var s := h + b;
    forall i | 0 <= i < |h| && i <= |s| ensures !IsPrefix(p, s[i..]) {
      if i == 0 {
        assert s[..|h|] == h;
        if |key| < |other| {
          assert p[2 + |key|] == '}' && s[2 + |key|] == other[|key|] != '}';
          assert |s| < |p| || s[..|p|][2 + |key|] != p[2 + |key|];
        } else if |key| > |other| {
          assert s[2 + |other|] == '}' && p[2 + |other|] == key[|other|] != '}';
          assert |s| < |p| || s[..|p|][2 + |other|] != p[2 + |other|];
        } else {
          assert h[2..2 + |other|] == other && p[2..2 + |key|] == key;
          assert |s| < |p| || s[..|p|] == h;
        }
      } else if i == 1 {
        assert s[2] == h[2] != '{' by {
          if |other| > 0 { assert h[2] == other[0]; } else { assert h[2] == '}'; }
        }
        assert |s[i..]| < |p| || s[i..][..|p|][1] == s[2];
      } else {
        assert s[i] == h[i] != '{' by {
          if i - 2 < |other| { assert h[i] == other[i - 2]; } else { assert h[i] == '}'; }
        }
        assert |s[i..]| < |p| || s[i..][..|p|][0] == s[i];
      }
    }
  }

  datatype Segment = Lit(text: string) | Hole(key: string)

  function SegmentText(g: Segment): string {
    match g
    case Lit(t) => t
    case Hole(k) => Placeholder(k)
  }

  function Flatten(t: seq<Segment>): string {
    if |t| == 0 then "" else SegmentText(t[0]) + Flatten(t[1..])
  }

  /** Every literal is safe text and every hole has a valid key. */
  predicate WellFormed(t: seq<Segment>) {
    forall i :: 0 <= i < |t| ==> if t[i].Lit? then SafeText(t[i].text) else ValidKey(t[i].key)
  }

  /** The template with each `key` hole replaced by the literal `value`. */
  function Fill(t: seq<Segment>, key: string, value: string): (r: seq<Segment>)
    ensures |r| == |t|
    ensures forall i :: 0 <= i < |t| ==> r[i] == if t[i] == Hole(key) then Lit(value) else t[i]
  {
    if |t| == 0 then [] else [if t[0] == Hole(key) then Lit(value) else t[0]] + Fill(t[1..], key, value)
  }

  /** Replacing one placeholder in the text fills exactly that key's holes. */
  lemma {:induction false} ReplaceFills(t: seq<Segment>, key: string, value: string)
    requires WellFormed(t) && ValidKey(key)
    ensures ReplaceAll(Flatten(t), Placeholder(key), value) == Flatten(Fill(t, key, value))
  {
    var p := Placeholder(key);
    if |t| > 0 {
      var rest := Flatten(t[1..]);
      assert WellFormed(t[1..]) by {
        forall i | 0 <= i < |t[1..]| ensures t[1..][i] == t[i + 1] { }
      }
      ReplaceFills(t[1..], key, value);
      assert Fill(t, key, value)[1..] == Fill(t[1..], key, value);
      match t[0]
      case Lit(text) =>
        SafeTextNoMatch(text, rest, key);
        Skip(text, rest, p, value);
      case Hole(k) =>
        if k == key {
          var s := p + rest;
          assert s[..|p|] == p && s[|p|..] == rest;
        } else {
          OtherHoleNoMatch(k, rest, key);
          Skip(Placeholder(k), rest, p, value);
        }
    }
  }

  /** A pair of the e-mail data: placeholder key and the value put in its place. */
  datatype Var = Var(key: string, value: string)

  /** Replace every variable's placeholder, one variable after another. */
  function Substitute(s: string, vars: seq<Var>): (r: string)
    requires forall i :: 0 <= i < |vars| ==> ValidKey(vars[i].key)
    ensures (forall i :: 0 <= i < |vars| ==> vars[i].value == Placeholder(vars[i].key)) ==> r == s
    ensures (forall i :: 0 <= i < |vars| ==> |vars[i].value| == |Placeholder(vars[i].key)|) ==> |r| == |s|
    decreases |vars|
  {
    if |vars| == 0 then s
    else Substitute(ReplaceAll(s, Placeholder(vars[0].key), vars[0].value), vars[1..])
  }

  /** Fill every variable's holes, one variable after another. */
  function Expand(t: seq<Segment>, vars: seq<Var>): seq<Segment>
    decreases |vars|
  {
    if |vars| == 0 then t else Expand(Fill(t, vars[0].key, vars[0].value), vars[1..])
  }

  /** The variables have valid keys and values that cannot start a placeholder. */
  predicate SafeVars(vars: seq<Var>) {
    forall i :: 0 <= i < |vars| ==> ValidKey(vars[i].key) && SafeText(vars[i].value)
  }

  /**
   * Substituting into a well-formed template's text is the same as filling
   * the template's holes and flattening it.
   */
  lemma {:induction false} SubstituteFills(t: seq<Segment>, vars: seq<Var>)
    requires WellFormed(t) && SafeVars(vars)
    ensures Substitute(Flatten(t), vars) == Flatten(Expand(t, vars))
    decreases |vars|
  {
    if |vars| > 0 {
      ReplaceFills(t, vars[0].key, vars[0].value);
      var t' := Fill(t, vars[0].key, vars[0].value);
      assert WellFormed(t');
      assert SafeVars(vars[1..]) by {
        forall i | 0 <= i < |vars[1..]| ensures vars[1..][i] == vars[i + 1] { }
      }
      SubstituteFills(t', vars[1..]);
    }
  }

  /** After expansion no hole of any substituted key is left, and every other segment is kept. */
  lemma {:induction false} ExpandLeavesNoHole(t: seq<Segment>, vars: seq<Var>)
    ensures var r := Expand(t, vars);
      && |r| == |t|
      && (forall i, j :: 0 <= i < |r| && 0 <= j < |vars| ==> r[i] != Hole(vars[j].key))
      && (forall i :: 0 <= i < |t| && t[i].Lit? ==> r[i] == t[i])
      && (forall i :: 0 <= i < |t| ==> r[i] == t[i] || r[i].Lit?)
      && (forall i :: 0 <= i < |t| && t[i].Hole? && (forall j :: 0 <= j < |vars| ==> vars[j].key != t[i].key) ==> r[i] == t[i])
    decreases |vars|
  {
    if |vars| > 0 {
      var t' := Fill(t, vars[0].key, vars[0].value);
      ExpandLeavesNoHole(t', vars[1..]);
      var r := Expand(t, vars);
      forall i, j | 0 <= i < |r| && 0 <= j < |vars| ensures r[i] != Hole(vars[j].key) {
        if j > 0 {
          assert vars[1..][j - 1] == vars[j];
        } else {
          assert t'[i] != Hole(vars[0].key);
        }
      }
      forall i | 0 <= i < |t| && t[i].Hole? && (forall j :: 0 <= j < |vars| ==> vars[j].key != t[i].key)
        ensures r[i] == t[i]
      {
        assert t'[i] == t[i];
        forall j | 0 <= j < |vars[1..]| ensures vars[1..][j].key != t'[i].key {
          assert vars[1..][j] == vars[j + 1];
        }
      }
    }
  }

  /** A text in which none of the variables' placeholders occurs comes back unchanged. */
  lemma {:induction false} SubstituteNoPlaceholder(s: string, vars: seq<Var>)
    requires forall i :: 0 <= i < |vars| ==> ValidKey(vars[i].key)
    requires forall i :: 0 <= i < |vars| ==> NoMatchBefore(s, Placeholder(vars[i].key), |s|)
    ensures Substitute(s, vars) == s
    decreases |vars|
  {
    if |vars| > 0 {
      NoMatchUnchanged(s, Placeholder(vars[0].key), vars[0].value);
      assert forall i :: 0 <= i < |vars[1..]| ==> vars[1..][i] == vars[i + 1];
      SubstituteNoPlaceholder(s, vars[1..]);
    }
  }

  /** A rendered e-mail: subject and body each substituted with the same data. */
  datatype Rendered = Rendered(subject: string, body: string)

  function RenderMail(subject: string, body: string, vars: seq<Var>): (r: Rendered)
    requires SafeVars(vars)
    ensures forall ts, tb :: WellFormed(ts) && WellFormed(tb) && Flatten(ts) == subject && Flatten(tb) == body ==>
      r == Rendered(Flatten(Expand(ts, vars)), Flatten(Expand(tb, vars)))
  {
    forall ts, tb | WellFormed(ts) && WellFormed(tb) && Flatten(ts) == subject && Flatten(tb) == body
      ensures Substitute(subject, vars) == Flatten(Expand(ts, vars))
      ensures Substitute(body, vars) == Flatten(Expand(tb, vars))
    {
      SubstituteFills(ts, vars);
      SubstituteFills(tb, vars);
    }
    Rendered(Substitute(subject, vars), Substitute(body, vars))
  }
}

=== FILE: routing.dfy ===
/**
 * Which page a URL shows: the last path segment, without a query, matched
 * case-insensitively against the page names; the first page when nothing
 * matches.
 */
module Routing {

  import opened Model
  import opened Text

  /** The page names, in the order the page table declares them. */
  const Pages: seq<string> := [
    "Dashboard", "CreateListing", "Listing", "MyBids", "AdminListings", "Login", "ManageUsers",
    "Account", "EditListing", "PaymentSettings", "EmailTemplates", "NotificationSettings",
    "initializeEmailTemplates", "Welcome"]

  /** The URL without one trailing slash. */
  function DropTrailingSlash(url: string): (r: string)
    ensures |url| > 0 && url[|url| - 1] == '/' ==> r == url[..|url| - 1]
    ensures !(|url| > 0 && url[|url| - 1] == '/') ==> r == url
  {
    if |url| > 0 && url[|url| - 1] == '/' then url[..|url| - 1] else url
  }

  /** The candidate page name: the last `/`-segment, cut at the first `?`. */
  function Segment(url: string): (r: string)
    ensures !HasChar(r, '/') && !HasChar(r, '?')
  {
    var last := AfterLast(DropTrailingSlash(url), '/');
    if HasChar(last, '?') then BeforeFirst(last, '?') else last
  }

  /** The first page name equal to `part` ignoring case. */
  function FindPage(names: seq<string>, part: string): (r: Option<string>)
    ensures r.None? <==> forall i :: 0 <= i < |names| ==> Lower(names[i]) != Lower(part)
    ensures r.Some? ==> exists i :: (0 <= i < |names| && names[i] == r.value && Lower(names[i]) == Lower(part)
      && forall j :: 0 <= j < i ==> Lower(names[j]) != Lower(part))
  {
    if |names| == 0 then None
    else if Lower(names[0]) == Lower(part) then Some(names[0])
    else
      var r := FindPage(names[1..], part);
      if r.Some? then
        var i :| 0 <= i < |names[1..]| && names[1..][i] == r.value && Lower(names[1..][i]) == Lower(part)
          && forall j :: 0 <= j < i ==> Lower(names[1..][j]) != Lower(part);
        assert names[i + 1] == r.value;
        r
      else r
  }

  /**
   * `_getCurrentPage`: the page whose name matches the URL's last segment
   * ignoring case, in its own spelling; "Dashboard" when none does.
   */
  function CurrentPage(url: string): (r: string)
    ensures r in Pages
    ensures (forall i :: 0 <= i < |Pages| ==> Lower(Pages[i]) != Lower(Segment(url))) ==> r == "Dashboard"
    ensures Lower(r) == Lower(Segment(url)) || r == "Dashboard"
  {
    var found := FindPage(Pages, Segment(url));
    if found.Some? then found.value else Pages[0]
  }

  /** The length and lower-cased first letter of a page name. */
  function Signature(s: string): (int, char) {
    if |s| == 0 then (0, ' ') else (|s|, LowerChar(s[0]))
  }

  lemma SameLowerSameSignature(a: string, b: string)
    requires Lower(a) == Lower(b)
    ensures Signature(a) == Signature(b)
  {
    if |a| > 0 {
      assert Lower(a)[0] == LowerChar(a[0]) && Lower(b)[0] == LowerChar(b[0]);
    }
  }

  const Signatures: seq<(int, char)> := [
    (9, 'd'), (13, 'c'), (7, 'l'), (6, 'm'), (13, 'a'), (5, 'l'), (11, 'm'),
    (7, 'a'), (11, 'e'), (15, 'p'), (14, 'e'), (20, 'n'), (24, 'i'), (7, 'w')]

  lemma PageSignatures()
    ensures |Signatures| == |Pages|
    ensures forall i :: 0 <= i < |Pages| ==> Signature(Pages[i]) == Signatures[i]
  {
  }

  /** No two page names are equal ignoring case. */
  lemma PagesDistinct(i: int, j: int)
    requires 0 <= i < |Pages| && 0 <= j < |Pages| && i != j
    ensures Lower(Pages[i]) != Lower(Pages[j])
  {
    PageSignatures();
    assert Signatures[i] != Signatures[j];
    if Lower(Pages[i]) == Lower(Pages[j]) {
      SameLowerSameSignature(Pages[i], Pages[j]);
    }
  }

  lemma {:induction false} AfterLastOfSegment(a: string, s: string, sep: char)
    requires forall i :: 0 <= i < |s| ==> s[i] != sep
    ensures AfterLast(a + [sep] + s, sep) == s
    decreases |s|
  {
    var w := a + [sep] + s;
    if |s| == 0 {
      assert w[|w| - 1] == sep;
    } else {
      AfterLastOfSegment(a, s[..|s| - 1], sep);
      assert w[..|w| - 1] == a + [sep] + s[..|s| - 1];
      assert s == s[..|s| - 1] + [s[|s| - 1]];
    }
  }

  lemma {:induction false} BeforeFirstOfPrefix(s: string, sep: char, rest: string)
    requires forall i :: 0 <= i < |s| ==> s[i] != sep
    ensures BeforeFirst(s + [sep] + rest, sep) == s
    decreases |s|
  {
    if |s| > 0 {
      BeforeFirstOfPrefix(s[1..], sep, rest);
      assert (s + [sep] + rest)[1..] == s[1..] + [sep] + rest;
    }
  }

  /** A segment naming a page in any letter case resolves to that page. */
  lemma MatchingSegmentResolves(url: string, k: int)
    requires 0 <= k < |Pages| && Lower(Segment(url)) == Lower(Pages[k])
    ensures CurrentPage(url) == Pages[k]
  {
    var found := FindPage(Pages, Segment(url));
    assert found.Some? by {
      assert Lower(Pages[k]) == Lower(Segment(url));
    }
    var i :| 0 <= i < |Pages| && Pages[i] == found.value && Lower(Pages[i]) == Lower(Segment(url))
      && forall j :: 0 <= j < i ==> Lower(Pages[j]) != Lower(Segment(url));
    if i != k {
      PagesDistinct(i, k);
    }
  }

  predicate NoSlashOrQuery(s: string) {
    forall i :: 0 <= i < |s| ==> s[i] != '/' && s[i] != '?'
  }

  /** Page names are plain words. */
  lemma PageNamesPlain(k: int)
    requires 0 <= k < |Pages|
    ensures NoSlashOrQuery(Pages[k])
  {
    var name := Pages[k];
    forall i | 0 <= i < |name| ensures name[i] != '/' && name[i] != '?' {
      assert 'A' <= name[i] <= 'Z' || 'a' <= name[i] <= 'z';
    }
  }

  /** The segment of `prefix/name`, with or without one trailing slash, is `name`. */
  lemma SegmentOfPath(prefix: string, name: string)
    requires NoSlashOrQuery(name) && |name| > 0
    ensures Segment(prefix + "/" + name) == name
    ensures Segment(prefix + "/" + name + "/") == name
  {
    var u := prefix + "/" + name;
    assert u == prefix + ['/'] + name;
    assert u[|u| - 1] == name[|name| - 1];
    AfterLastOfSegment(prefix, name, '/');
    assert !HasChar(name, '?');
    assert DropTrailingSlash(prefix + "/" + name + "/") == prefix + "/" + name;
  }

  /** The segment of `prefix/name?query` is `name` when the query holds no slash. */
  lemma SegmentOfQueryPath(prefix: string, name: string, query: string)
    requires NoSlashOrQuery(name)
    requires forall i :: 0 <= i < |query| ==> query[i] != '/'
    ensures Segment(prefix + "/" + name + "?" + query) == name
  {
    var tail := name + "?" + query;
    assert forall i :: 0 <= i < |tail| ==> tail[i] != '/' by {
      forall i | 0 <= i < |tail| ensures tail[i] != '/' {
        if i < |name| { assert tail[i] == name[i]; }
        else if i > |name| { assert tail[i] == query[i - |name| - 1]; }
      }
    }
    var u := prefix + "/" + name + "?" + query;
    assert u == prefix + ['/'] + tail;
    assert |u| > 0 && u[|u| - 1] == '/' ==> |query| == 0;
    assert DropTrailingSlash(u) == u;
    AfterLastOfSegment(prefix, tail, '/');
    assert tail == name + ['?'] + query;
    BeforeFirstOfPrefix(name, '?', query);
    assert HasChar(tail, '?') by { assert tail[|name|] == '?'; }
  }

  /**
   * Every page name is reached from its own path, after any prefix, with or
   * without a trailing slash, and with a query string.
   */
  lemma PagePathsResolve(prefix: string, k: int, query: string)
    requires 0 <= k < |Pages|
    requires forall i :: 0 <= i < |query| ==> query[i] != '/'
    ensures CurrentPage(prefix + "/" + Pages[k]) == Pages[k]
    ensures CurrentPage(prefix + "/" + Pages[k] + "/") == Pages[k]
    ensures CurrentPage(prefix + "/" + Pages[k] + "?" + query) == Pages[k]
  {
    PageNamesPlain(k);
    assert |Pages[k]| > 0;
    SegmentOfPath(prefix, Pages[k]);
    SegmentOfQueryPath(prefix, Pages[k], query);
    MatchingSegmentResolves(prefix + "/" + Pages[k], k);
    MatchingSegmentResolves(prefix + "/" + Pages[k] + "/", k);
    MatchingSegmentResolves(prefix + "/" + Pages[k] + "?" + query, k);
  }
}

=== FILE: seqs.dfy ===
/**
 * `Array.prototype.filter` and the order-preserving subsequence relation it
 * produces, shared by every list view of the marketplace.
 */
module Seqs {

  /** `a` can be obtained from `b` by deleting elements, keeping the order. */
  predicate IsSubseq<T(==)>(a: seq<T>, b: seq<T>)
    decreases |b|
  {
    if |a| == 0 then true
    else if |b| == 0 then false
    else if a[0] == b[0] then IsSubseq(a[1..], b[1..])
    else IsSubseq(a, b[1..])
  }

  /** The elements of `s` that satisfy `p`, in their original order. */
  function Filter<T>(s: seq<T>, p: T -> bool): (r: seq<T>)
    ensures |r| <= |s|
    ensures forall i :: 0 <= i < |r| ==> r[i] in s && p(r[i])
    ensures forall i :: 0 <= i < |s| && p(s[i]) ==> s[i] in r
  {
    if |s| == 0 then []
    else if p(s[0]) then [s[0]] + Filter(s[1..], p)
    else Filter(s[1..], p)
  }

  lemma {:induction false} FilterIsSubseq<T>(s: seq<T>, p: T -> bool)
    ensures IsSubseq(Filter(s, p), s)
  {
    if |s| > 0 {
      FilterIsSubseq(s[1..], p);
      var r := Filter(s, p);
      if p(s[0]) {
        assert r[0] == s[0] && r[1..] == Filter(s[1..], p);
      } else {
        SubseqDropHead(r, s);
      }
    }
  }

  /** Dropping a head element that is not matched keeps the relation. */
  lemma SubseqDropHead<T>(a: seq<T>, b: seq<T>)
    requires |b| > 0 && IsSubseq(a, b[1..])
    ensures IsSubseq(a, b)
    decreases |a| + |b|, 1
  {
    if |a| > 0 && a[0] == b[0] {
      SubseqTail(a, b[1..]);
    }
  }

  /** A subsequence stays one when its first element is removed. */
  lemma {:induction false} SubseqTail<T>(a: seq<T>, b: seq<T>)
    requires |a| > 0 && IsSubseq(a, b)
    ensures IsSubseq(a[1..], b)
    decreases |a| + |b|, 0
  {
    if |b| > 0 {
      if a[0] == b[0] {
        SubseqDropHead(a[1..], b);
      } else {
        SubseqTail(a, b[1..]);
        SubseqDropHead(a[1..], b);
      }
    }
  }

  /** Filtering with a predicate that holds everywhere changes nothing. */
  lemma {:induction false} FilterAll<T>(s: seq<T>, p: T -> bool)
    requires forall i :: 0 <= i < |s| ==> p(s[i])
    ensures Filter(s, p) == s
  {
    if |s| > 0 {
      FilterAll(s[1..], p);
    }
  }

  /** Filtering with a predicate that holds nowhere leaves nothing. */
  lemma {:induction false} FilterNone<T>(s: seq<T>, p: T -> bool)
    requires forall i :: 0 <= i < |s| ==> !p(s[i])
    ensures Filter(s, p) == []
  {
    if |s| > 0 {
      FilterNone(s[1..], p);
    }
  }

  /** Number of elements of `s` satisfying `p`. */
  function Count<T>(s: seq<T>, p: T -> bool): (n: nat)
    ensures n == |Filter(s, p)|
  {
    if |s| == 0 then 0
    else (if p(s[0]) then 1 else 0) + Count(s[1..], p)
  }
}

=== FILE: templates.dfy ===
/**
 * E-mail templates: the built-in defaults, seeding the store with the
 * defaults that are missing (the template editor's loop, which gives up at
 * the first failure, and the listing page's loop, which carries on), and
 * the template editor itself, which loads one template per type, edits one
 * field at a time and saves by update or create.
 *
 * The editor's HTML winner body writes `${{final_price}}` inside a backtick
 * literal. JavaScript reads that as a substitution of the object literal
 * `{final_price}`, and with no such binding building the body throws a
 * ReferenceError. `Quoting` selects that body as written or with the `$`
 * escaped, which is the evident intent.
 *
 * The store is the list of template records in creation order.
 */
module Templates {

  import opened Model
  import Render
  import Notify
  import Auction
  import Seqs

  const WonType: string := "auction_won"
  const AdminType: string := "admin_notification"

  /** The editor's template types (`TEMPLATE_TYPES`), in tab order. */
  const TemplateTypes: seq<string> := [WonType, AdminType]

  const NoReply: string := "no-reply@trubid.auction"

  /** The winner template's HTML body as written (it throws when built), or with the `$` escaped. */
  datatype Quoting = AsWritten | Escaped

  /*
   * The editor's built-in templates. The HTML bodies are kept as their
   * sequence of literal text and placeholders; the document head, the style
   * sheet, the span markup and the lines without placeholders are left out
   * of the literal text.
   */

  const SiteWonSubject: seq<Render.Segment> :=
    [Render.Lit("Congratulations! You've won the auction for "), Render.Hole("item_title")]

  /** The winner body with the `$` escaped: a dollar sign, then the price placeholder. */
  const SiteWonBody: seq<Render.Segment> := [
    Render.Lit("<h1>Congratulations, "), Render.Hole("winner_name"),
    Render.Lit("!</h1><p>You've successfully won the auction for "), Render.Hole("item_title"),
    Render.Lit(" with a final bid of $"), Render.Hole("final_price"),
    Render.Lit(".</p>"), Render.Hole("transaction_details"),
    Render.Lit("<h2>Payment Instructions</h2>"), Render.Hole("payment_instructions"),
    Render.Lit("<p>Thank you for using TruBid!</p>")]

  const SiteAdminSubject: seq<Render.Segment> :=
    [Render.Lit("Auction Completed: "), Render.Hole("item_title")]

  const SiteAdminBody: seq<Render.Segment> := [
    Render.Lit("<h1>Auction Complete</h1><p>An auction has been completed on TruBid.</p>"), Render.Hole("auction_details"),
    Render.Lit("")]

  /** The plain-text templates the listing page seeds. */

  const PlainWonSubject: seq<Render.Segment> := [Render.Lit("Congratulations! You've won the auction")]

  const PlainWonBody: seq<Render.Segment> := [
    Render.Lit("Congratulations "), Render.Hole("winner_name"),
    Render.Lit("!\n\nYou've won the auction for "), Render.Hole("item_title"),
    Render.Lit(" at $"), Render.Hole("final_price"),
    Render.Lit(".\n\nPayment Instructions:\n"), Render.Hole("payment_instructions"),
    Render.Lit("\n\nTransaction Details:\n"), Render.Hole("transaction_details")]

  const PlainAdminSubject: seq<Render.Segment> := [Render.Lit("Auction won notification")]

  const PlainAdminBody: seq<Render.Segment> := [
    Render.Lit("Item: "), Render.Hole("item_title"),
    Render.Lit("\nFinal Price: $"), Render.Hole("final_price"),
    Render.Lit("\nWinner Email: "), Render.Hole("winner_email"),
    Render.Lit("\n\nAuction Details:\n"), Render.Hole("auction_details")]

  /** A default record: no id (the store assigns one) and no active flag. */
  function Default(templateType: string, subject: seq<Render.Segment>, body: seq<Render.Segment>): EmailTemplate {
    EmailTemplate(None, templateType, NoReply, Render.Flatten(subject), Render.Flatten(body), None)
  }

  /** The editor's defaults, the winner body with the `$` escaped. */
  const SiteDefaults: seq<EmailTemplate> :=
    [Default(WonType, SiteWonSubject, SiteWonBody), Default(AdminType, SiteAdminSubject, SiteAdminBody)]

  /** The listing page's defaults. */
  const PlainDefaults: seq<EmailTemplate> :=
    [Default(WonType, PlainWonSubject, PlainWonBody), Default(AdminType, PlainAdminSubject, PlainAdminBody)]

  /** A default list holding the winner template, then the admin template. */
  predicate TypedInOrder(ds: seq<EmailTemplate>) {
    |ds| == 2 && ds[0].templateType == WonType && ds[1].templateType == AdminType
  }

  lemma DefaultsInOrder()
    ensures TypedInOrder(SiteDefaults) && TypedInOrder(PlainDefaults)
  {
  }

  /** A store holds every type of such a list exactly when it holds both editor types. */
  lemma InOrderStored(ds: seq<EmailTemplate>, s: seq<EmailTemplate>)
    requires TypedInOrder(ds)
    ensures (forall i :: 0 <= i < |ds| ==> Has(s, ds[i].templateType)) <==> Has(s, WonType) && Has(s, AdminType)
  {
    if Has(s, WonType) && Has(s, AdminType) {
      forall i | 0 <= i < |ds| ensures Has(s, ds[i].templateType) {
        assert ds[i].templateType == if i == 0 then WonType else AdminType;
      }
    }
  }

  /** What `getDefaultTemplate` gives: a template, `null` for an unknown type, or a thrown ReferenceError. */
  datatype Built = Made(template: EmailTemplate) | Unknown | Threw

  /**
   * `getDefaultTemplate`: a template of the requested type for the two known
   * types and `null` otherwise; as written, asking for the winner template
   * throws.
   */
  function DefaultTemplate(q: Quoting, templateType: string): (r: Built)
    ensures r.Unknown? <==> templateType !in TemplateTypes
    ensures r.Threw? <==> q == AsWritten && templateType == WonType
    ensures r.Made? ==> r.template in SiteDefaults && r.template.templateType == templateType
    ensures r.Made? ==> r.template.id.None? && r.template.fromEmail == NoReply
  {
    if templateType == WonType then (if q == AsWritten then Threw else Made(SiteDefaults[0]))
    else if templateType == AdminType then Made(SiteDefaults[1])
    else Unknown
  }

  /** The editor types whose default cannot be built. */
  function Unbuildable(q: Quoting): (r: set<string>)
    ensures forall k :: k in r <==> k in TemplateTypes && DefaultTemplate(q, k).Threw?
  {
    if q == AsWritten then {WonType} else {}
  }

  /** The types the editor's loop stops at when missing: those whose create fails, and those whose default throws. */
  function Failing(q: Quoting, fails: set<string>): (r: set<string>)
    ensures forall k :: k in r <==> k in fails || k in Unbuildable(q)
  {
    if q == AsWritten then fails + {WonType} else fails
  }

  /** Every placeholder of `t` is one of `keys`. */
  predicate HolesIn(t: seq<Render.Segment>, keys: seq<string>) {
    forall i :: 0 <= i < |t| && t[i].Hole? ==> t[i].key in keys
  }

  /**
   * A template whose placeholders are all among the keys expands, with any
   * values bound to those keys, to literal text only.
   */
  lemma FullyRendered(t: seq<Render.Segment>, keys: seq<string>, values: seq<string>)
    requires HolesIn(t, keys) && |keys| == |values|
    ensures var e := Render.Expand(t, Notify.Bind(keys, values)); forall i :: 0 <= i < |e| ==> e[i].Lit?
  {
    var vars := Notify.Bind(keys, values);
    Render.ExpandLeavesNoHole(t, vars);
    var r := Render.Expand(t, vars);
    forall i | 0 <= i < |r| ensures r[i].Lit? {
      if t[i].Hole? {
        var j :| 0 <= j < |keys| && keys[j] == t[i].key;
        assert r[i] != Render.Hole(vars[j].key);
      }
    }
  }

  /** The placeholders of the built-in templates, HTML and plain, are among the keys the closing code binds. */
  lemma DefaultHoles()
    ensures HolesIn(SiteWonSubject, Notify.WinnerKeys) && HolesIn(SiteWonBody, Notify.WinnerKeys)
    ensures HolesIn(PlainWonSubject, Notify.WinnerKeys) && HolesIn(PlainWonBody, Notify.WinnerKeys)
    ensures HolesIn(SiteAdminSubject, Notify.AdminKeys) && HolesIn(SiteAdminBody, Notify.AdminKeys)
    ensures HolesIn(PlainAdminSubject, Notify.AdminKeys) && HolesIn(PlainAdminBody, Notify.AdminKeys)
  {
    var w := Notify.WinnerKeys;
    assert w[0] == "winner_name" && w[1] == "item_title" && w[2] == "final_price";
    assert w[3] == "payment_instructions" && w[4] == "transaction_details";
    var v := Notify.AdminKeys;
    assert v[0] == "item_title" && v[1] == "final_price" && v[2] == "winner_email" && v[3] == "auction_details";
  }

  /**
   * No `{{...}}` survives in an e-mail rendered from a built-in template:
   * every placeholder of the winner templates is filled by the winner data,
   * and every placeholder of the admin templates by the admin data.
   */
  lemma DefaultsFullyRendered(t: seq<Render.Segment>, winner: bool, values: seq<string>)
    requires winner ==> t in [SiteWonSubject, SiteWonBody, PlainWonSubject, PlainWonBody]
    requires !winner ==> t in [SiteAdminSubject, SiteAdminBody, PlainAdminSubject, PlainAdminBody]
    requires |values| == |if winner then Notify.WinnerKeys else Notify.AdminKeys|
    ensures var e := Render.Expand(t, Notify.Bind(if winner then Notify.WinnerKeys else Notify.AdminKeys, values));
      forall i :: 0 <= i < |e| ==> e[i].Lit?
  {
    DefaultHoles();
    FullyRendered(t, if winner then Notify.WinnerKeys else Notify.AdminKeys, values);
  }

  // ---------------------------------------------------------------- seeding

  /** The store has a record of the type (`templates.some(t => t.template_type === type)`). */
  predicate Has(store: seq<EmailTemplate>, templateType: string) {
    exists i :: 0 <= i < |store| && store[i].templateType == templateType
  }

  /** An id longer than every id in the store, so none of them. */
  function FreshId(store: seq<EmailTemplate>): (r: Id)
    ensures forall i :: 0 <= i < |store| ==> store[i].id != Some(r)
  {
    seq(LongestId(store) + 1, _ => '0')
  }

  function LongestId(store: seq<EmailTemplate>): (n: nat)
    ensures forall i :: 0 <= i < |store| && store[i].id.Some? ==> |store[i].id.value| <= n
  {
    if |store| == 0 then 0
    else
      var rest := LongestId(store[1..]);
      assert forall i :: 1 <= i < |store| ==> store[i] == store[1..][i - 1];
      var here := if store[0].id.Some? then |store[0].id.value| else 0;
      if here > rest then here else rest
  }

  /** `EmailTemplate.create`: the record is appended under a new id. */
  function Create(store: seq<EmailTemplate>, t: EmailTemplate): (r: seq<EmailTemplate>)
    ensures |r| == |store| + 1 && r[..|store|] == store
    ensures r[|store|] == t.(id := r[|store|].id) && r[|store|].id.Some?
    ensures forall i :: 0 <= i < |store| ==> store[i].id != r[|store|].id
  {
    store + [t.(id := Some(FreshId(store)))]
  }

  /** Creating the records one after another, in order. */
  function CreateAll(store: seq<EmailTemplate>, ts: seq<EmailTemplate>): (r: seq<EmailTemplate>)
    ensures |r| == |store| + |ts| && r[..|store|] == store
    ensures forall k :: 0 <= k < |ts| ==> r[|store| + k] == ts[k].(id := r[|store| + k].id)
    decreases |ts|
  {
    if |ts| == 0 then store
    else
      var next := Create(store, ts[0]);
      var r := CreateAll(next, ts[1..]);
      assert r[..|store|] == r[..|next|][..|store|];
      assert r[|store|] == r[..|next|][|store|];
      assert forall k :: 1 <= k < |ts| ==> ts[k] == ts[1..][k - 1] && r[|store| + k] == r[|next| + (k - 1)];
      r
  }

  /** A default the seeders create: its type is absent from the store as first listed, and its create succeeds. */
  predicate Wanted(initial: seq<EmailTemplate>, d: EmailTemplate, fails: set<string>) {
    !Has(initial, d.templateType) && d.templateType !in fails
  }

  /**
   * The listing page's seeder (and the loop of the stand-alone seeder): each
   * default whose type the store lacked when first listed is created, in
   * order; a failed create (its type in `fails`) is logged and skipped.
   */
  function Seed(store: seq<EmailTemplate>, ds: seq<EmailTemplate>, fails: set<string>): (r: seq<EmailTemplate>)
    ensures |store| <= |r| <= |store| + |ds| && r[..|store|] == store
  {
    CreateAll(store, Seqs.Filter(ds, (d: EmailTemplate) => Wanted(store, d, fails)))
  }

  /** Every record seeding adds is a copy, under a new id, of a default that was missing and whose create succeeded. */
  lemma SeedAddsOnlyMissing(store: seq<EmailTemplate>, ds: seq<EmailTemplate>, fails: set<string>)
    ensures var r := Seed(store, ds, fails);
      forall k :: |store| <= k < |r| ==> exists d :: d in ds && Wanted(store, d, fails) && r[k] == d.(id := r[k].id)
  {
    var made := Seqs.Filter(ds, (d: EmailTemplate) => Wanted(store, d, fails));
    var r := CreateAll(store, made);
    forall k | |store| <= k < |r|
      ensures exists d :: d in ds && Wanted(store, d, fails) && r[k] == d.(id := r[k].id)
    {
      assert r[|store| + (k - |store|)] == made[k - |store|].(id := r[k].id);
    }
  }

  /**
   * After seeding, every default whose create succeeded has its type
   * stored, whatever happened to the other creates.
   */
  lemma SeedStoresAll(store: seq<EmailTemplate>, ds: seq<EmailTemplate>, fails: set<string>)
    ensures forall i :: 0 <= i < |ds| && ds[i].templateType !in fails ==> Has(Seed(store, ds, fails), ds[i].templateType)
  {
    var made := Seqs.Filter(ds, (d: EmailTemplate) => Wanted(store, d, fails));
    var r := CreateAll(store, made);
    forall i | 0 <= i < |ds| && ds[i].templateType !in fails ensures Has(r, ds[i].templateType) {
      if Has(store, ds[i].templateType) {
        var j :| 0 <= j < |store| && store[j].templateType == ds[i].templateType;
        assert r[j] == r[..|store|][j];
      } else {
        var k :| 0 <= k < |made| && made[k] == ds[i];
        assert r[|store| + k].templateType == ds[i].templateType;
      }
    }
  }

  /**
   * Seeding is idempotent: after a run in which no create failed, a second
   * run (with any failures) creates nothing. After a run with failures, a
   * clean second run leaves every default type stored.
   */
  lemma SeedIdempotent(store: seq<EmailTemplate>, ds: seq<EmailTemplate>, fails: set<string>)
    ensures Seed(Seed(store, ds, {}), ds, fails) == Seed(store, ds, {})
    ensures forall i :: 0 <= i < |ds| ==> Has(Seed(Seed(store, ds, fails), ds, {}), ds[i].templateType)
  {
    SeedStoresAll(store, ds, {});
    SeedComplete(Seed(store, ds, {}), ds, fails);
    SeedStoresAll(Seed(store, ds, fails), ds, {});
  }

  /** With every default's type already stored, seeding creates nothing. */
  lemma SeedComplete(store: seq<EmailTemplate>, ds: seq<EmailTemplate>, fails: set<string>)
    requires forall i :: 0 <= i < |ds| ==> Has(store, ds[i].templateType)
    ensures Seed(store, ds, fails) == store
  {
    var p := (d: EmailTemplate) => Wanted(store, d, fails);
    var made := Seqs.Filter(ds, p);
    Seqs.FilterNone(ds, p);
  }

  /**
   * `initializeTemplates`, the editor's seeder: the same loop, except that
   * the first failure ends it; the flag says whether the loop ran to the end
   * (only then is the editor loaded). A default that cannot be built ends
   * the loop just as a failed create does, so `Open` adds those types to
   * `fails`.
   */
  function SeedUntilFailure(initial: seq<EmailTemplate>, store: seq<EmailTemplate>, ds: seq<EmailTemplate>,
                            fails: set<string>): (r: (seq<EmailTemplate>, bool))
    ensures r.1 <==> forall i :: 0 <= i < |ds| && !Has(initial, ds[i].templateType) ==> ds[i].templateType !in fails
    ensures r.1 ==> r.0 == CreateAll(store, Seqs.Filter(ds, (d: EmailTemplate) => Wanted(initial, d, fails)))
    decreases |ds|
  {
    if |ds| == 0 then (store, true)
    else if !Has(initial, ds[0].templateType) && ds[0].templateType in fails then (store, false)
    else
      var p := (d: EmailTemplate) => Wanted(initial, d, fails);
      var next := if p(ds[0]) then Create(store, ds[0]) else store;
      assert forall i :: 1 <= i < |ds| ==> ds[i] == ds[1..][i - 1];
      var r := SeedUntilFailure(initial, next, ds[1..], fails);
      assert ([ds[0]] + Seqs.Filter(ds[1..], p))[1..] == Seqs.Filter(ds[1..], p);
      r
  }

  /**
   * `initializeDefaultTemplates`, the stand-alone seeder. As written it
   * builds both HTML defaults before its loop and the winner body throws, so
   * it creates nothing; with the `$` escaped it is the carry-on loop over
   * the editor's defaults.
   */
  function InitializeDefaults(q: Quoting, store: seq<EmailTemplate>, fails: set<string>): (r: seq<EmailTemplate>)
    ensures q == AsWritten ==> r == store
    ensures q == Escaped ==> |store| <= |r| <= |store| + |SiteDefaults| && r[..|store|] == store
    ensures q == Escaped ==>
      forall i :: 0 <= i < |SiteDefaults| && SiteDefaults[i].templateType !in fails ==> Has(r, SiteDefaults[i].templateType)
  {
    SeedStoresAll(store, SiteDefaults, fails);
    if q == AsWritten then store else Seed(store, SiteDefaults, fails)
  }

  /**
   * With two defaults of different types both missing, a failed create of
   * the first (the winner template, in both default lists) stops the
   * editor's seeder before the second, while the carry-on seeder still
   * creates the second.
   */
  lemma EditorSeedStopsAtFailure(store: seq<EmailTemplate>, ds: seq<EmailTemplate>)
    requires |ds| == 2 && ds[0].templateType != ds[1].templateType
    requires !Has(store, ds[0].templateType) && !Has(store, ds[1].templateType)
    ensures SeedUntilFailure(store, store, ds, {ds[0].templateType}) == (store, false)
    ensures var r := Seed(store, ds, {ds[0].templateType});
      && |r| == |store| + 1 && !Has(r, ds[0].templateType) && Has(r, ds[1].templateType)
  {
    var fails := {ds[0].templateType};
    var r := Seed(store, ds, fails);
    var p := (d: EmailTemplate) => Wanted(store, d, fails);
    assert ds[1..] == [ds[1]] && ds[1..][1..] == [];
    assert Seqs.Filter(ds, p) == [ds[1]];
    assert r == Create(store, ds[1]);
    forall k | 0 <= k < |r| ensures r[k].templateType != ds[0].templateType {
      if k < |store| {
        assert r[k] == r[..|store|][k] == store[k];
      }
    }
  }

  // ------------------------------------------------------------------ editor

  /** The template editor's state. `loading` stays set when the seeder gave up. */
  datatype Editor = Editor(templates: map<string, EmailTemplate>, activeType: string, loading: bool, error: string)

  /** The position of the last record of the type, or -1. */
  function LastIndex(all: seq<EmailTemplate>, k: string): (r: int)
    ensures -1 <= r < |all|
    ensures r == -1 <==> !Has(all, k)
    ensures r >= 0 ==> all[r].templateType == k && forall j :: r < j < |all| ==> all[j].templateType != k
    decreases |all|
  {
    if |all| == 0 then -1
    else if all[|all| - 1].templateType == k then |all| - 1
    else
      var init := all[..|all| - 1];
      assert forall i :: 0 <= i < |init| ==> init[i] == all[i];
      LastIndex(init, k)
  }

  /** The last record of each type (`reduce` into an object keyed by type: later records overwrite). */
  function Latest(all: seq<EmailTemplate>): (r: map<string, EmailTemplate>)
    ensures forall k :: k in r <==> Has(all, k)
    ensures forall k :: k in r ==> r[k] == all[LastIndex(all, k)]
    decreases |all|
  {
    if |all| == 0 then map[]
    else
      var init := all[..|all| - 1];
      var last := all[|all| - 1];
      assert forall i :: 0 <= i < |init| ==> init[i] == all[i];
      Latest(init)[last.templateType := last]
  }


  /**
   * The record the editor shows for a type with no stored template: the
   * default, marked active, without id; nothing when building the default
   * throws.
   */
  function Placeholder(q: Quoting, templateType: string): (r: Option<EmailTemplate>)
    requires templateType in TemplateTypes
    ensures r.None? <==> q == AsWritten && templateType == WonType
    ensures r.Some? ==> r.value.templateType == templateType && r.value.id.None? && r.value.isActive == Some(true)
    ensures r.Some? ==> r.value.fromEmail == NoReply
    ensures r.Some? ==> var d := DefaultTemplate(q, templateType).template;
      r.value.subject == d.subject && r.value.body == d.body
  {
    match DefaultTemplate(q, templateType)
    case Made(d) => Some(EmailTemplate(None, templateType, NoReply, d.subject, d.body, Some(true)))
    case _ => None
  }

  const LoadError: string := "Error loading templates"

  /**
   * `loadTemplates`: the last stored record of each type, with every editor
   * type that has none filled in by its placeholder record; nothing (the
   * load reports an error) when a placeholder cannot be built.
   */
  function LoadTemplates(q: Quoting, all: seq<EmailTemplate>): (r: Option<map<string, EmailTemplate>>)
    ensures r.None? <==> q == AsWritten && !Has(all, WonType)
    ensures r.Some? ==> forall k :: k in r.value <==> Has(all, k) || k in TemplateTypes
    ensures r.Some? ==> forall k :: Has(all, k) ==> r.value[k] == all[LastIndex(all, k)]
    ensures r.Some? ==> forall k :: k in TemplateTypes && !Has(all, k) ==> Some(r.value[k]) == Placeholder(q, k)
  {
    if q == AsWritten && !Has(all, WonType) then None else Some(Fill(q, Latest(all)))
  }

  /** Every editor type missing from `m` filled in by its placeholder record. */
  function Fill(q: Quoting, m: map<string, EmailTemplate>): (r: map<string, EmailTemplate>)
    requires q == Escaped || WonType in m
    ensures forall k :: k in r <==> k in m || k in TemplateTypes
    ensures forall k :: k in m ==> r[k] == m[k]
    ensures forall k :: k in TemplateTypes && k !in m ==> Some(r[k]) == Placeholder(q, k)
  {
    map k | k in m.Keys + {WonType, AdminType} :: if k in m then m[k] else Placeholder(q, k).value
  }

  /** Every record the editor shows is filed under its own type. */
  lemma LoadedUnderOwnType(q: Quoting, all: seq<EmailTemplate>)
    ensures LoadTemplates(q, all).Some? ==>
      forall k :: k in LoadTemplates(q, all).value ==> LoadTemplates(q, all).value[k].templateType == k
  {
    if LoadTemplates(q, all).Some? {
      var r := LoadTemplates(q, all).value;
      forall k | k in r ensures r[k].templateType == k {
        if Has(all, k) {
          assert r[k] == all[LastIndex(all, k)];
        }
      }
    }
  }

  /** With one stored record per type, the editor shows the record the closing code mails from. */
  lemma EditorAgreesWithMailer(q: Quoting, all: seq<EmailTemplate>, k: string)
    requires forall i, j :: 0 <= i < |all| && 0 <= j < |all| && all[i].templateType == all[j].templateType ==> i == j
    requires Has(all, k)
    ensures LoadTemplates(q, all).Some? ==> LoadTemplates(q, all).value[k] == Notify.FindTemplate(all, k).value
  {
    var i := LastIndex(all, k);
    var f :| 0 <= f < |all| && all[f] == Notify.FindTemplate(all, k).value && all[f].templateType == k
      && forall j :: 0 <= j < f ==> all[j].templateType != k;
  }

  /**
   * Opening the editor (`initializeTemplates`): seed with the editor's
   * defaults; if the loop ran to the end, load the store (`listFails` when
   * the listing fails, which leaves an empty editor with an error); if it
   * stopped, the page keeps showing its loading state.
   */
  function Open(q: Quoting, store: seq<EmailTemplate>, fails: set<string>, listFails: bool): (r: (seq<EmailTemplate>, Editor))
    ensures var (s, done) := SeedUntilFailure(store, store, SiteDefaults, Failing(q, fails));
      && r.0 == s
      && (!done ==> r.1 == Editor(map[], WonType, true, ""))
      && (done && (listFails || LoadTemplates(q, s).None?) ==> r.1 == Editor(map[], WonType, false, LoadError))
      && (done && !listFails && LoadTemplates(q, s).Some? ==> r.1 == Editor(LoadTemplates(q, s).value, WonType, false, ""))
  {
    var (s, done) := SeedUntilFailure(store, store, SiteDefaults, Failing(q, fails));
    if !done then (s, Editor(map[], WonType, true, ""))
    else if listFails then (s, Editor(map[], WonType, false, LoadError))
    else match LoadTemplates(q, s)
      case None => (s, Editor(map[], WonType, false, LoadError))
      case Some(m) => (s, Editor(m, WonType, false, ""))
  }

  /**
   * As written, opening the editor on a store without a winner template
   * creates nothing and never stops loading: building the winner default
   * throws, and the catch skips the load.
   */
  lemma OpenAsWrittenHangs(store: seq<EmailTemplate>, fails: set<string>, listFails: bool)
    requires !Has(store, WonType)
    ensures Open(AsWritten, store, fails, listFails) == (store, Editor(map[], WonType, true, ""))
  {
    DefaultsInOrder();
  }

  /**
   * With the `$` escaped and every create and the listing succeeding, the
   * editor opens on any store: it stops loading, reports no error, and the
   * store holds what the carry-on loop would have created.
   */
  lemma OpenEscapedLoads(store: seq<EmailTemplate>)
    ensures var (s, e) := Open(Escaped, store, {}, false);
      s == Seed(store, SiteDefaults, {}) && !e.loading && e.error == ""
  {
    DefaultsInOrder();
    var (s, done) := SeedUntilFailure(store, store, SiteDefaults, {});
    assert done;
    assert LoadTemplates(Escaped, s).Some?;
  }

  /**
   * Once the editor has stopped loading without an error, every editor type
   * is stored and shown from the store: the placeholder record is never
   * what the editor shows after opening.
   */
  lemma OpenShowsStored(q: Quoting, store: seq<EmailTemplate>, fails: set<string>, listFails: bool)
    ensures var (s, e) := Open(q, store, fails, listFails);
      !e.loading && e.error == "" ==>
        forall k :: k in TemplateTypes ==> Has(s, k) && k in e.templates && e.templates[k] == s[LastIndex(s, k)]
  {
    var (s, done) := SeedUntilFailure(store, store, SiteDefaults, Failing(q, fails));
    if done {
      DoneStoresAll(store, SiteDefaults, Failing(q, fails));
      DefaultsInOrder();
      InOrderStored(SiteDefaults, s);
    }
  }

  /** When the editor's loop runs to the end, every default's type is stored. */
  lemma DoneStoresAll(store: seq<EmailTemplate>, ds: seq<EmailTemplate>, fails: set<string>)
    requires SeedUntilFailure(store, store, ds, fails).1
    ensures forall i :: 0 <= i < |ds| ==> Has(SeedUntilFailure(store, store, ds, fails).0, ds[i].templateType)
  {
    var s := SeedUntilFailure(store, store, ds, fails).0;
    assert s == Seed(store, ds, fails);
    SeedStoresAll(store, ds, fails);
    forall i | 0 <= i < |ds| ensures Has(s, ds[i].templateType) {
      if ds[i].templateType in fails {
        var j :| 0 <= j < |store| && store[j].templateType == ds[i].templateType;
        assert s[j] == s[..|store|][j];
      }
    }
  }

  /**
   * With the `$` escaped, the editor's loop, when no create of a missing
   * type fails, stores what the stand-alone seeder stores; as written the
   * stand-alone seeder stores nothing.
   */
  lemma SeedersAgree(store: seq<EmailTemplate>, fails: set<string>, listFails: bool)
    requires forall i :: 0 <= i < |SiteDefaults| && !Has(store, SiteDefaults[i].templateType) ==> SiteDefaults[i].templateType !in fails
    ensures Open(Escaped, store, fails, listFails).0 == InitializeDefaults(Escaped, store, fails)
    ensures !Open(Escaped, store, fails, listFails).1.loading
    ensures InitializeDefaults(AsWritten, store, fails) == store
  {
  }

  /**
   * Once the listing page has seeded its plain-text templates with no failed
   * create, the editor opens even as written: nothing is missing, so no
   * default is built, nothing is created, and the stored records load.
   */
  lemma ListingSeedLetsEditorOpen(q: Quoting, store: seq<EmailTemplate>, fails: set<string>)
    ensures var s := Seed(store, PlainDefaults, {});
      var (s', e) := Open(q, s, fails, false);
      s' == s && !e.loading && e.error == ""
  {
    var s := Seed(store, PlainDefaults, {});
    SeedStoresAll(store, PlainDefaults, {});
    DefaultsInOrder();
    InOrderStored(PlainDefaults, s);
    OpensOnComplete(q, s, fails);
  }

  /** A store holding both editor types opens without creating anything. */
  lemma OpensOnComplete(q: Quoting, s: seq<EmailTemplate>, fails: set<string>)
    requires Has(s, WonType) && Has(s, AdminType)
    ensures var (s', e) := Open(q, s, fails, false);
      s' == s && !e.loading && e.error == ""
  {
    DefaultsInOrder();
    InOrderStored(SiteDefaults, s);
    CompleteUntilFailure(s, SiteDefaults, Failing(q, fails));
    OpensWhenSeeded(q, s, fails);
  }

  /** When the editor's loop creates nothing and a winner template is stored, the stored records load. */
  lemma OpensWhenSeeded(q: Quoting, s: seq<EmailTemplate>, fails: set<string>)
    requires SeedUntilFailure(s, s, SiteDefaults, Failing(q, fails)) == (s, true)
    requires Has(s, WonType)
    ensures var (s', e) := Open(q, s, fails, false);
      s' == s && !e.loading && e.error == ""
  {
  }

  /** With every default's type already stored, the editor's loop runs to the end and creates nothing. */
  lemma CompleteUntilFailure(store: seq<EmailTemplate>, ds: seq<EmailTemplate>, fails: set<string>)
    requires forall i :: 0 <= i < |ds| ==> Has(store, ds[i].templateType)
    ensures SeedUntilFailure(store, store, ds, fails) == (store, true)
  {
    SeedComplete(store, ds, fails);
  }

  /** The fields the editor's inputs change. */
  datatype Field = FromEmail | Subject | Body

  function SetField(t: EmailTemplate, f: Field, value: string): EmailTemplate {
    match f
    case FromEmail => t.(fromEmail := value)
    case Subject => t.(subject := value)
    case Body => t.(body := value)
  }

  function FieldOf(t: EmailTemplate, f: Field): string {
    match f
    case FromEmail => t.fromEmail
    case Subject => t.subject
    case Body => t.body
  }

  /** The record `{...undefined}` spreads into: nothing set. */
  const Blank: EmailTemplate := EmailTemplate(None, "", "", "", "", None)

  /**
   * `handleChange`: the active type's record gets the new value in that one
   * field; every other field and every other type's record stay as they
   * were. With no record for the active type, the new one holds only that
   * field.
   */
  function HandleChange(e: Editor, f: Field, value: string): (r: Editor)
    ensures r.templates.Keys == e.templates.Keys + {e.activeType}
    ensures FieldOf(r.templates[e.activeType], f) == value
    ensures forall g :: g != f ==>
      FieldOf(r.templates[e.activeType], g) == (if e.activeType in e.templates then FieldOf(e.templates[e.activeType], g) else "")
    ensures var before := if e.activeType in e.templates then e.templates[e.activeType] else Blank;
      && r.templates[e.activeType].id == before.id && r.templates[e.activeType].templateType == before.templateType
      && r.templates[e.activeType].isActive == before.isActive
    ensures forall k :: k in e.templates && k != e.activeType ==> r.templates[k] == e.templates[k]
    ensures r.activeType == e.activeType && r.loading == e.loading && r.error == e.error
  {
    var before := if e.activeType in e.templates then e.templates[e.activeType] else Blank;
    e.(templates := e.templates[e.activeType := SetField(before, f, value)])
  }

  /** Changing a field back to the value it had restores the editor. */
  lemma ChangeBack(e: Editor, f: Field, value: string)
    requires e.activeType in e.templates
    ensures HandleChange(HandleChange(e, f, value), f, FieldOf(e.templates[e.activeType], f)) == e
  {
    var t := e.templates[e.activeType];
    assert SetField(SetField(t, f, value), f, FieldOf(t, f)) == t;
    assert e.templates[e.activeType := t] == e.templates;
  }

  /** `EmailTemplate.update`: every record with the id is replaced by `t`. */
  function Update(store: seq<EmailTemplate>, id: Id, t: EmailTemplate): (r: seq<EmailTemplate>)
    ensures |r| == |store|
    ensures forall i :: 0 <= i < |store| ==> r[i] == if store[i].id == Some(id) then t else store[i]
  {
    seq(|store|, i requires 0 <= i < |store| => if store[i].id == Some(id) then t else store[i])
  }

  /** What saving leaves: the store and the error message. */
  datatype Saved = Saved(store: seq<EmailTemplate>, error: string)

  const SaveError: string := "Error saving template"

  /**
   * `handleSave` as written: a record with an id updates the stored record
   * (an id the store does not know fails); one without is created. The
   * editor's own record is left as it was, so it never learns the new id.
   */
  function HandleSave(store: seq<EmailTemplate>, e: Editor): (r: Saved)
    ensures e.activeType !in e.templates ==> r == Saved(store, SaveError)
    ensures e.activeType in e.templates && e.templates[e.activeType].id.None? ==>
      r == Saved(Create(store, e.templates[e.activeType]), "")
    ensures e.activeType in e.templates && e.templates[e.activeType].id.Some? ==>
      var t := e.templates[e.activeType];
      && (r.error == "" <==> exists i :: 0 <= i < |store| && store[i].id == t.id)
      && (r.error == "" ==> r.store == Update(store, t.id.value, t))
      && (r.error != "" ==> r == Saved(store, SaveError))
  {
    if e.activeType !in e.templates then Saved(store, SaveError)
    else
      var t := e.templates[e.activeType];
      if t.id.None? then Saved(Create(store, t), "")
      else if exists i :: 0 <= i < |store| && store[i].id == t.id then Saved(Update(store, t.id.value, t), "")
      else Saved(store, SaveError)
  }

  /**
   * Saving an id-less record of a type the store lacks, editing it and saving
   * again stores two records of the type. The editor, which loads the last
   * one, shows the second text; the closing code, which mails from the
   * first, sends the first. Opening the editor never shows such a record
   * (`OpenShowsStored`); a record deleted between the seeding and the load
   * would be one.
   */
  lemma SaveTwiceDuplicates(store: seq<EmailTemplate>, e: Editor, value: string)
    requires e.activeType in e.templates && e.templates[e.activeType].id.None?
    requires e.templates[e.activeType].templateType == e.activeType && !Has(store, e.activeType)
    requires value != e.templates[e.activeType].subject
    ensures var s1 := HandleSave(store, e).store;
      var e2 := HandleChange(e, Subject, value);
      var s2 := HandleSave(s1, e2).store;
      && |s2| == |store| + 2
      && s2[|store|].templateType == e.activeType && s2[|store| + 1].templateType == e.activeType
      && Latest(s2)[e.activeType].subject == value
      && Notify.FindTemplate(s2, e.activeType).value.subject == e.templates[e.activeType].subject
      && Notify.FindTemplate(s2, e.activeType).value.subject != value
  {
    var k := e.activeType;
    var s1 := HandleSave(store, e).store;
    var e2 := HandleChange(e, Subject, value);
    var s2 := HandleSave(s1, e2).store;
    assert s2[..|s1|] == s1 && s1[..|store|] == store;
    assert forall i :: 0 <= i < |store| ==> s2[i] == store[i];
    assert s2[|store|] == s1[|store|];
    var f :| 0 <= f < |s2| && s2[f] == Notify.FindTemplate(s2, k).value && s2[f].templateType == k
      && forall j :: 0 <= j < f ==> s2[j].templateType != k;
    assert f == |store|;
    assert LastIndex(s2, k) == |store| + 1;
  }

  /**
   * The corrected save: a created record's new id is written back into the
   * editor, so the next save updates it.
   */
  function HandleSaveKeepingId(store: seq<EmailTemplate>, e: Editor): (r: (Saved, Editor))
    ensures r.0.store == HandleSave(store, e).store && r.0.error == HandleSave(store, e).error
    ensures e.activeType in e.templates && e.templates[e.activeType].id.None? ==>
      && r.1 == e.(templates := e.templates[e.activeType := r.0.store[|store|]])
      && r.0.store[|store|].id.Some?
    ensures !(e.activeType in e.templates && e.templates[e.activeType].id.None?) ==> r.1 == e
  {
    var saved := HandleSave(store, e);
    if e.activeType in e.templates && e.templates[e.activeType].id.None? then
      (saved, e.(templates := e.templates[e.activeType := saved.store[|store|]]))
    else (saved, e)
  }

  /**
   * With the corrected save, saving, editing and saving again keeps one
   * record of the type, holding the latest text, and the editor and the
   * closing code agree on it.
   */
  lemma SaveTwiceUpdates(store: seq<EmailTemplate>, e: Editor, value: string)
    requires e.activeType in e.templates && e.templates[e.activeType].id.None?
    requires e.templates[e.activeType].templateType == e.activeType && !Has(store, e.activeType)
    ensures var (saved1, e1) := HandleSaveKeepingId(store, e);
      var e2 := HandleChange(e1, Subject, value);
      var s2 := HandleSaveKeepingId(saved1.store, e2).0.store;
      && |s2| == |store| + 1 && s2[..|store|] == store
      && s2[|store|].templateType == e.activeType && s2[|store|].subject == value
      && Latest(s2)[e.activeType] == Notify.FindTemplate(s2, e.activeType).value == s2[|store|]
  {
    var k := e.activeType;
    var (saved1, e1) := HandleSaveKeepingId(store, e);
    var s1 := saved1.store;
    var t1 := s1[|store|];
    var e2 := HandleChange(e1, Subject, value);
    var t2 := e2.templates[k];
    assert t2.id == t1.id;
    assert s1[|store|].id == t2.id;
    var s2 := HandleSaveKeepingId(s1, e2).0.store;
    assert s2 == Update(s1, t2.id.value, t2);
    forall i | 0 <= i < |store| ensures s2[i] == store[i] {
      assert s1[i] == store[i];
    }
    assert s2[|store|] == t2;
    assert s2[..|store|] == store;
    assert forall x :: 0 <= x < |store| ==> s2[x].templateType != k;
    var f :| 0 <= f < |s2| && s2[f] == Notify.FindTemplate(s2, k).value && s2[f].templateType == k
      && forall j :: 0 <= j < f ==> s2[j].templateType != k;
    assert LastIndex(s2, k) == |store|;
  }

  /** A failed listing leaves the editor open with no records and the load error, unless seeding stopped first. */
  lemma OpenListFails(q: Quoting, store: seq<EmailTemplate>, fails: set<string>)
    ensures Open(q, store, fails, true).0 == SeedUntilFailure(store, store, SiteDefaults, Failing(q, fails)).0
    ensures Open(q, store, fails, true).1.loading || Open(q, store, fails, true).1 == Editor(map[], WonType, false, LoadError)
  {
  }

  /**
   * In an editor with no records, the first edit makes a record holding
   * only that field, and each save creates it anew: saving, editing and
   * saving again stores two records, neither of any template type.
   */
  lemma EmptyEditorSavesTwice(store: seq<EmailTemplate>, e: Editor, v1: string, v2: string)
    requires e.templates == map[]
    ensures var e1 := HandleChange(e, Subject, v1);
      var s1 := HandleSave(store, e1).store;
      var s2 := HandleSave(s1, HandleChange(e1, Subject, v2)).store;
      && |s2| == |store| + 2 && s2[..|store|] == store
      && s2[|store|].subject == v1 && s2[|store| + 1].subject == v2
      && s2[|store|].templateType == "" && s2[|store| + 1].templateType == ""
      && s2[|store|].id != s2[|store| + 1].id
  {
    var e1 := HandleChange(e, Subject, v1);
    assert e1.templates[e.activeType] == Blank.(subject := v1);
    var s1 := HandleSave(store, e1).store;
    var e2 := HandleChange(e1, Subject, v2);
    assert e2.templates[e.activeType] == Blank.(subject := v2);
    var s2 := HandleSave(s1, e2).store;
    assert s2[..|s1|] == s1 && s1[..|store|] == store;
    assert s2[|store|] == s1[|store|];
  }

  /**
   * With the corrected save, the same steps store one record, holding the
   * latest text.
   */
  lemma EmptyEditorSavesOnce(store: seq<EmailTemplate>, e: Editor, v1: string, v2: string)
    requires e.templates == map[]
    ensures var (saved1, e1) := HandleSaveKeepingId(store, HandleChange(e, Subject, v1));
      var s2 := HandleSaveKeepingId(saved1.store, HandleChange(e1, Subject, v2)).0.store;
      && |s2| == |store| + 1 && s2[..|store|] == store
      && s2[|store|].subject == v2 && s2[|store|].templateType == ""
  {
    var k := e.activeType;
    var (saved1, e1) := HandleSaveKeepingId(store, HandleChange(e, Subject, v1));
    var s1 := saved1.store;
    var e2 := HandleChange(e1, Subject, v2);
    var t2 := e2.templates[k];
    assert t2.id == s1[|store|].id;
    var s2 := HandleSaveKeepingId(s1, e2).0.store;
    assert s2 == Update(s1, t2.id.value, t2);
    forall i | 0 <= i < |store| ensures s2[i] == store[i] {
      assert s1[i] == store[i];
    }
    assert s2[|store|] == t2;
    assert s2[..|store|] == store;
  }

  /**
   * A load whose listing fails leaves the editor open with no records, so
   * saving, editing and saving again stores two records of no template type.
   */
  lemma FailedLoadSavesTwice(q: Quoting, store: seq<EmailTemplate>, fails: set<string>, v1: string, v2: string)
    ensures var (s, e) := Open(q, store, fails, true);
      var e1 := HandleChange(e, Subject, v1);
      var s1 := HandleSave(s, e1).store;
      var s2 := HandleSave(s1, HandleChange(e1, Subject, v2)).store;
      !e.loading ==>
        && e.error == LoadError
        && |s2| == |s| + 2 && s2[..|s|] == s
        && s2[|s|].subject == v1 && s2[|s| + 1].subject == v2
        && s2[|s|].templateType == "" && s2[|s| + 1].templateType == ""
  {
    var (s, e) := Open(q, store, fails, true);
    OpenListFails(q, store, fails);
    if !e.loading {
      EmptyEditorSavesTwice(s, e, v1, v2);
    }
  }

  /**
   * With the corrected save, the same steps after a failed load store one
   * record, holding the latest text.
   */
  lemma FailedLoadSavesOnce(q: Quoting, store: seq<EmailTemplate>, fails: set<string>, v1: string, v2: string)
    ensures var (s, e) := Open(q, store, fails, true);
      var (saved1, e1) := HandleSaveKeepingId(s, HandleChange(e, Subject, v1));
      var s2 := HandleSaveKeepingId(saved1.store, HandleChange(e1, Subject, v2)).0.store;
      !e.loading ==> |s2| == |s| + 1 && s2[..|s|] == s && s2[|s|].subject == v2
  {
    var (s, e) := Open(q, store, fails, true);
    OpenListFails(q, store, fails);
    if !e.loading {
      EmptyEditorSavesOnce(s, e, v1, v2);
    }
  }
}

=== FILE: text.dfy ===
/**
 * The handful of JavaScript string operations the pages use: `toLowerCase`
 * (on the ASCII letters; other characters are kept), `includes`,
 * `startsWith`-style prefix tests and `split(sep)[0]`.
 */
module Text {

  function LowerChar(c: char): char {
    if 'A' <= c <= 'Z' then (c as int + 32) as char else c
  }

  function Lower(s: string): (r: string)
    ensures |r| == |s|
    ensures forall i :: 0 <= i < |s| ==> r[i] == LowerChar(s[i])
    ensures forall i :: 0 <= i < |r| ==> !('A' <= r[i] <= 'Z')
  {
    if |s| == 0 then [] else [LowerChar(s[0])] + Lower(s[1..])
  }

  lemma {:induction false} LowerAppend(a: string, b: string)
    ensures Lower(a + b) == Lower(a) + Lower(b)
  {
    assert Lower(a + b) == Lower(a) + Lower(b) by {
      var l, r := Lower(a + b), Lower(a) + Lower(b);
      assert |l| == |r|;
      forall i | 0 <= i < |l| ensures l[i] == r[i] {
        if i < |a| { assert (a + b)[i] == a[i]; } else { assert (a + b)[i] == b[i - |a|]; }
      }
    }
  }

  predicate IsPrefix(p: string, s: string) {
    |p| <= |s| && s[..|p|] == p
  }

  /** `hay.includes(needle)`, searching from the left. */
  predicate Includes(hay: string, needle: string)
    decreases |hay|
  {
    IsPrefix(needle, hay) || (|hay| > 0 && Includes(hay[1..], needle))
  }

  /** `needle` sits in `hay` at position `i`. */
  predicate OccursAt(hay: string, needle: string, i: int) {
    0 <= i && i + |needle| <= |hay| && hay[i..i + |needle|] == needle
  }

  /** The left-to-right search agrees with "some position holds the needle". */
  lemma {:induction false} IncludesIff(hay: string, needle: string)
    ensures Includes(hay, needle) <==> exists i :: OccursAt(hay, needle, i)
    decreases |hay|
  {
    if IsPrefix(needle, hay) {
      assert OccursAt(hay, needle, 0);
    } else if |hay| == 0 {
      assert forall i :: OccursAt(hay, needle, i) ==> i == 0 && needle == [];
    } else {
      IncludesIff(hay[1..], needle);
      if exists i :: OccursAt(hay[1..], needle, i) {
        var i :| OccursAt(hay[1..], needle, i);
        assert hay[1..][i..i + |needle|] == hay[i + 1..i + 1 + |needle|];
        assert OccursAt(hay, needle, i + 1);
      }
      if exists i :: OccursAt(hay, needle, i) {
        var i :| OccursAt(hay, needle, i);
        assert i != 0;
        assert hay[1..][i - 1..i - 1 + |needle|] == hay[i..i + |needle|];
        assert OccursAt(hay[1..], needle, i - 1);
      }
    }
  }

  /** `hay.toLowerCase().includes(needle.toLowerCase())`. */
  predicate IncludesIgnoringCase(hay: string, needle: string) {
    Includes(Lower(hay), Lower(needle))
  }

  /** An empty search text is found in every string. */
  lemma EmptyIsEverywhere(hay: string)
    ensures IncludesIgnoringCase(hay, "")
  {
    assert IsPrefix(Lower(""), Lower(hay));
  }

  /** The character `c` occurs in `s` (`s.includes(c)` for one character). */
  predicate HasChar(s: string, c: char) {
    exists i :: 0 <= i < |s| && s[i] == c
  }

  /** `s.split(sep)[0]`: the text before the first `sep`, or all of `s`. */
  function BeforeFirst(s: string, sep: char): (r: string)
    ensures IsPrefix(r, s)
    ensures forall i :: 0 <= i < |r| ==> r[i] != sep
    ensures |r| < |s| ==> s[|r|] == sep
  {
    if |s| == 0 then ""
    else if s[0] == sep then ""
    else [s[0]] + BeforeFirst(s[1..], sep)
  }

  /** `s.split(sep).pop()`: the text after the last `sep`, or all of `s`. */
  function AfterLast(s: string, sep: char): (r: string)
    ensures |r| <= |s| && r == s[|s| - |r|..]
    ensures forall i :: 0 <= i < |r| ==> r[i] != sep
    ensures |r| < |s| ==> s[|s| - |r| - 1] == sep
  {
    if |s| == 0 then ""
    else if s[|s| - 1] == sep then ""
    else AfterLast(s[..|s| - 1], sep) + [s[|s| - 1]]
  }

  /** The user name part of an e-mail address (`email.split('@')[0]`). */
  function LocalPart(email: string): (r: string)
    ensures IsPrefix(r, email)
    ensures forall i :: 0 <= i < |r| ==> r[i] != '@'
    ensures |r| < |email| ==> email[|r|] == '@'
  {
    BeforeFirst(email, '@')
  }
}

=== FILE: users.dfy ===
/**
 * The admin's user table: its search, the role button, the two edit
 * handlers (each a read-modify-write of the stored record), the invite
 * dialog and which rows carry controls.
 */
module Users {

  import opened Model
  import opened Text
  import Seqs

  /** The search matches the e-mail or the full name, ignoring case. */
  predicate Matches(u: User, search: string) {
    IncludesIgnoringCase(u.email, search) || IncludesIgnoringCase(u.fullName, search)
  }

  /** `filteredUsers`, in the order the store lists them. */
  function Filtered(users: seq<User>, search: string): (r: seq<User>)
    ensures forall i :: 0 <= i < |r| ==> r[i] in users && Matches(r[i], search)
    ensures forall i :: 0 <= i < |users| && Matches(users[i], search) ==> users[i] in r
  {
    Seqs.Filter(users, (u: User) => Matches(u, search))
  }

  lemma FilteredKeepsOrder(users: seq<User>, search: string)
    ensures Seqs.IsSubseq(Filtered(users, search), users)
    ensures Filtered(users, "") == users
  {
    Seqs.FilterIsSubseq(users, (u: User) => Matches(u, search));
    forall i | 0 <= i < |users| ensures Matches(users[i], "") {
      EmptyIsEverywhere(users[i].email);
    }
    Seqs.FilterAll(users, (u: User) => Matches(u, ""));
  }

  /** The role button: an admin becomes a user, anyone else an admin. */
  function ToggleRole(role: string): (r: string)
    ensures r == "admin" <==> role != "admin"
    ensures r == "user" || r == "admin"
  {
    if role == "admin" then "user" else "admin"
  }

  /** Pressing the button twice restores exactly the two known roles; any other role ends as "user". */
  lemma ToggleRoleTwice(role: string)
    ensures ToggleRole(ToggleRole(role)) == role <==> role == "admin" || role == "user"
    ensures role != "admin" && role != "user" ==> ToggleRole(ToggleRole(role)) == "user"
  {
  }

  /**
   * `handleRoleUpdate`: the stored record is read and written back with only
   * its role replaced; an unknown id fails and changes nothing.
   */
  function UpdateRole(store: map<Id, User>, id: Id, role: string): (r: map<Id, User>)
    ensures id !in store ==> r == store
    ensures id in store ==>
      && r.Keys == store.Keys
      && r[id].role == role && r[id].email == store[id].email && r[id].fullName == store[id].fullName
      && r[id].id == store[id].id
      && forall k :: k in store && k != id ==> r[k] == store[k]
  {
    if id !in store then store else store[id := store[id].(role := role)]
  }

  /**
   * `handleUserUpdate`: with no user being edited nothing happens; otherwise
   * the stored record gets the edited full name and role and keeps every
   * other field, whatever the edit form held for them.
   */
  function UpdateUser(store: map<Id, User>, editing: Option<User>): (r: map<Id, User>)
    ensures editing.None? || editing.value.id !in store ==> r == store
    ensures editing.Some? && editing.value.id in store ==>
      var id := editing.value.id;
      && r.Keys == store.Keys
      && r[id].fullName == editing.value.fullName && r[id].role == editing.value.role
      && r[id].email == store[id].email && r[id].id == store[id].id
      && forall k :: k in store && k != id ==> r[k] == store[k]
  {
    if editing.None? || editing.value.id !in store then store
    else
      var id := editing.value.id;
      store[id := store[id].(fullName := editing.value.fullName, role := editing.value.role)]
  }

  /** The role button is the user edit with the name left as stored. */
  lemma RoleUpdateIsUserEdit(store: map<Id, User>, id: Id, role: string)
    requires id in store && store[id].id == id
    ensures UpdateRole(store, id, role) == UpdateUser(store, Some(store[id].(role := role)))
  {
    var e := store[id].(role := role);
    assert store[id].(fullName := e.fullName, role := e.role) == store[id].(role := role);
  }

  /** The invite dialog's state. */
  datatype InviteDialog = InviteDialog(open: bool, email: string)

  /**
   * `handleInvite`: an empty address or one without `@` is ignored;
   * otherwise the dialog closes and its field is cleared. No invitation is
   * stored or sent.
   */
  function Invite(d: InviteDialog): (r: InviteDialog)
    ensures d.email == "" || !HasChar(d.email, '@') ==> r == d
    ensures d.email != "" && HasChar(d.email, '@') ==> r == InviteDialog(false, "")
  {
    if d.email == "" || !HasChar(d.email, '@') then d else InviteDialog(false, "")
  }

  /** Invite is idempotent: a second submit changes nothing more. */
  lemma InviteIdempotent(d: InviteDialog)
    ensures Invite(Invite(d)) == Invite(d)
  {
  }

  /** Edit, role and delete controls appear on every row but the admin's own. */
  predicate ControlsShown(current: User, row: User) {
    current.id != row.id
  }

  /** A press on a row's controls: the role button, or the edit dialog saved with a name and a role. */
  datatype RowAction = RoleButton(row: User) | EditSave(row: User, fullName: string, role: string)

  /** One press: a row without controls offers nothing to press, so the store is left as it was. */
  function Press(store: map<Id, User>, current: User, a: RowAction): (r: map<Id, User>)
    ensures r.Keys == store.Keys
    ensures !ControlsShown(current, a.row) ==> r == store
    ensures forall k :: k in store && k != a.row.id ==> r[k] == store[k]
    ensures ControlsShown(current, a.row) && a.RoleButton? && a.row.id in store ==>
      r[a.row.id] == store[a.row.id].(role := ToggleRole(a.row.role))
    ensures ControlsShown(current, a.row) && a.EditSave? && a.row.id in store ==>
      r[a.row.id] == store[a.row.id].(fullName := a.fullName, role := a.role)
  {
    if !ControlsShown(current, a.row) then store
    else
      match a
      case RoleButton(row) => UpdateRole(store, row.id, ToggleRole(row.role))
      case EditSave(row, fullName, role) => UpdateUser(store, Some(row.(fullName := fullName, role := role)))
  }

  /** A session of presses on the table, in order. */
  function PressAll(store: map<Id, User>, current: User, actions: seq<RowAction>): (r: map<Id, User>)
    ensures r.Keys == store.Keys
    ensures forall k :: k in store && (forall i :: 0 <= i < |actions| ==> actions[i].row.id != k) ==> r[k] == store[k]
    decreases |actions|
  {
    if |actions| == 0 then store else PressAll(Press(store, current, actions[0]), current, actions[1..])
  }

  /**
   * No admin can change their own record from the table: whatever rows are
   * pressed, the signed-in admin's stored record stays as it was.
   */
  lemma {:induction false} NoSelfControls(store: map<Id, User>, current: User, actions: seq<RowAction>)
    requires current.id in store
    ensures PressAll(store, current, actions)[current.id] == store[current.id]
    decreases |actions|
  {
    if |actions| > 0 {
      var next := Press(store, current, actions[0]);
      assert next[current.id] == store[current.id];
      NoSelfControls(next, current, actions[1..]);
    }
  }
}
